=== FILE: README.md ===
# SkillScheduler scheduling core in Dafny

This project models the scheduling and replanning core of SkillScheduler, a
study planner. A learner declares skills with a target number of days and
a daily learning budget. The backend breaks each skill into daily topics
and tasks, then keeps the calendar consistent as time passes.

The model covers these parts:

- **The Task and Skill records** (`task.dfy`, `skill.dfy`): schema bounds,
  defaults and lifecycle methods. `markComplete`, `markMissed` and
  `reschedule` keep a task's first original date. The skill's pre-save
  hook recomputes the end date, and progress is the rounded percentage of
  completed topics.
- **The store** (`store.dfy`, `sorting.dfy`): the three collections, as
  sequences in insertion order. A query's `.sort({...})` is a stable sort
  on a lexicographic key.
- **The replanner** (`capacity.dfy`, `replanner.dfy`, `reflow.dfy`):
  - the missed-task sweep;
  - the daily capacity and the 30-day slot search;
  - the two chaining replanners, for missed tasks and for one skill;
  - workout generation;
  - the reflow run when the daily budget changes. It splits the budget
    equally among in-progress skills and sweeps up to 365 days. Each skill
    fills its share per day, splitting a task and saving a continuation
    when only part of it fits. At the end, each skill's end date moves to
    its latest task.
- **The learning planner** (`planner.dfy`): the rule-based fallback
  curriculum, the defaults given to generated topics, the cap at the
  skill's hours, and the task list.
- **The REST controllers** for tasks, skills and the profile
  (`task_controller.dfy`, `skill_controller.dfy`,
  `profile_controller.dfy`). Each handler is a function from the store and
  the request to the new store and a reply with its HTTP status (`http.dfy`).

## Conventions

- **Time:**
  - Days are integers. "Today" and "now" are parameters.
  - A stored date is its day number; `DayWindow` shows that the UTC window
    `getTasksForDate` queries is exactly one day number.
- **Numbers:**
  - Durations and hours are exact reals, so JavaScript's floating-point
    rounding is not modelled.
  - `Math.round` is modelled exactly as round-half-up.
- **Falsy defaults:** JavaScript's `x || d` is written out (`OrInt`,
  `OrReal`, `OrString`). A zero, an empty string or a missing value falls
  back to `d`. A field the source tests with `!== undefined` is an
  `Option` read with `GetOr`.
- **Validation:**
  - In the controllers and in the reflow, a save runs the schema
    validators (`ValidTask`, `ValidSkill`, `ValidUser`). When one fails
    the handler answers 500, and writes made earlier in the same request
    stay in the store.
  - The missed-task sweep, the chaining replanners and the generated
    workouts write without a validation test in the model. For the sweep
    and the replanners, lemmas show that from a store of valid documents
    every such save passes the validators, so no failure branch is
    missing: `Replanner.DetectMissedWellFormed`,
    `Replanner.ChainSavesValid`, `Replanner.ReplanMissedSavesValid` and
    `Replanner.ReplanSkillSavesValid`. For the workouts,
    `Replanner.WorkoutTask` and `Replanner.GenerateWorkoutsWellFormed`
    show the same.
  - When daily hours divided among the active skills leave a share below
    15 minutes, the reflow's first save fails validation. The whole request
    then fails (`Reflow.RescheduleTinyShareFails`).
- **Ids:**
  - New tasks and skills take consecutive ids from one counter.
  - `createdAt` order is id order, so `getSkills`' newest-first sort is
    modelled as descending ids.
- **Reflow results:** `Reflow.ReflowResult` also carries the store after
  the run (`db`) and the placements of every skill on every day (`log`).
  They are records for stating properties. The JSON reply holds only the
  success flag, the count, the hours per skill and the skills.
- **Mongoose modification tracking:** a path counts as modified only when
  its value actually changes. So `updateSkill` recomputes the end date only
  when `targetDays` changed.

Where the prose description of the system and the code disagree, the
model follows the code:

- `updateProfile` saves the user before reflowing. A failed reflow
  therefore leaves the new profile saved and returns 500.
- `deleteSkill` deletes every task linked to the skill, whatever its user,
  and reflows with the stored budget. It falls back to 2 hours only when
  that budget is 0.
- `completeTask` saves the completed task before touching the skill. A
  topic index out of range then gives 500 with the task already completed.

## Model

| member | source | states |
|---|---|---|
| TaskModel.Materialize | backend/models/Task.js:22-60 | The stored document keeps the draft's fields and fills each absent one with the schema default: learning, 60 minutes, importance 3, splittable, pending, priority 1, never rescheduled. A titled draft relying on those defaults is valid. |
| TaskModel.MarkComplete | backend/models/Task.js:108-112 | Only status and completion time change; the status becomes completed, stamped with the given instant. |
| TaskModel.MarkMissed | backend/models/Task.js:115-121 | Only status and original date change; the status becomes missed, and the original date is kept if set, otherwise set to the scheduled date. |
| TaskModel.Reschedule | backend/models/Task.js:124-132 | The task moves to the new date as rescheduled, with its counter up by one and its first original date kept; nothing else changes. |
| TaskModel.LifecyclePreservesValidity | backend/models/Task.js:108-132 | None of the three lifecycle methods can make a valid task fail its validators. |
| TaskModel.OriginalDateSetOnce | backend/models/Task.js:115-132 | Once a task has been moved or marked missed, later moves never overwrite its original date. Two moves count two and remember the very first date. |
| TaskModel.MarkMissedIdempotent | backend/models/Task.js:115-121 | Marking a task missed twice is the same as marking it once. |
| SkillModel.CalculateProgress | backend/models/Skill.js:80-84 | Progress is 0 without topics, otherwise the nearest integer to 100 × completed / total, halves rounding up. |
| SkillModel.ProgressInRange | backend/models/Skill.js:52-57 | Computed progress always lies within the schema's 0..100. |
| SkillModel.ProgressExtremes | backend/models/Skill.js:80-84 | All topics completed gives 100; none completed gives 0. |
| SkillModel.CompleteTopic | backend/controllers/taskController.js:205 | Only the given topic changes, and it becomes completed. |
| SkillModel.CompleteTopicCount | backend/models/Skill.js:82 | Completing a topic raises the completed count by one exactly when it was not completed already. |
| SkillModel.ProgressMonotone | backend/controllers/taskController.js:205-206 | Completing a topic never lowers progress. |
| SkillModel.PreSave | backend/models/Skill.js:69-77 | When the target days or start date changed, the end date becomes the start plus the target days; otherwise it is kept. No other field changes. |
| SkillModel.StatusForProgress | backend/controllers/skillController.js:148-153 | Progress 100 gives completed and positive progress gives in progress; otherwise the status is kept. |
| SkillModel.RefreshProgress | backend/controllers/skillController.js:146-153 | Progress is recomputed from the topics and stays within 0..100, and the status follows it; no other field changes. |
| Store.DayWindow | backend/models/Task.js:135-143 | A millisecond time lies in the UTC window from midnight to 23:59:59.999 of a day exactly when it belongs to that day number. |
| Store.TasksForDate | backend/models/Task.js:135-145 | Returns exactly the user's tasks on that day. |
| Store.TasksForDateAppend | backend/models/Task.js:135-145 | The query distributes over concatenation, so adding a task affects only the results for its own day. |
| Store.MissedTasks | backend/models/Task.js:148-157 | Returns exactly the user's pending or missed tasks dated before today. |
| Store.FindOwnedTask | backend/controllers/taskController.js:137 | A lookup by id and owner finds a stored task with that id and owner, or reports none exactly when no such task exists. |
| Store.FindSkill | backend/controllers/taskController.js:203 | A lookup by id finds a stored skill with that id, or reports none exactly when none has it. |
| Store.FindOwnedSkill | backend/controllers/taskController.js:39 | A lookup by id and owner finds a stored skill with that id and owner, or reports none exactly when no such skill exists. |
| Store.PutTask | backend/controllers/taskController.js:176 | Saving a task replaces the document with its id in place; every other document and the order are kept. |
| Store.PutSkill | backend/controllers/taskController.js:212 | Saving a skill replaces the document with its id in place; every other document and the order are kept. |
| Store.InsertTask | backend/controllers/taskController.js:45 | Creating a task appends the draft with its schema defaults under the next id, and advances the counter. |
| JsValues.OrInt | backend/controllers/taskController.js:31-32 | `x \|\| d` on numbers: the value when present and non-zero, otherwise the default. |
| JsValues.OrString | backend/controllers/taskController.js:28 | `x \|\| d` on strings: the value when present and non-empty, otherwise the default. |
| JsValues.RoundDiv | backend/models/Skill.js:83 | `Math.round(num / den)`: the integer nearest the quotient, halves rounding up. |
| Capacity.SearchFrom | backend/services/aiReplanner.js:64-76 | From the i-th day of the window, the search answers the first later day with room; when no remaining day has room, it answers the fallback. |
| Sorting.SortByKey | backend/controllers/taskController.js:117-119 | A sort returns a permutation of its input. |
| Sorting.SortSorted | backend/controllers/taskController.js:117-119 | A sort's output is ordered by its key. |
| Sorting.SortStable | backend/services/aiReplanner.js:334-338 | A sort is stable: tasks with equal keys keep their input order. |
| Sorting.SelectSorted | backend/services/aiReplanner.js:172-176 | A `find(...).sort(...)` returns exactly the matching tasks, in key order, with unique ids when the store's ids were unique. |
| Capacity.AvailableHours | backend/services/aiReplanner.js:39-47 | The free hours of a day are never negative. |
| Capacity.CapacityIgnoresOtherDays | backend/services/aiReplanner.js:39-47 | A task of another user or another day leaves the day's free hours unchanged. |
| Capacity.CapacityConsumedByPlacement | backend/services/aiReplanner.js:39-47 | A task placed on the day consumes its duration (60 when unset) from the day's free minutes, floored at zero. |
| Capacity.FindNextAvailableSlot | backend/services/aiReplanner.js:56-77 | The slot is within 30 days after the start, and every earlier day in the window lacks room. It has room whenever some day in the window does; when none does, it is the next day. |
| Replanner.DueTasks | backend/services/aiReplanner.js:14-18 | The sweep selects exactly the user's pending tasks dated before today. |
| Replanner.DetectMissed | backend/services/aiReplanner.js:10-30 | Each selected task becomes missed, with its first original date kept, and every other task is untouched. The reply lists the marked tasks in store order. |
| Replanner.DetectMissedIdempotent | backend/services/aiReplanner.js:10-30 | A second sweep right after the first changes nothing and reports nothing. |
| Replanner.DetectMissedKeepsIds | backend/services/aiReplanner.js:21-27 | The sweep changes no id and keeps ids unique. |
| Replanner.DetectMissedWellFormed | backend/services/aiReplanner.js:21-27 | The sweep keeps the store's invariants: unique ids, ids below the counter, valid tasks. |
| Replanner.SlotsAheadHolds | backend/services/aiReplanner.js:56-77 | The slot search always answers a day strictly after its start and at most 30 days later. |
| Replanner.Chain | backend/services/aiReplanner.js:112-135 | One move per queued task, in queue order, each recording the task's id, title and first original date. |
| Replanner.ChainDates | backend/services/aiReplanner.js:112-135 | Because each search starts from the previous slot, the new dates strictly increase. The k-th lies after the start and within 30·(k+1) days of it. |
| Replanner.ChainStoreEffect | backend/services/aiReplanner.js:119-125 | Each queued task is rewritten in place as rescheduled, with its first original date kept and its counter up by one; every other task is untouched. |
| Replanner.MissedQueue | backend/services/aiReplanner.js:90-99 | The queue is exactly the user's missed tasks, restricted to one skill when a filter is given, in ascending date order. |
| Replanner.ReplanMissed | backend/services/aiReplanner.js:85-143 | The run fails exactly when there is a queue and no user record, since the slot search reads the user. A failed or empty run returns the swept store and moves nothing. A successful run moves every queued task, in queue order, to increasing dates after today, and counts the moves. |
| Replanner.ReplanMissedEffect | backend/services/aiReplanner.js:112-125 | Every queued missed task is rewritten as rescheduled; every other task is as the sweep left it. |
| Replanner.ReplanMissedShape | backend/services/aiReplanner.js:99-135 | An empty queue returns the swept store; otherwise the result is the chain over the queue from today. |
| Replanner.EmptyQueueNoneDue | backend/services/aiReplanner.js:87-101 | An empty unfiltered queue means no task of the user was pending in the past. |
| Replanner.ReplanNothingWritesNothing | backend/services/aiReplanner.js:85-107 | An unfiltered run that reschedules nothing leaves the store exactly as it was. |
| Replanner.SkillQueue | backend/services/aiReplanner.js:172-176 | The queue is exactly the skill's pending, missed and rescheduled tasks of the user, in day-number order with unnumbered tasks first. |
| Replanner.ReplanSkill | backend/services/aiReplanner.js:151-223 | The run succeeds exactly when the requester owns the skill and has a user record; a failure writes nothing. A skill with every topic complete writes nothing. When some task moved, the stored skill is the found skill with its end date set to the last new date, and the reply reports that date; otherwise the skills are untouched. No user, counter value or task count changes. |
| Replanner.ReplanOwned | backend/services/aiReplanner.js:161-223 | Once the skill is found the run succeeds. It writes nothing when every topic is complete. When some task moved, the skill is saved ending on the last new date; otherwise the skills are untouched. |
| Replanner.ReplanSkillChain | backend/services/aiReplanner.js:178-214 | The moves are the chain over the skill's queue from tomorrow. When some task moved, the skill is saved in place ending on the last new date, and that date is reported; otherwise the skills are untouched and the old end date is reported. |
| Replanner.ReplanSkillMoves | backend/services/aiReplanner.js:185-207 | The moves are empty or those of the chain over the skill's queue. |
| Replanner.ReplanSkillIncreasing | backend/services/aiReplanner.js:185-214 | The new dates strictly increase, so the new end date is the latest of them. |
| Replanner.ReplanSkillAfterTomorrow | backend/services/aiReplanner.js:179-190 | The cursor starts at tomorrow and the search starts the day after, so no new date is before the day after tomorrow. |
| Replanner.ReplanSkillPlacesQueue | backend/services/aiReplanner.js:185-198 | For a skill with topics left, every queued task is rewritten as rescheduled, and nothing else changes. |
| Replanner.ReplanSkillShape | backend/services/aiReplanner.js:171-214 | For a skill with topics left, the moves and the tasks are those of the chain from tomorrow. |
| Replanner.WithEndDate | backend/services/aiReplanner.js:209-213 | The saved skill ends on the given day, nothing else about it changes, and a valid skill stays valid. |
| Replanner.ChainSavesValid | backend/services/aiReplanner.js:119-125 | Every task the chain reschedules passes the validators when the queued tasks are valid. |
| Replanner.ReplanMissedSavesValid | backend/services/aiReplanner.js:85-125 | From a well-formed store, the sweep leaves only valid tasks, and every rescheduled task passes the validators. |
| Replanner.ReplanSkillSavesValid | backend/services/aiReplanner.js:185-213 | From valid documents, every rescheduled task and every stored skill after the replan passes the validators. |
| Replanner.WorkoutWindow | backend/services/aiReplanner.js:239-241 | Morning preference gives 07:00-08:00, and anything else gives 18:00-19:00. |
| Replanner.WorkoutDraft | backend/services/aiReplanner.js:247-263 | The draft is a titled workout for the user on the date, 60 minutes, priority 2, in the preferred window. |
| Replanner.WorkoutTask | backend/services/aiReplanner.js:247-268 | The stored workout carries those fields, is pending, and passes validation. |
| Replanner.GenerateWorkouts | backend/services/aiReplanner.js:232-270 | Fails, inserting nothing, exactly when the user has no stored record, since the source reads `user.profile` first. With the stored profile's workouts disabled, nothing is created. Otherwise one valid workout per day from the start date is appended, with consecutive ids, in the morning window for a morning preference and the evening window otherwise; none for a non-positive count. |
| Replanner.GenerateWorkoutsWellFormed | backend/services/aiReplanner.js:232-270 | The batch insert keeps the store invariants: unique ids, ids below the counter, every task valid. |
| Reflow.SkillQuery | backend/services/aiReplanner.js:309-314 | Returns exactly the skill's pending, rescheduled and missed learning tasks of the user. |
| Reflow.Collect | backend/services/aiReplanner.js:308-323 | Collects exactly the outstanding learning tasks of the active skills. |
| Reflow.PartitionGroups | backend/services/aiReplanner.js:341-349 | Grouping keeps each skill's tasks in sorted order, one lane per skill, and lanes in order of first appearance. |
| Reflow.PlaceWhole | backend/services/aiReplanner.js:374-388 | A task that fits moves to the day with its capped duration. Only a real change of date or duration marks it rescheduled, keeping its first original date and adding one to its counter; otherwise it is unchanged. |
| Reflow.PlaceHead | backend/services/aiReplanner.js:396-404 | A split task takes the rest of the share on that day and is marked rescheduled. |
| Reflow.Continuation | backend/services/aiReplanner.js:409-427 | The continuation keeps the task's user, skill, importance, resources and day number. It is a pending, splittable learning task titled with " (cont.)", due the next day, and valid when at least 15 minutes remain. |
| Reflow.SplitConserves | backend/services/aiReplanner.js:392-427 | In a split pass, the head is stored with the minutes placed. A remainder of 15 minutes or more is appended under the next id and queued first, and the head and the continuation add up to the task's duration. A smaller remainder is dropped: nothing is appended and the queue loses its head. |
| Reflow.NextStep | backend/services/aiReplanner.js:366-435 | One inner-loop pass stops exactly when the loop condition or its `break` says so. Otherwise it places a positive amount within what is left of the share, never more than the task's own duration. |
| Reflow.NextStepEffect | backend/services/aiReplanner.js:366-435 | Per branch of a pass that goes on. A task that fits is saved whole with its capped duration and leaves the queue; the pass fails exactly when that save is invalid. A task that does not fit is saved with what is left of the share. A remainder of 15 minutes or more is saved as a continuation under the next id and queued first; a smaller one is dropped. The pass fails exactly when the head or the continuation is invalid. |
| Reflow.FillSkillDay | backend/services/aiReplanner.js:364-436 | A skill's turn places only on its day and stays within the share. It never lengthens a task, places at least once when the head fits, and ends only when the loop condition fails or a save fails. |
| Reflow.FillLanes | backend/services/aiReplanner.js:362-437 | A day's pass keeps one lane per skill in the same order. |
| Reflow.FillLanesWithinShares | backend/services/aiReplanner.js:362-437 | On each day every skill's placed minutes stay within its share, and every placement is on that day. |
| Reflow.FillLanesValid | backend/services/aiReplanner.js:362-437 | Queues of valid tasks stay valid through a day. |
| Reflow.FillLanesShrinks | backend/services/aiReplanner.js:362-437 | From valid queues, no placement lengthens its task. |
| Reflow.FillLanesProgress | backend/services/aiReplanner.js:366-431 | With a positive share, a day without a failed save places at least one task from every non-empty lane. |
| Reflow.QueuedZero | backend/services/aiReplanner.js:440-441 | Nothing is queued exactly when every lane is empty, which is when the sweep's `allDone` test holds. |
| Reflow.DayLoop | backend/services/aiReplanner.js:354-451 | The sweep runs at most 365 days, and stops early only when every queue is empty or a save fails. |
| Reflow.DayLoopWithinShares | backend/services/aiReplanner.js:354-451 | If every day's pass keeps the share, the whole sweep does. |
| Reflow.DayLoopShrinks | backend/services/aiReplanner.js:354-451 | If every pass keeps queues valid and shrinks, so does the sweep. |
| Reflow.SweepWithinBudget | backend/services/aiReplanner.js:354-451 | The reflow's sweep keeps every skill within its share on every day. |
| Reflow.SweepShrinks | backend/services/aiReplanner.js:354-451 | From valid queues, no placement of the sweep lengthens its task. |
| Reflow.LatestDate | backend/services/aiReplanner.js:455-458 | The latest scheduled date among the skill's tasks of the user, of any status, or none when the skill has no task. |
| Reflow.SetEndDates | backend/services/aiReplanner.js:454-464 | The end-date loop changes no skill id and touches no skill outside the active ones. |
| Reflow.SetEndDatesEffect | backend/services/aiReplanner.js:454-464 | When the loop completes, each active skill with a task ends on its latest task date. |
| Reflow.ActiveSkills | backend/services/aiReplanner.js:283-286 | Returns exactly the user's in-progress skills. |
| Reflow.Share | backend/services/aiReplanner.js:296-297 | The per-skill share times the number of skills equals the budget in minutes. It is non-negative for a non-negative budget and positive for a positive one. |
| Reflow.Reschedule | backend/services/aiReplanner.js:279-473 | The reflow never touches user records. |
| Reflow.Run | backend/services/aiReplanner.js:333-472 | The result reports the active skill ids and the hours per skill (the share / 60). |
| Reflow.RescheduleIdle | backend/services/aiReplanner.js:288-331 | Without an active skill or without outstanding tasks, the reflow succeeds, writes nothing and reports nothing. |
| Reflow.RescheduleNoWork | backend/services/aiReplanner.js:308-331 | When no active skill has an outstanding learning task, nothing is written or reported. |
| Reflow.RescheduleHasWork | backend/services/aiReplanner.js:308-331 | When some active skill has an outstanding learning task, the sweep runs and reports the active skill ids. |
| Reflow.RunWithinBudget | backend/services/aiReplanner.js:354-451 | A run keeps every lane within the share on every day swept. |
| Reflow.RescheduleWithinBudget | backend/services/aiReplanner.js:296-297 | Per skill per day, the minutes placed never exceed the reported hours per skill × 60. Every placement lies on its day and none is longer than the share. |
| Reflow.RescheduleShrinks | backend/services/aiReplanner.js:366-431 | From valid tasks, no placement of a reflow makes a task longer. |
| Reflow.RunEndDates | backend/services/aiReplanner.js:454-464 | A completed run sets every active skill's end date from its latest task. |
| Reflow.RescheduleEndDates | backend/services/aiReplanner.js:454-464 | After a successful reflow, each in-progress skill with any task ends on the latest date among its tasks, and nothing else about it changes. |
| Reflow.PlanOrder | backend/services/aiReplanner.js:333-349 | The importance/day-number sort is a stable permutation of the collected tasks, and the lanes group it by skill. |
| Reflow.PlanLaneMembers | backend/services/aiReplanner.js:341-349 | Every lane holds exactly the collected tasks of its skill. |
| Reflow.PlanLaneSorted | backend/services/aiReplanner.js:333-349 | Every lane is in importance-descending, day-number-ascending order. |
| Reflow.PlanCovers | backend/services/aiReplanner.js:341-349 | Every collected task is in some lane. |
| Reflow.NextStepTinyShare | backend/services/aiReplanner.js:369-390 | With a share below 15 minutes, the first placement of a valid task writes a duration the schema rejects, so the save fails. |
| Reflow.RescheduleTinyShareFails | backend/services/aiReplanner.js:366-390 | With work to do and a share below 15 minutes, the reflow fails before writing any task or skill. |
| ReflowFrame.NextStepFrame | backend/services/aiReplanner.js:366-435 | From a queue of the user's selected learning tasks, one pass changes only such a task, keeping every task's place and id. The saved task is the user's valid learning task, dated no earlier than the sweep's first day. The only task added is a continuation under the next id, and the queue keeps holding only such tasks. |
| ReflowFrame.FillSkillDayFrame | backend/services/aiReplanner.js:364-436 | A skill's turn on one day writes the store in the same way as one pass: only queued tasks change, and only continuations under consecutive ids from the counter are added. |
| ReflowFrame.FillLanesFrame | backend/services/aiReplanner.js:362-437 | A day's pass over all skills writes the store in the same way. Every lane's queue still holds only the user's selected tasks and continuations. |
| ReflowFrame.DayLoopFrame | backend/services/aiReplanner.js:354-451 | If each day's pass writes only in that way, so does the whole sweep, and the counter never goes back. |
| ReflowFrame.PlanMovers | backend/services/aiReplanner.js:308-349 | Every task in the sweep's lanes is one the skill queries selected: the user's learning task. |
| ReflowFrame.RunFrame | backend/services/aiReplanner.js:308-451 | A run changes only tasks its queries selected and adds only continuations, under consecutive ids from the store's counter. |
| ReflowFrame.RunNextId | backend/services/aiReplanner.js:354-451 | A run never moves the id counter back. |
| ReflowFrame.ReflowedKeepsOthers | backend/services/aiReplanner.js:308-323 | In a well-formed store, a rewrite of that shape leaves every unselected task as it was and keeps the store well formed. |
| ReflowFrame.RescheduleStoreFrame | backend/services/aiReplanner.js:279-473 | Whether the reflow completes or fails, every task no active skill's query selected (completed tasks, workouts, other users' tasks) keeps its place and value. A selected task that changed is still the user's valid learning task, dated today or later. The only tasks added are such tasks, under consecutive ids from the store's counter. The store stays well formed. |
| Planner.RoundTenths | backend/services/aiPlanner.js:113 | The rounded share of a phase lies between 0 and the day count. |
| Planner.RoundTenthsTable | backend/services/aiPlanner.js:102-113 | The rounding is the nearest integer to days × ratio, halves up, for the ratios 0.3, 0.4, 0.2 and 0.1. |
| Planner.PhaseDays | backend/services/aiPlanner.js:113 | A phase asks for its rounded share, or 1 day when that rounds to 0. |
| Planner.PhaseStart | backend/services/aiPlanner.js:110-123 | A phase starts between 0 and the day count. |
| Planner.Render | backend/services/aiPlanner.js:116-133 | Each topic is on its day and asks for the daily hours capped at 2. |
| Planner.PhaseRunSpec | backend/services/aiPlanner.js:115-123 | A phase's loop emits its parts in order until its days run out or the last day is reached. |
| Planner.RunPhasesAt | backend/services/aiPlanner.js:112-124 | Each phase slot is the reference slot for its day. |
| Planner.ReviewSpec | backend/services/aiPlanner.js:127-134 | The filling loop emits review days up to the day count. |
| Planner.SliceTo | backend/services/aiPlanner.js:136 | Slicing to an end past the length keeps everything, and always returns a prefix. |
| Planner.CurriculumSpec | backend/services/aiPlanner.js:101-137 | The loops yield exactly the day count of slots, each the reference slot for its day. |
| Planner.RuleBasedSlotsSpec | backend/services/aiPlanner.js:101-137 | The fallback curriculum has one slot per target day, none for a non-positive count. Each slot follows the reference: the four phases in order, each with its rounded share and cut off at the last day, then review days. |
| Planner.RuleBasedTopics | backend/services/aiPlanner.js:101-137 | One topic per curriculum slot. |
| Planner.RuleBasedSpec | backend/services/aiPlanner.js:101-137 | The fallback topics are the reference slots rendered in day order. |
| Planner.RuleBasedDays | backend/services/aiPlanner.js:115-134 | The i-th fallback topic is on day i+1 and asks for min(daily hours, 2). |
| Planner.TwentyOneDays | backend/services/aiPlanner.js:102-124 | Over 21 days the phases take 6, 8, 4 and 2 days, followed by one review day. |
| Planner.FiveDays | backend/services/aiPlanner.js:102-124 | Over 5 days the phases ask for 2, 2, 1 and 1 days, and the last phase is cut off. |
| Planner.PhaseOrder | backend/services/aiPlanner.js:112-124 | Phases never go backwards along the curriculum. |
| Planner.NormalizeTopic | backend/services/aiPlanner.js:84-88 | A generated topic gets importance 3 when it has none (or 0) and is splittable when unspecified; nothing else changes. |
| Planner.NormalizeIdempotent | backend/services/aiPlanner.js:84-88 | Normalized topics need no further defaults, and normalizing twice is normalizing once. |
| Planner.DailyTopics | backend/services/aiPlanner.js:15-96 | Generated topics keep their count and every field, and each gains usable defaults for importance and splitting. When the call or the parse fails, there is one topic per target day, the i-th being the reference slot for day i+1. |
| Planner.CapTopic | backend/services/aiPlanner.js:221-224 | A topic's hours become the minimum of its own and the skill's hours; nothing else changes. |
| Planner.GenerateLearningPlan | backend/services/aiPlanner.js:204-254 | The plan has as many capped topics and tasks as there are daily topics. |
| Planner.LearningPlanTasks | backend/services/aiPlanner.js:204-254 | The i-th task is on the start date plus i days and asks for its topic's hours capped at the skill's share, in minutes. It carries the topic's day, index, importance default, splittable default, title and description. |
| Planner.FallbackPlanTasks | backend/services/aiPlanner.js:204-254 | With the fallback, there are exactly target-days tasks. The i-th is day i+1 with index i, at most 2 hours long, importance 3 and splittable. |
| TaskController.LinkedSkill | backend/controllers/taskController.js:38-43 | A task is linked to the given skill exactly when the requester owns a skill with that id. |
| TaskController.CreateTask | backend/controllers/taskController.js:8-55 | Creation succeeds (201) exactly when the title is non-empty, the duration (60 when unset or 0) is at least 15 and the priority (1 when unset or 0) is within 1..5. It appends one task with those defaults and the next id; otherwise 500 with nothing written. |
| TaskController.CreateTaskKeepsWellFormed | backend/controllers/taskController.js:38-45 | Creation keeps the store's invariants, and a linked skill is one the requester owns. |
| TaskController.GetTask | backend/controllers/taskController.js:135-152 | Returns 404 exactly when the requester owns no task with that id; otherwise returns that task. |
| TaskController.Selected | backend/controllers/taskController.js:103-115 | The query selects exactly the requester's tasks matching every filter given. |
| TaskController.GetAllTasks | backend/controllers/taskController.js:101-130 | The result is a permutation of the selected tasks, ordered by date. |
| TaskController.GetAllTasksStable | backend/controllers/taskController.js:117-119 | Tasks on the same date keep their store order. |
| TaskController.ApplyPatch | backend/controllers/taskController.js:165-174 | Each of the nine whitelisted fields takes the body's value when given and keeps the stored value when absent. Every other field is kept. A patch touching no validated field keeps a valid task valid. |
| TaskController.ApplyPatchIdempotent | backend/controllers/taskController.js:165-174 | An empty body changes nothing, and applying the same body twice is applying it once. |
| TaskController.UpdateTask | backend/controllers/taskController.js:157-186 | Returns 404 when the requester owns no such task. Returns 200 exactly when the patched task validates, and only then replaces it in the store; otherwise 500 with nothing written. |
| TaskController.UpdateTaskOnlyTarget | backend/controllers/taskController.js:157-186 | An update keeps the store's invariants and leaves every other task as it was. |
| TaskController.CompleteSkillTopic | backend/controllers/taskController.js:201-213 | Without a linked skill, a topic index or a stored skill, the skills are untouched. |
| TaskController.CompleteTask | backend/controllers/taskController.js:191-224 | Returns 404 when the requester owns no such task. A success returns the task completed at `now`, and no user record or id is touched. |
| TaskController.CompleteTaskSavesTask | backend/controllers/taskController.js:199 | The completed task is saved in place. |
| TaskController.CompleteTaskTopic | backend/controllers/taskController.js:201-213 | With a valid skill and an index in range, only that topic becomes completed. The skill's progress is recomputed and never decreases. |
| TaskController.CompleteTaskBadIndex | backend/controllers/taskController.js:199-205 | An index out of the skill's topics gives 500, yet the task stays completed. |
| TaskController.RescheduleTask | backend/controllers/taskController.js:247-267 | Returns 404 when the requester owns no such task; a success stores the task rescheduled to the new date. |
| TaskController.RescheduleTaskSucceeds | backend/controllers/taskController.js:247-267 | An owned task always reschedules: it gets the new date, rescheduled status, counter + 1 and first original date, and the store invariants hold. |
| TaskController.DeleteTask | backend/controllers/taskController.js:272-290 | Returns 404 with nothing written exactly when the requester owns no such task. Otherwise only that task is removed. |
| TaskController.DeleteTaskKeepsWellFormed | backend/controllers/taskController.js:272-290 | Deletion keeps the store's invariants. |
| TaskController.BulkDocuments | backend/controllers/taskController.js:303-307 | Each document is its draft owned by the requester, with schema defaults and consecutive ids. |
| TaskController.BulkCreateTasks | backend/controllers/taskController.js:295-320 | A missing array gives 400. Otherwise 201 exactly when every document validates, and all are then appended with consecutive ids and the requester as owner; else 500 with nothing written. |
| TaskController.BulkCreateKeepsWellFormed | backend/controllers/taskController.js:295-320 | Bulk creation keeps the store's invariants. |
| SkillController.CreateSkill | backend/controllers/skillController.js:9-31 | Creation succeeds (201) exactly when the name is non-empty, the target days are within 1..365 and the priority (1 when unset or 0) is within 1..5. The new skill is not started, has no topics, starts on the given date or today, and ends target days later; otherwise 500. |
| SkillController.CreateThenGet | backend/controllers/skillController.js:9-70 | A created skill can be fetched back by its id. |
| SkillController.GetSkills | backend/controllers/skillController.js:36-49 | Returns exactly the requester's skills, newest first. |
| SkillController.CreateKeepsIdsIncreasing | backend/controllers/skillController.js:13-38 | Creation keeps ids in creation order, and the new skill heads the requester's list. |
| SkillController.GetSkill | backend/controllers/skillController.js:54-70 | Returns 404 exactly when the requester owns no skill with that id; otherwise returns that skill. |
| SkillController.ApplySkillPatch | backend/controllers/skillController.js:83-91 | Each truthy field in the body replaces the stored one. The end date is recomputed only when the target days actually changed; id, owner, start, topics and progress are untouched. |
| SkillController.ApplySkillPatchIdempotent | backend/controllers/skillController.js:83-91 | Applying the same body twice is applying it once. |
| SkillController.UpdateSkill | backend/controllers/skillController.js:75-101 | Returns 404 when the requester owns no such skill. Returns 200 exactly when the patched skill validates, and only then stores it; otherwise 500 with nothing written. |
| SkillController.UpdateSkillSucceeds | backend/controllers/skillController.js:75-101 | A body within the schema bounds always updates a valid skill. |
| SkillController.CascadeDelete | backend/controllers/skillController.js:115-117 | Removes exactly the skill and every task linked to it. |
| SkillController.CascadeKeepsWellFormed | backend/controllers/skillController.js:115-117 | The cascade keeps the store's invariants. |
| SkillController.HoursAfterDelete | backend/controllers/skillController.js:120-121 | The reflow uses the stored daily hours, or 2 when they are 0. |
| SkillController.DeleteSkill | backend/controllers/skillController.js:106-133 | Returns 404 with nothing written exactly when the requester owns no such skill. Otherwise the cascade runs; a missing user record then gives 500. Else the reflow runs on what remains, and the reply succeeds exactly when the reflow does. |
| SkillController.DeleteSkillWithinBudget | backend/controllers/skillController.js:119-128 | The reflow after a deletion keeps each remaining skill within its share every day. |
| SkillController.DeleteSkillNotReflowed | backend/controllers/skillController.js:114-122 | The deleted skill is not among the reflowed skills. |
| SkillController.UpdateSkillProgress | backend/controllers/skillController.js:138-165 | Returns 404 when the requester owns no such skill. A success stores the skill with progress recomputed and status following it, nothing else changed; a valid skill always succeeds. |
| SkillController.RefreshProgressIdempotent | backend/controllers/skillController.js:146-153 | Recomputing progress twice is recomputing it once. |
| SkillController.UpdateSkillProgressExtremes | backend/controllers/skillController.js:146-153 | All topics done makes the skill completed; none done leaves progress 0 and the status as it was. |
| ProfileController.OnboardProfile | backend/controllers/profileController.js:26-34 | Each truthy body field replaces the profile's. The workout switch is replaced whenever it is given, even when false. |
| ProfileController.OnboardProfileIdempotent | backend/controllers/profileController.js:26-34 | An empty body keeps the profile, and onboarding twice with the same body is onboarding once. |
| ProfileController.UpdateOnboarding | backend/controllers/profileController.js:8-47 | Returns 404 exactly when there is no user record. Otherwise the user is marked onboarded with the merged profile and saved when valid; else 500 with nothing written. |
| ProfileController.GetProfile | backend/controllers/profileController.js:52-73 | Returns the user record, or 404 exactly when there is none. |
| ProfileController.OnboardThenGet | backend/controllers/profileController.js:8-73 | After onboarding, reading the profile returns the onboarded user, and no task or skill has changed. |
| ProfileController.PatchUser | backend/controllers/profileController.js:105-113 | The daily hours and workout switch are replaced whenever given; the other fields only when truthy. Id, email and onboarding flag are kept. |
| ProfileController.DropWorkouts | backend/controllers/profileController.js:125-136 | Removes exactly the user's pending or rescheduled workouts from today on, and counts them. |
| ProfileController.ReflowIfChanged | backend/controllers/profileController.js:96-121 | The reflow runs, with the new hours, exactly when the hours were given and differ from the stored ones. |
| ProfileController.UpdateProfile | backend/controllers/profileController.js:78-148 | Returns 404 exactly when there is no user record, and 500 with nothing written when the patched user is invalid. A success saves the patched user and reports a reflow exactly when the hours changed. No workouts are deleted unless workouts were just switched off. |
| ProfileController.UpdateProfileNoReflow | backend/controllers/profileController.js:96-136 | Without a change of hours, skills are untouched, and tasks change only by removing pending workouts when they were switched off. |
| ProfileController.UpdateProfileDropsWorkouts | backend/controllers/profileController.js:101-136 | Switching workouts off removes exactly the pending workouts from today on and counts them. |
| ProfileController.UpdateProfileReflows | backend/controllers/profileController.js:117-121 | A change of hours reflows with the new hours on the store holding the saved user. A successful update keeps every skill within its share. |

## Left out

- **External calls:** I/O, the database driver, the clock, the Gemini calls
  and the YouTube query generation. A generated curriculum is a parameter
  (`None` when the call or the JSON parse fails), and a topic's video
  resources come from a function parameter.
- **Floating point:** JavaScript rounding of hours, minutes and the
  per-skill share. All arithmetic is exact.
- **Time of day:** dates are whole days. The reflow's UTC midnight and the
  local midnight of the missed-task sweep are not told apart.
- **Pre-save trims:** `trim` on titles, names and descriptions is not
  modelled. The `updatedAt` stamps in the pre-save hooks are left out.
- **Tie-breaks:**
  - The store's sorts break ties by store order. MongoDB leaves such ties
    unspecified.
  - `getAllTasks`' secondary sort on `scheduledTime.startTime` is not
    modelled, so same-day tasks keep store order.
- **Thin read controllers:** `getTasksByDate`, `getTodayTasks` and
  `getMissedTasks` only wrap `Store.TasksForDate` and `Store.MissedTasks`.
  They have no model of their own.
- **`populate` joins:** `populate('skill', 'name')` only decorates the
  reply and is not modelled.
- **`insertMany`:** modelled as all-or-nothing. A partial insert before a
  failing document is not modelled.
- **Rest of the backend:** the AI controller, authentication and routes
  are not part of this model.
- **The User pre-save hook:** it rehashes the password on every save, and
  credentials are not modelled.
- **Request-body type checks:** a body whose field has the wrong JSON type
  (a string for a number, say) is not modelled. Fields have their schema
  types.
- Reflow.Reschedule: its own contract states only that user records
  are untouched. What it writes to skills is stated by
  `Reflow.RescheduleEndDates`, and what it writes to tasks by
  `ReflowFrame.RescheduleStoreFrame`.
- ReflowFrame.RescheduleStoreFrame: weaker than the source. It does
  not state that each rewritten task's stored date and duration equal its
  last placement in the run's log. It states only that the task is the
  user's valid learning task dated today or later.
- **Tie-break of `getTasksForDate`:** the query's sort on
  `scheduledTime.startTime` is not modelled. `Store.TasksForDate` promises
  the tasks, not their order.

=== FILE: capacity.dfy ===
/** Free capacity of a day and the forward slot search
    (`calculateAvailableHours`, `findNextAvailableSlot`). */
module Capacity {
  import opened TaskModel
  import opened Store
  import opened JsValues

  /** `task.estimatedDuration || 60`: a zero duration counts as an hour. */
  function DurationOr60(t: Task): (m: real)
    ensures t.estimatedDuration != 0.0 ==> m == t.estimatedDuration
    ensures t.estimatedDuration == 0.0 ==> m == DefaultDuration
  {
    if t.estimatedDuration == 0.0 then DefaultDuration else t.estimatedDuration
  }

  /** Total minutes of a list of tasks, missing durations counted as 60. */
  function ScheduledMinutes(ts: seq<Task>): real {
    if |ts| == 0 then 0.0 else DurationOr60(ts[0]) + ScheduledMinutes(ts[1..])
  }

  lemma {:induction false} ScheduledMinutesAppend(a: seq<Task>, b: seq<Task>)
    ensures ScheduledMinutes(a + b) == ScheduledMinutes(a) + ScheduledMinutes(b)
  {
    if |a| == 0 {
      assert a + b == b;
    } else {
      assert (a + b)[1..] == a[1..] + b;
      ScheduledMinutesAppend(a[1..], b);
    }
  }

  /** Free hours on day `d`: the daily budget minus everything the user
      already has on that day, floored at zero. */
  function AvailableHours(ts: seq<Task>, uid: UserId, dailyHours: real, d: Day): (h: real)
    ensures h >= 0.0
  {
    MaxReal(0.0, dailyHours * 60.0 - ScheduledMinutes(TasksForDate(ts, uid, d))) / 60.0
  }

  /** A day of another user, or another day, does not count against `d`. */
  lemma CapacityIgnoresOtherDays(ts: seq<Task>, t: Task, uid: UserId, dailyHours: real, d: Day)
    requires t.user != uid || t.scheduledDate != d
    ensures AvailableHours(ts + [t], uid, dailyHours, d) == AvailableHours(ts, uid, dailyHours, d)
  {
    TasksForDateAppend(ts, [t], uid, d);
    assert TasksForDate([t], uid, d) == [] + TasksForDate([], uid, d);
    assert TasksForDate(ts + [t], uid, d) == TasksForDate(ts, uid, d);
  }

  /** A new task of the user on day `d` uses up its duration of that day's
      free time (never below zero). */
  lemma CapacityConsumedByPlacement(ts: seq<Task>, t: Task, uid: UserId, dailyHours: real, d: Day)
    requires t.user == uid && t.scheduledDate == d
    ensures AvailableHours(ts + [t], uid, dailyHours, d) * 60.0
         == MaxReal(0.0, AvailableRaw(ts, uid, dailyHours, d) - DurationOr60(t))
  {
    TasksForDateAppend(ts, [t], uid, d);
    assert TasksForDate([t], uid, d) == [t] + TasksForDate([], uid, d);
    ScheduledMinutesAppend(TasksForDate(ts, uid, d), [t]);
    assert ScheduledMinutes([t]) == DurationOr60(t) + ScheduledMinutes([]);
    assert TasksForDate(ts + [t], uid, d) == TasksForDate(ts, uid, d) + [t];
    assert AvailableRaw(ts + [t], uid, dailyHours, d) == AvailableRaw(ts, uid, dailyHours, d) - DurationOr60(t);
    var m := MaxReal(0.0, AvailableRaw(ts + [t], uid, dailyHours, d));
    assert AvailableHours(ts + [t], uid, dailyHours, d) == m / 60.0;
  }

  /** Free minutes before flooring: budget minus scheduled minutes. */
  function AvailableRaw(ts: seq<Task>, uid: UserId, dailyHours: real, d: Day): real {
    dailyHours * 60.0 - ScheduledMinutes(TasksForDate(ts, uid, d))
  }

  const SearchHorizon: nat := 30

  /** Day `d` has room for `required` minutes. */
  predicate Fits(ts: seq<Task>, uid: UserId, dailyHours: real, required: real, d: Day) {
    AvailableHours(ts, uid, dailyHours, d) >= required / 60.0
  }

  /** The search loop: days `first + i`, `first + i + 1`, ... up to the horizon. */
  function SearchFrom(ts: seq<Task>, uid: UserId, dailyHours: real, required: real,
                      first: Day, i: nat, fallback: Day): (r: Day)
    requires i <= SearchHorizon
    ensures || (first + i <= r < first + SearchHorizon && Fits(ts, uid, dailyHours, required, r))
            || (r == fallback && forall d :: first + i <= d < first + SearchHorizon ==> !Fits(ts, uid, dailyHours, required, d))
    ensures forall d :: first + i <= d < r && d < first + SearchHorizon ==> !Fits(ts, uid, dailyHours, required, d)
    decreases SearchHorizon - i
  {
    if i == SearchHorizon then fallback
    else if Fits(ts, uid, dailyHours, required, first + i) then first + i
    else SearchFrom(ts, uid, dailyHours, required, first, i + 1, fallback)
  }

  /** `findNextAvailableSlot`: the first of the 30 days after `startFrom` with
      room for `required` minutes; when none has room, the day after
      `startFrom` anyway. The result is always strictly after `startFrom`. */
  function FindNextAvailableSlot(ts: seq<Task>, uid: UserId, dailyHours: real,
                                 required: real, startFrom: Day): (r: Day)
    ensures startFrom < r <= startFrom + SearchHorizon
    ensures forall d :: startFrom < d < r ==> !Fits(ts, uid, dailyHours, required, d)
    ensures (exists d :: startFrom < d <= startFrom + SearchHorizon && Fits(ts, uid, dailyHours, required, d))
            ==> Fits(ts, uid, dailyHours, required, r)
    ensures (forall d :: startFrom < d <= startFrom + SearchHorizon ==> !Fits(ts, uid, dailyHours, required, d))
            ==> r == startFrom + 1
  {
    SearchFrom(ts, uid, dailyHours, required, startFrom + 1, 0, startFrom + 1)
  }
}

=== FILE: http.dfy ===
/** The JSON replies of the REST controllers: a success carrying data, or a
    failure carrying a message, each with its HTTP status code. */
module Responses {
  datatype Reply<T> = Ok(code: int, data: T) | Err(code: int, message: string)

  const OkCode: int := 200
  const Created: int := 201
  const BadRequest: int := 400
  const NotFound: int := 404
  const ServerError: int := 500

  const ServerErrorMessage: string := "Server error"
}

=== FILE: planner.dfy ===
/** The pure post-processing of the learning planner
    (backend/services/aiPlanner.js): the rule-based fallback curriculum, the
    defaults given to generated topics, and the construction of one task per
    topic with its duration capped at the skill's share of the day. The
    generated topics and the video resources are inputs: the model calls
    behind them are not part of this model. */
module Planner {
  import opened Wrappers
  import opened JsValues
  import opened TaskModel

  /** A daily topic. `importance` and `isSplittable` are absent from
      rule-based topics and may be absent from generated ones. */
  datatype PlanTopic = PlanTopic(day: int, topic: string, description: string, estimatedHours: real,
                         importance: Option<int>, isSplittable: Option<bool>)

  /** A phase of the rule-based curriculum: its name, the lower-case name
      used in descriptions, and its share of the days in tenths. */
  datatype Phase = Phase(name: string, lower: string, tenths: nat)

  const PhaseCount: nat := 4
  const Phases: seq<Phase> := [
    Phase("Fundamentals", "fundamentals", 3),
    Phase("Core Concepts", "core concepts", 4),
    Phase("Advanced Topics", "advanced topics", 2),
    Phase("Practice & Projects", "practice & projects", 1)
  ]
  /** Rule-based topics never ask for more than two hours a day. */
  const MaxRuleHours: real := 2.0
  const ReviewName: string := " - Review & Practice"
  const ReviewDescription: string := "Review learned concepts and practice through exercises."
  const FocusSuffix: string := ". Focus on understanding and practice."

  function Max(a: int, b: int): int { if a >= b then a else b }
  function Min(a: int, b: int): int { if a <= b then a else b }

  // ---------------------------------------------------------------------
  // The rule-based curriculum

  /** `Math.round(targetDays * ratio)` for the ratio of phase `k`, computed
      exactly: round half up is `floor(x + 1/2)`. The four ratios are
      written out so that the arithmetic stays linear; `RoundTenthsTable`
      ties them to the phase table. */
  function RoundTenths(n: int, k: nat): (r: int)
    requires k < PhaseCount
    ensures n >= 0 ==> 0 <= r <= n
  {
    if k == 0 then (6 * n + 10) / 20
    else if k == 1 then (8 * n + 10) / 20
    else if k == 2 then (4 * n + 10) / 20
    else (2 * n + 10) / 20
  }

  /** The rounding is the nearest integer to `n * tenths / 10`, halves up. */
  lemma RoundTenthsTable(n: int, k: nat)
    requires k < PhaseCount
    ensures var r := RoundTenths(n, k);
            20 * r <= 2 * n * Phases[k].tenths + 10 < 20 * r + 20
  {
  }

  /** `daysInPhase`: at least one day per phase. */
  function PhaseDays(n: int, k: nat): (d: int)
    requires k < PhaseCount
    ensures d >= 1 && d >= RoundTenths(n, k)
    ensures d == 1 || d == RoundTenths(n, k)
  {
    Max(1, RoundTenths(n, k))
  }

  /** The days each phase asks for, in phase order. */
  function DayCounts(n: int): (days: seq<int>)
    ensures |days| == PhaseCount
    ensures forall k :: 0 <= k < PhaseCount ==> days[k] == PhaseDays(n, k)
  {
    [PhaseDays(n, 0), PhaseDays(n, 1), PhaseDays(n, 2), PhaseDays(n, 3)]
  }

  /** The number of iterations before phase `k`: each phase runs its days
      but stops at day `n`. */
  function PhaseStart(days: seq<int>, n: int, k: nat): (s: int)
    requires k <= |days|
    ensures 0 <= s && (n >= 0 ==> s <= n) && (n < 0 ==> s == 0)
  {
    if k == 0 then 0
    else
      var p := PhaseStart(days, n, k - 1);
      p + Max(0, Min(days[k - 1], n - p))
  }

  lemma {:induction false} PhaseStartMono(days: seq<int>, n: int, j: nat, k: nat)
    requires j <= k <= |days|
    ensures PhaseStart(days, n, j) <= PhaseStart(days, n, k)
    decreases k - j
  {
    if j < k {
      PhaseStartMono(days, n, j, k - 1);
    }
  }

  /** The phase iteration `i` belongs to, `|days|` for the review days
      after the last phase. */
  function PhaseOf(days: seq<int>, n: int, i: int): (k: nat)
    ensures k <= |days|
  {
    PhaseFrom(days, n, i, 0)
  }

  function PhaseFrom(days: seq<int>, n: int, i: int, k: nat): (r: nat)
    requires k <= |days|
    ensures k <= r <= |days|
    decreases |days| - k
  {
    if k == |days| then k
    else if i < PhaseStart(days, n, k + 1) then k
    else PhaseFrom(days, n, i, k + 1)
  }

  lemma {:induction false} PhaseFromIn(days: seq<int>, n: int, i: int, j: nat, k: nat)
    requires j <= k < |days|
    requires PhaseStart(days, n, k) <= i < PhaseStart(days, n, k + 1)
    ensures PhaseFrom(days, n, i, j) == k
    decreases k - j
  {
    if j < k {
      PhaseStartMono(days, n, j + 1, k);
      PhaseFromIn(days, n, i, j + 1, k);
    }
  }

  lemma {:induction false} PhaseFromAfter(days: seq<int>, n: int, i: int, j: nat)
    requires j <= |days|
    requires PhaseStart(days, n, |days|) <= i
    ensures PhaseFrom(days, n, i, j) == |days|
    decreases |days| - j
  {
    if j < |days| {
      PhaseStartMono(days, n, j + 1, |days|);
      PhaseFromAfter(days, n, i, j + 1);
    }
  }

  /** One iteration of the curriculum loops, before it is turned into a
      topic object: part `part` of phase `phase`, or a review day. */
  datatype Slot = PhasePart(phase: nat, part: nat, day: int) | ReviewDay(day: int)

  predicate ValidSlot(s: Slot) {
    s.PhasePart? ==> s.phase < PhaseCount
  }

  function PhaseTopic(name: string, ph: Phase, part: nat, day: int, hours: real): PlanTopic {
    PlanTopic(day, name + " - " + ph.name + " Part " + NatToString(part),
          "Learn " + ph.lower + " of " + name + FocusSuffix, MinReal(hours, MaxRuleHours), None, None)
  }

  function ReviewTopic(name: string, day: int, hours: real): PlanTopic {
    PlanTopic(day, name + ReviewName, ReviewDescription, MinReal(hours, MaxRuleHours), None, None)
  }

  /** The topic object an iteration pushes. */
  function Render(name: string, hours: real, s: Slot): (t: PlanTopic)
    requires ValidSlot(s)
    ensures t.day == s.day && t.estimatedHours == MinReal(hours, MaxRuleHours)
    ensures t.importance.None? && t.isSplittable.None?
  {
    match s
    case PhasePart(k, part, day) => PhaseTopic(name, Phases[k], part, day, hours)
    case ReviewDay(day) => ReviewTopic(name, day, hours)
  }

  /** What iteration `i` is, stated without the loops: day `i + 1`, part
      `i - start + 1` of the phase whose days contain `i`, or a review day
      after the phases. */
  function ExpectedIn(days: seq<int>, n: int, i: nat): (s: Slot)
    ensures s.day == i + 1 && (s.PhasePart? ==> s.phase < |days|)
  {
    var k := PhaseOf(days, n, i);
    PhaseOfAbove(days, n, i);
    if k < |days| then PhasePart(k, i - PhaseStart(days, n, k) + 1, i + 1)
    else ReviewDay(i + 1)
  }

  function Expected(n: int, i: nat): (s: Slot)
    ensures ValidSlot(s) && s.day == i + 1
  {
    ExpectedIn(DayCounts(n), n, i)
  }

  /** Inside phase `k`, the slot is the phase's part `i - start + 1`. */
  lemma ExpectedInPhase(days: seq<int>, n: int, k: nat, i: nat)
    requires k < |days| && PhaseStart(days, n, k) <= i < PhaseStart(days, n, k + 1)
    ensures ExpectedIn(days, n, i) == PhasePart(k, i - PhaseStart(days, n, k) + 1, i + 1)
  {
    PhaseFromIn(days, n, i, 0, k);
  }

  /** After the last phase, the slot is a review day. */
  lemma ExpectedAfterPhases(days: seq<int>, n: int, i: nat)
    requires PhaseStart(days, n, |days|) <= i
    ensures ExpectedIn(days, n, i) == ReviewDay(i + 1)
  {
    PhaseFromAfter(days, n, i, 0);
  }

  /** The inner `for` loop of phase `k`, from part `i + 1` on `day`. */
  function PhaseRun(k: nat, i: nat, count: int, day: int, n: int): seq<Slot>
    decreases if i < count then count - i else 0
  {
    if i < count && day <= n then [PhasePart(k, i + 1, day)] + PhaseRun(k, i + 1, count, day + 1, n)
    else []
  }

  lemma {:induction false} PhaseRunSpec(k: nat, i: nat, count: int, day: int, n: int)
    ensures var run := PhaseRun(k, i, count, day, n);
            && |run| == Max(0, Min(count - i, n - day + 1))
            && forall j :: 0 <= j < |run| ==> run[j] == PhasePart(k, i + j + 1, day + j)
    decreases if i < count then count - i else 0
  {
    if i < count && day <= n {
      PhaseRunSpec(k, i + 1, count, day + 1, n);
      var run := PhaseRun(k, i, count, day, n);
      var rest := PhaseRun(k, i + 1, count, day + 1, n);
      assert forall j :: 1 <= j < |run| ==> run[j] == rest[j - 1];
    }
  }

  /** `phases.forEach(...)` from phase `k` on, the day counter at `day`. */
  function RunPhases(days: seq<int>, n: int, k: nat, day: int): seq<Slot>
    requires k <= |days|
    decreases |days| - k
  {
    if k == |days| then []
    else
      var run := PhaseRun(k, 0, days[k], day, n);
      run + RunPhases(days, n, k + 1, day + |run|)
  }

  /** One phase's run followed by the later phases. */
  lemma RunPhasesUnfold(days: seq<int>, n: int, k: nat)
    requires k < |days|
    ensures var s := PhaseStart(days, n, k);
            var run := PhaseRun(k, 0, days[k], s + 1, n);
            && |run| == PhaseStart(days, n, k + 1) - s
            && RunPhases(days, n, k, s + 1) == run + RunPhases(days, n, k + 1, PhaseStart(days, n, k + 1) + 1)
  {
    var s := PhaseStart(days, n, k);
    var run := PhaseRun(k, 0, days[k], s + 1, n);
    PhaseRunSpec(k, 0, days[k], s + 1, n);
    assert PhaseStart(days, n, k + 1) == s + Max(0, Min(days[k], n - s));
    assert |run| == PhaseStart(days, n, k + 1) - s;
    assert RunPhases(days, n, k, s + 1) == run + RunPhases(days, n, k + 1, s + 1 + |run|);
  }

  /** The `j`-th slot of phase `k`'s run is the reference slot of its day. */
  lemma RunPartExpected(days: seq<int>, n: int, k: nat, j: nat)
    requires k < |days| && j < PhaseStart(days, n, k + 1) - PhaseStart(days, n, k)
    ensures var s := PhaseStart(days, n, k);
            var run := PhaseRun(k, 0, days[k], s + 1, n);
            j < |run| && run[j] == ExpectedIn(days, n, s + j)
  {
    var s := PhaseStart(days, n, k);
    PhaseRunSpec(k, 0, days[k], s + 1, n);
    ExpectedInPhase(days, n, k, s + j);
  }

  lemma {:induction false} RunPhasesLength(days: seq<int>, n: int, k: nat)
    requires k <= |days|
    ensures |RunPhases(days, n, k, PhaseStart(days, n, k) + 1)| == PhaseStart(days, n, |days|) - PhaseStart(days, n, k)
    decreases |days| - k
  {
    if k < |days| {
      RunPhasesUnfold(days, n, k);
      RunPhasesLength(days, n, k + 1);
    }
  }

  /** The `j`-th slot from phase `k` on is the reference slot of its day. */
  lemma {:induction false} RunPhasesAt(days: seq<int>, n: int, k: nat, j: nat)
    requires k < |days| && j < |RunPhases(days, n, k, PhaseStart(days, n, k) + 1)|
    ensures RunPhases(days, n, k, PhaseStart(days, n, k) + 1)[j] == ExpectedIn(days, n, PhaseStart(days, n, k) + j)
    decreases |days| - k
  {
    var s := PhaseStart(days, n, k);
    var s1 := PhaseStart(days, n, k + 1);
    var run := PhaseRun(k, 0, days[k], s + 1, n);
    var rest := RunPhases(days, n, k + 1, s1 + 1);
    RunPhasesUnfold(days, n, k);
    if j < |run| {
      RunPartExpected(days, n, k, j);
      assert (run + rest)[j] == run[j];
    } else {
      assert (run + rest)[j] == rest[j - |run|];
      RunPhasesAt(days, n, k + 1, j - |run|);
      assert s1 + (j - |run|) == s + j;
    }
  }

  /** The `while (topics.length < targetDays)` fill, from `len` topics. */
  function Review(len: nat, n: int): seq<Slot>
    decreases n - len
  {
    if len < n then [ReviewDay(len + 1)] + Review(len + 1, n) else []
  }

  lemma {:induction false} ReviewSpec(len: nat, n: int)
    ensures var rv := Review(len, n);
            && |rv| == Max(0, n - len)
            && forall j :: 0 <= j < |rv| ==> rv[j] == ReviewDay(len + j + 1)
    decreases n - len
  {
    if len < n {
      ReviewSpec(len + 1, n);
      var rv := Review(len, n);
      assert forall j :: 1 <= j < |rv| ==> rv[j] == Review(len + 1, n)[j - 1];
    }
  }

  /** `Array.prototype.slice(0, end)`: a negative end counts from the back. */
  function SliceTo<T>(s: seq<T>, end: int): (r: seq<T>)
    ensures end >= |s| ==> r == s
    ensures |r| <= |s| && r == s[..|r|]
  {
    if end >= 0 then s[..Min(end, |s|)] else s[..Max(0, |s| + end)]
  }

  /** The iterations of the phase loops and the review fill, cut to `n`. */
  function Curriculum(days: seq<int>, n: int): seq<Slot> {
    var ph := RunPhases(days, n, 0, 1);
    SliceTo(ph + Review(|ph|, n), n)
  }

  /** The loops run exactly `n` iterations, so the final slice keeps all. */
  lemma CurriculumShape(days: seq<int>, n: int)
    ensures var ph := RunPhases(days, n, 0, 1);
            var all := ph + Review(|ph|, n);
            |all| == Max(0, n) && Curriculum(days, n) == all
  {
    var ph := RunPhases(days, n, 0, 1);
    RunPhasesLength(days, n, 0);
    ReviewSpec(|ph|, n);
  }

  lemma CurriculumAt(days: seq<int>, n: int, i: nat)
    requires i < |RunPhases(days, n, 0, 1) + Review(|RunPhases(days, n, 0, 1)|, n)|
    ensures (RunPhases(days, n, 0, 1) + Review(|RunPhases(days, n, 0, 1)|, n))[i] == ExpectedIn(days, n, i)
  {
    var ph := RunPhases(days, n, 0, 1);
    var rv := Review(|ph|, n);
    RunPhasesLength(days, n, 0);
    if i < |ph| {
      assert (ph + rv)[i] == ph[i];
      RunPhasesAt(days, n, 0, i);
    } else {
      ReviewSpec(|ph|, n);
      assert (ph + rv)[i] == rv[i - |ph|];
      ExpectedAfterPhases(days, n, i);
    }
  }

  lemma CurriculumSpec(days: seq<int>, n: int)
    ensures var r := Curriculum(days, n);
            && |r| == Max(0, n)
            && forall i :: 0 <= i < |r| ==> r[i] == ExpectedIn(days, n, i)
  {
    CurriculumShape(days, n);
    var r := Curriculum(days, n);
    forall i | 0 <= i < |r| ensures r[i] == ExpectedIn(days, n, i) {
      CurriculumAt(days, n, i);
    }
  }

  /** The iterations of `generateRuleBasedTopics`, in push order. */
  function RuleBasedSlots(n: int): seq<Slot> {
    Curriculum(DayCounts(n), n)
  }

  /** The fallback curriculum is exactly `targetDays` iterations (none for a
      non-positive count), and iteration `i` is `Expected(i)`: the four
      phases in order, each with its rounded share of the days, cut off at
      the last day, then review days. */
  lemma RuleBasedSlotsSpec(n: int)
    ensures var r := RuleBasedSlots(n);
            && |r| == Max(0, n)
            && forall i :: 0 <= i < |r| ==> r[i] == Expected(n, i)
  {
    CurriculumSpec(DayCounts(n), n);
  }

  /** `generateRuleBasedTopics({skillName, targetDays, dailyHours})`. */
  function RuleBasedTopics(name: string, n: int, hours: real): (r: seq<PlanTopic>)
    ensures |r| == |RuleBasedSlots(n)|
  {
    var slots := RuleBasedSlots(n);
    RuleBasedSlotsSpec(n);
    seq(|slots|, i requires 0 <= i < |slots| => Render(name, hours, slots[i]))
  }

  /** The fallback topics: `targetDays` of them, the i-th rendered from
      `Expected(i)`. */
  lemma RuleBasedSpec(name: string, n: int, hours: real)
    ensures var r := RuleBasedTopics(name, n, hours);
            && |r| == Max(0, n)
            && forall i :: 0 <= i < |r| ==> r[i] == Render(name, hours, Expected(n, i))
  {
    RuleBasedSlotsSpec(n);
  }

  /** Every fallback topic is on day `index + 1` and asks for the daily
      hours capped at two. */
  lemma RuleBasedDays(name: string, n: int, hours: real)
    ensures var r := RuleBasedTopics(name, n, hours);
            forall i :: 0 <= i < |r| ==> r[i].day == i + 1 && r[i].estimatedHours == MinReal(hours, MaxRuleHours)
  {
    RuleBasedSpec(name, n, hours);
  }

  /** Over 21 days the rounded phases take 6, 8, 4 and 2 days, so one
      review day closes the curriculum. A worked example; the statement for
      every day count is `RuleBasedSlotsSpec`. */
  lemma TwentyOneDays()
    ensures Expected(21, 0) == PhasePart(0, 1, 1)
    ensures Expected(21, 6) == PhasePart(1, 1, 7)
    ensures Expected(21, 19) == PhasePart(3, 2, 20)
    ensures Expected(21, 20) == ReviewDay(21)
  {
    var days := DayCounts(21);
    assert days == [6, 8, 4, 2];
    assert PhaseStart(days, 21, 4) == 20;
    ExpectedInPhase(days, 21, 0, 0);
    ExpectedInPhase(days, 21, 1, 6);
    ExpectedInPhase(days, 21, 3, 19);
    ExpectedAfterPhases(days, 21, 20);
  }

  /** Over 5 days the phases ask for 2, 2, 1 and 1 days; the last phase is
      cut off and gets none. A worked example; the statement for every day
      count is `RuleBasedSlotsSpec`. */
  lemma FiveDays()
    ensures Expected(5, 3) == PhasePart(1, 2, 4)
    ensures Expected(5, 4) == PhasePart(2, 1, 5)
  {
  }

  /** Phases never go backwards along the curriculum. */
  lemma PhaseOrder(days: seq<int>, n: int, i: int, j: int)
    requires i <= j
    ensures PhaseOf(days, n, i) <= PhaseOf(days, n, j)
  {
    var ki := PhaseOf(days, n, i);
    var kj := PhaseOf(days, n, j);
    if kj < ki {
      PhaseFromBelow(days, n, j, 0);
      PhaseFromAbove(days, n, i, 0, kj);
    }
  }

  /** The index lies before the end of the phase it is placed in. */
  lemma {:induction false} PhaseFromBelow(days: seq<int>, n: int, i: int, k: nat)
    requires k <= |days|
    ensures var r := PhaseFrom(days, n, i, k); r < |days| ==> i < PhaseStart(days, n, r + 1)
    decreases |days| - k
  {
    if k < |days| && i >= PhaseStart(days, n, k + 1) {
      PhaseFromBelow(days, n, i, k + 1);
    }
  }

  /** The phase an index is placed in starts at or before it. */
  lemma PhaseOfAbove(days: seq<int>, n: int, i: nat)
    ensures var k := PhaseOf(days, n, i); k < |days| ==> PhaseStart(days, n, k) <= i
  {
    var k := PhaseOf(days, n, i);
    if 0 < k < |days| {
      PhaseFromAbove(days, n, i, 0, k - 1);
    }
  }

  /** Every phase before the one the index is placed in ends at or before it. */
  lemma {:induction false} PhaseFromAbove(days: seq<int>, n: int, i: int, k: nat, m: nat)
    requires k <= |days| && k <= m < PhaseFrom(days, n, i, k)
    ensures PhaseStart(days, n, m + 1) <= i
    decreases |days| - k
  {
    if m > k {
      PhaseFromAbove(days, n, i, k + 1, m);
    }
  }

  // ---------------------------------------------------------------------
  // Generated topics

  /** `topic.importance || 3` and `isSplittable !== undefined ? isSplittable : true`. */
  function NormalizeTopic(t: PlanTopic): (r: PlanTopic)
    ensures r.importance == Some(OrInt(t.importance, DefaultImportance))
    ensures r.isSplittable == Some(t.isSplittable.GetOr(true))
    ensures r.(importance := t.importance, isSplittable := t.isSplittable) == t
  {
    t.(importance := Some(OrInt(t.importance, DefaultImportance)),
       isSplittable := Some(t.isSplittable.GetOr(true)))
  }

  function NormalizeTopics(ts: seq<PlanTopic>): (r: seq<PlanTopic>)
    ensures |r| == |ts| && forall i :: 0 <= i < |ts| ==> r[i] == NormalizeTopic(ts[i])
  {
    seq(|ts|, i requires 0 <= i < |ts| => NormalizeTopic(ts[i]))
  }

  /** A topic is normalized when both defaults are filled in with usable values. */
  predicate Normalized(t: PlanTopic) {
    t.importance.Some? && t.importance.value != 0 && t.isSplittable.Some?
  }

  /** Normalizing leaves normalized topics, and a normalized topic is left
      as it is: filling in the defaults a second time changes nothing. */
  lemma NormalizeIdempotent(ts: seq<PlanTopic>)
    ensures forall i :: 0 <= i < |ts| ==> Normalized(NormalizeTopics(ts)[i])
    ensures NormalizeTopics(NormalizeTopics(ts)) == NormalizeTopics(ts)
    ensures (forall i :: 0 <= i < |ts| ==> Normalized(ts[i])) ==> NormalizeTopics(ts) == ts
  {
  }

  /** `generateDailyTopics`: the generated topics (`None` when the call or
      the parse fails) get their defaults; otherwise the rule-based
      curriculum is built for the user's full daily hours. */
  function DailyTopics(generated: Option<seq<PlanTopic>>, name: string, targetDays: int, dailyHours: real): (r: seq<PlanTopic>)
    ensures generated.Some? ==> r == NormalizeTopics(generated.value)
    ensures generated.None? ==> r == RuleBasedTopics(name, targetDays, dailyHours)
    ensures generated.Some? ==>
      && |r| == |generated.value|
      && forall i :: 0 <= i < |r| ==>
           && Normalized(r[i])
           && r[i].(importance := generated.value[i].importance,
                    isSplittable := generated.value[i].isSplittable) == generated.value[i]
    ensures generated.None? ==>
      && |r| == Max(0, targetDays)
      && forall i :: 0 <= i < |r| ==> r[i] == Render(name, dailyHours, Expected(targetDays, i))
  {
    match generated
    case Some(ts) => NormalizeIdempotent(ts); NormalizeTopics(ts)
    case None => RuleBasedSpec(name, targetDays, dailyHours); RuleBasedTopics(name, targetDays, dailyHours)
  }

  // ---------------------------------------------------------------------
  // The learning plan

  /** A task object as `generateLearningPlan` builds it (the requester is
      added by the caller when the tasks are stored). */
  datatype PlanTask = PlanTask(title: string, description: string, kind: TaskKind, scheduledDate: Day,
                               estimatedDuration: real, importance: int, isSplittable: bool,
                               skill: SkillId, resources: seq<Resource>, dayNumber: int, topicIndex: int)

  datatype LearningPlan = LearningPlan(dailyTopics: seq<PlanTopic>, tasks: seq<PlanTask>)

  /** `Math.min(topic.estimatedHours, hoursForThisSkill)`. */
  function CapTopic(t: PlanTopic, hours: real): (r: PlanTopic)
    ensures r.estimatedHours <= hours && r.estimatedHours <= t.estimatedHours
    ensures r.estimatedHours == t.estimatedHours || r.estimatedHours == hours
    ensures r.(estimatedHours := t.estimatedHours) == t
  {
    t.(estimatedHours := MinReal(t.estimatedHours, hours))
  }

  function PlanTaskFor(t: PlanTopic, sid: SkillId, startDate: Day, i: nat, resources: seq<Resource>): PlanTask {
    PlanTask(t.topic, t.description, Learning, startDate + i, t.estimatedHours * 60.0,
             OrInt(t.importance, DefaultImportance), t.isSplittable.GetOr(true), sid, resources,
             t.day, t.day - 1)
  }

  function CapTopics(ts: seq<PlanTopic>, hours: real): (r: seq<PlanTopic>)
    ensures |r| == |ts| && forall i :: 0 <= i < |ts| ==> r[i] == CapTopic(ts[i], hours)
  {
    seq(|ts|, i requires 0 <= i < |ts| => CapTopic(ts[i], hours))
  }

  function PlanTasks(ts: seq<PlanTopic>, sid: SkillId, startDate: Day, resourcesFor: string -> seq<Resource>): (r: seq<PlanTask>)
    ensures |r| == |ts|
    ensures forall i :: 0 <= i < |ts| ==> r[i] == PlanTaskFor(ts[i], sid, startDate, i, resourcesFor(ts[i].topic))
  {
    seq(|ts|, i requires 0 <= i < |ts| => PlanTaskFor(ts[i], sid, startDate, i, resourcesFor(ts[i].topic)))
  }

  /** `generateLearningPlan({skill, user, availableHoursPerSkill})`: the
      topics (generated or rule-based) capped at the skill's hours, and one
      task per capped topic on consecutive days from the start date.
      `resourcesFor` stands for the video search queries of each topic. */
  function GenerateLearningPlan(generated: Option<seq<PlanTopic>>, name: string, sid: SkillId, targetDays: int,
                                startDate: Day, dailyLearningHours: real, availableHoursPerSkill: Option<real>,
                                resourcesFor: string -> seq<Resource>): (r: LearningPlan)
    ensures var topics := DailyTopics(generated, name, targetDays, dailyLearningHours);
            |r.dailyTopics| == |topics| == |r.tasks|
  {
    var hours := OrReal(availableHoursPerSkill, dailyLearningHours);
    var capped := CapTopics(DailyTopics(generated, name, targetDays, dailyLearningHours), hours);
    LearningPlan(capped, PlanTasks(capped, sid, startDate, resourcesFor))
  }

  /** Each task asks for its topic's hours, capped at the skill's share
      (`availableHoursPerSkill`, falling back to the daily hours), in
      minutes; the i-th task is on the start date plus i days, keeps its
      topic's day as `dayNumber` with `topicIndex` one less, and takes the
      defaults importance 3 and splittable. */
  lemma LearningPlanTasks(generated: Option<seq<PlanTopic>>, name: string, sid: SkillId, targetDays: int,
                          startDate: Day, dailyLearningHours: real, availableHoursPerSkill: Option<real>,
                          resourcesFor: string -> seq<Resource>, i: nat)
    requires i < |DailyTopics(generated, name, targetDays, dailyLearningHours)|
    ensures var r := GenerateLearningPlan(generated, name, sid, targetDays, startDate, dailyLearningHours,
                                          availableHoursPerSkill, resourcesFor);
            var hours := OrReal(availableHoursPerSkill, dailyLearningHours);
            var topic := DailyTopics(generated, name, targetDays, dailyLearningHours)[i];
            && r.dailyTopics[i] == topic.(estimatedHours := MinReal(topic.estimatedHours, hours))
            && r.tasks[i].scheduledDate == startDate + i
            && r.tasks[i].estimatedDuration == MinReal(topic.estimatedHours, hours) * 60.0
            && r.tasks[i].estimatedDuration <= hours * 60.0
            && r.tasks[i].dayNumber == topic.day && r.tasks[i].topicIndex == topic.day - 1
            && r.tasks[i].importance == OrInt(topic.importance, DefaultImportance)
            && r.tasks[i].isSplittable == topic.isSplittable.GetOr(true)
            && r.tasks[i].title == topic.topic && r.tasks[i].description == topic.description
            && r.tasks[i].kind == Learning && r.tasks[i].skill == sid
            && r.tasks[i].resources == resourcesFor(topic.topic)
  {
  }

  /** With the rule-based fallback, the i-th task is curriculum day `i + 1`
      on the start date plus i days, at most two hours long, importance 3,
      splittable. */
  lemma FallbackPlanTasks(name: string, sid: SkillId, targetDays: int, startDate: Day,
                          dailyLearningHours: real, availableHoursPerSkill: Option<real>,
                          resourcesFor: string -> seq<Resource>, i: nat)
    requires i < targetDays
    ensures var r := GenerateLearningPlan(None, name, sid, targetDays, startDate, dailyLearningHours,
                                          availableHoursPerSkill, resourcesFor);
            && |r.tasks| == targetDays
            && r.tasks[i].scheduledDate == startDate + i
            && r.tasks[i].dayNumber == i + 1 && r.tasks[i].topicIndex == i
            && r.tasks[i].estimatedDuration <= MaxRuleHours * 60.0
            && r.tasks[i].importance == DefaultImportance && r.tasks[i].isSplittable
  {
    RuleBasedSpec(name, targetDays, dailyLearningHours);
    RuleBasedDays(name, targetDays, dailyLearningHours);
    LearningPlanTasks(None, name, sid, targetDays, startDate, dailyLearningHours, availableHoursPerSkill, resourcesFor, i);
  }
}

=== FILE: profile_controller.dfy ===
/** The profile endpoints (backend/controllers/profileController.js). A
    change of the daily learning budget reflows the learner's in-progress
    skills; switching workouts off drops the workouts still ahead. */
module ProfileController {
  import opened Wrappers
  import opened JsValues
  import opened TaskModel
  import opened UserModel
  import opened Store
  import opened Responses
  import Reflow

  const UserNotFound: string := "User not found"

  /** The profile fields a request body may carry; absent means undefined. */
  datatype ProfileBody = ProfileBody(
    name: Option<string>,
    dailyLearningHours: Option<real>,
    freeTimeSlots: Option<seq<FreeSlot>>,
    sleepTime: Option<string>,
    wakeTime: Option<string>,
    workoutEnabled: Option<bool>,
    workoutPreference: Option<WorkoutPreference>,
    existingSkills: Option<seq<string>>)

  const EmptyBody: ProfileBody := ProfileBody(None, None, None, None, None, None, None, None)

  // ---------------------------------------------------------------------
  // updateOnboarding, getProfile

  /** The profile `updateOnboarding` rebuilds: each truthy field given
      replaces the stored one (an array, even an empty one, is truthy),
      and the workout switch is taken whenever it is defined. */
  function OnboardProfile(p: Profile, b: ProfileBody): (r: Profile)
    ensures r.dailyLearningHours == OrReal(b.dailyLearningHours, p.dailyLearningHours)
    ensures r.freeTimeSlots == b.freeTimeSlots.GetOr(p.freeTimeSlots)
    ensures r.sleepTime == OrString(b.sleepTime, p.sleepTime) && r.wakeTime == OrString(b.wakeTime, p.wakeTime)
    ensures r.workoutEnabled == b.workoutEnabled.GetOr(p.workoutEnabled)
    ensures r.workoutPreference == b.workoutPreference.GetOr(p.workoutPreference)
    ensures r.existingSkills == b.existingSkills.GetOr(p.existingSkills)
  {
    Profile(OrReal(b.dailyLearningHours, p.dailyLearningHours), b.freeTimeSlots.GetOr(p.freeTimeSlots),
            OrString(b.sleepTime, p.sleepTime), OrString(b.wakeTime, p.wakeTime),
            b.workoutEnabled.GetOr(p.workoutEnabled), b.workoutPreference.GetOr(p.workoutPreference),
            b.existingSkills.GetOr(p.existingSkills))
  }

  /** Onboarding with an empty body keeps the profile, and onboarding
      twice with the same body is onboarding once. */
  lemma OnboardProfileIdempotent(p: Profile, b: ProfileBody)
    ensures OnboardProfile(p, EmptyBody) == p
    ensures OnboardProfile(OnboardProfile(p, b), b) == OnboardProfile(p, b)
  {
  }

  /** `updateOnboarding`: 404 without a user record; otherwise the rebuilt
      profile and the onboarded flag are saved when the user passes
      validation, and 500 leaves the store as it was. */
  function UpdateOnboarding(db: Db, uid: UserId, b: ProfileBody): (r: (Db, Reply<User>))
    ensures uid !in db.users <==> r == (db, Err(NotFound, UserNotFound))
    ensures uid in db.users ==>
      var u := db.users[uid].(isOnboarded := true, profile := OnboardProfile(db.users[uid].profile, b));
      (if ValidUser(u) then r == (db.(users := db.users[uid := u]), Ok(OkCode, u))
       else r == (db, Err(ServerError, ServerErrorMessage)))
  {
    if uid !in db.users then (db, Err(NotFound, UserNotFound))
    else
      var u := db.users[uid].(isOnboarded := true, profile := OnboardProfile(db.users[uid].profile, b));
      if ValidUser(u) then (db.(users := db.users[uid := u]), Ok(OkCode, u))
      else (db, Err(ServerError, ServerErrorMessage))
  }

  /** `getProfile`: the requester's user record, or 404. */
  function GetProfile(db: Db, uid: UserId): (r: Reply<User>)
    ensures r.Ok? <==> uid in db.users
    ensures r.Ok? ==> r.code == OkCode && r.data == db.users[uid] && r.data.id == db.users[uid].id
    ensures r.Err? ==> r == Err(NotFound, UserNotFound)
  {
    if uid in db.users then Ok(OkCode, db.users[uid]) else Err(NotFound, UserNotFound)
  }

  /** After a successful onboarding the profile reads back onboarded with
      the new budget, and no task or skill was touched. */
  lemma OnboardThenGet(db: Db, uid: UserId, b: ProfileBody)
    ensures var r := UpdateOnboarding(db, uid, b);
            r.1.Ok? ==>
              && GetProfile(r.0, uid) == Ok(OkCode, r.1.data)
              && r.1.data.isOnboarded
              && r.1.data.profile.dailyLearningHours == OrReal(b.dailyLearningHours, db.users[uid].profile.dailyLearningHours)
              && r.0.tasks == db.tasks && r.0.skills == db.skills
  {
  }

  // ---------------------------------------------------------------------
  // updateProfile

  /** The user `updateProfile` saves: each truthy field given replaces the
      stored one, and the budget and the workout switch whenever they are
      defined (a budget of 0 included). */
  function PatchUser(u: User, b: ProfileBody): (r: User)
    ensures r.id == u.id && r.email == u.email && r.isOnboarded == u.isOnboarded
    ensures r.name == OrString(b.name, u.name)
    ensures r.profile.dailyLearningHours == b.dailyLearningHours.GetOr(u.profile.dailyLearningHours)
    ensures r.profile.freeTimeSlots == b.freeTimeSlots.GetOr(u.profile.freeTimeSlots)
    ensures r.profile.sleepTime == OrString(b.sleepTime, u.profile.sleepTime)
    ensures r.profile.wakeTime == OrString(b.wakeTime, u.profile.wakeTime)
    ensures r.profile.workoutEnabled == b.workoutEnabled.GetOr(u.profile.workoutEnabled)
    ensures r.profile.workoutPreference == b.workoutPreference.GetOr(u.profile.workoutPreference)
    ensures r.profile.existingSkills == b.existingSkills.GetOr(u.profile.existingSkills)
  {
    var p := u.profile;
    u.(name := OrString(b.name, u.name),
       profile := p.(dailyLearningHours := b.dailyLearningHours.GetOr(p.dailyLearningHours),
                     freeTimeSlots := b.freeTimeSlots.GetOr(p.freeTimeSlots),
                     sleepTime := OrString(b.sleepTime, p.sleepTime),
                     wakeTime := OrString(b.wakeTime, p.wakeTime),
                     workoutEnabled := b.workoutEnabled.GetOr(p.workoutEnabled),
                     workoutPreference := b.workoutPreference.GetOr(p.workoutPreference),
                     existingSkills := b.existingSkills.GetOr(p.existingSkills)))
  }

  /** A workout of the user still to do on or after `today`: the tasks the
      workout switch-off removes. */
  predicate PendingWorkout(t: Task, uid: UserId, today: Day) {
    && t.user == uid && t.kind == Workout
    && (t.status == Pending || t.status == Rescheduled)
    && t.scheduledDate >= today
  }

  /** `Task.deleteMany` of the pending workouts, and how many it removed. */
  function DropWorkouts(ts: seq<Task>, uid: UserId, today: Day): (r: (seq<Task>, nat))
    ensures forall t :: t in r.0 <==> t in ts && !PendingWorkout(t, uid, today)
    ensures |r.0| + r.1 == |ts|
  {
    var kept := Filter(ts, (t: Task) => !PendingWorkout(t, uid, today));
    (kept, |ts| - |kept|)
  }

  /** The reply of `updateProfile`: the saved user, the reflow's outcome
      when the budget changed, and the number of workouts removed. */
  datatype ProfileUpdate = ProfileUpdate(user: User, rescheduled: Option<Reflow.ReflowResult>,
                                         deletedWorkoutTasks: nat)

  predicate HoursChanged(u: User, b: ProfileBody) {
    b.dailyLearningHours.Some? && b.dailyLearningHours.value != u.profile.dailyLearningHours
  }

  predicate WorkoutDisabled(u: User, b: ProfileBody) {
    b.workoutEnabled == Some(false) && u.profile.workoutEnabled
  }

  /** The reflow step: run only when the budget changed, with the new
      budget, on the store holding the saved user. */
  function ReflowIfChanged(db: Db, uid: UserId, prev: User, b: ProfileBody, today: Day): (r: (Db, Option<Reflow.ReflowResult>))
    ensures !HoursChanged(prev, b) ==> r == (db, None)
    ensures HoursChanged(prev, b) ==>
      var rr := Reflow.Reschedule(db, uid, b.dailyLearningHours.value, today);
      r == (rr.db, Some(rr))
  {
    if HoursChanged(prev, b) then
      var rr := Reflow.Reschedule(db, uid, b.dailyLearningHours.value, today);
      (rr.db, Some(rr))
    else (db, None)
  }

  /** `updateProfile`: 404 without a user record; 500 when the patched
      user fails validation (nothing written) or the reflow fails (its
      writes kept); otherwise the user saved, the reflow run when the
      budget changed, and, when workouts were just switched off, the
      requester's workouts from `today` on that are still pending
      removed. */
  function UpdateProfile(db: Db, uid: UserId, b: ProfileBody, today: Day): (r: (Db, Reply<ProfileUpdate>))
    ensures uid !in db.users <==> r == (db, Err(NotFound, UserNotFound))
    ensures uid in db.users && !ValidUser(PatchUser(db.users[uid], b)) ==>
      r == (db, Err(ServerError, ServerErrorMessage))
    ensures r.1.Ok? ==>
      && uid in db.users && r.1.code == OkCode
      && r.1.data.user == PatchUser(db.users[uid], b) && ValidUser(r.1.data.user)
      && r.0.users == db.users[uid := r.1.data.user]
      && (r.1.data.rescheduled.Some? <==> HoursChanged(db.users[uid], b))
      && (!WorkoutDisabled(db.users[uid], b) ==> r.1.data.deletedWorkoutTasks == 0)
  {
    if uid !in db.users then (db, Err(NotFound, UserNotFound))
    else
      var prev := db.users[uid];
      var u := PatchUser(prev, b);
      if !ValidUser(u) then (db, Err(ServerError, ServerErrorMessage))
      else
        var db1 := db.(users := db.users[uid := u]);
        var (db2, rescheduled) := ReflowIfChanged(db1, uid, prev, b, today);
        if rescheduled.Some? && !rescheduled.value.ok then (db2, Err(ServerError, ServerErrorMessage))
        else if WorkoutDisabled(prev, b) then
          var (kept, deleted) := DropWorkouts(db2.tasks, uid, today);
          (db2.(tasks := kept), Ok(OkCode, ProfileUpdate(u, rescheduled, deleted)))
        else (db2, Ok(OkCode, ProfileUpdate(u, rescheduled, 0)))
  }

  /** Without a new budget nothing is reflowed: a successful update changes
      the tasks only by removing pending workouts, and never the skills. */
  lemma UpdateProfileNoReflow(db: Db, uid: UserId, b: ProfileBody, today: Day)
    requires uid in db.users && !HoursChanged(db.users[uid], b)
    ensures var r := UpdateProfile(db, uid, b, today);
            r.1.Ok? ==>
              && r.0.skills == db.skills && r.0.nextId == db.nextId
              && (WorkoutDisabled(db.users[uid], b) ==> r.0.tasks == DropWorkouts(db.tasks, uid, today).0)
              && (!WorkoutDisabled(db.users[uid], b) ==> r.0.tasks == db.tasks)
  {
  }

  /** Switching workouts off leaves none of the requester's pending
      workouts from `today` on, keeps every other task after the reflow,
      and reports how many went. */
  lemma UpdateProfileDropsWorkouts(db: Db, uid: UserId, b: ProfileBody, today: Day)
    requires uid in db.users && WorkoutDisabled(db.users[uid], b)
    ensures var r := UpdateProfile(db, uid, b, today);
            var before := ReflowIfChanged(db.(users := db.users[uid := PatchUser(db.users[uid], b)]),
                                          uid, db.users[uid], b, today).0.tasks;
            r.1.Ok? ==>
              && (forall t :: t in r.0.tasks <==> t in before && !PendingWorkout(t, uid, today))
              && |r.0.tasks| + r.1.data.deletedWorkoutTasks == |before|
  {
  }

  /** A changed budget within the schema's bounds reflows with exactly
      that budget, and per skill and day the reflow stays within it. */
  lemma UpdateProfileReflows(db: Db, uid: UserId, b: ProfileBody, today: Day)
    requires uid in db.users && HoursChanged(db.users[uid], b)
    ensures var r := UpdateProfile(db, uid, b, today);
            r.1.Ok? ==>
              var rr := r.1.data.rescheduled.value;
              && rr == Reflow.Reschedule(db.(users := db.users[uid := r.1.data.user]), uid,
                                         b.dailyLearningHours.value, today)
              && rr.ok
              && Reflow.LogWithinShares(rr.log, rr.hoursPerSkill * 60.0, today)
  {
    var r := UpdateProfile(db, uid, b, today);
    if r.1.Ok? {
      Reflow.RescheduleWithinBudget(db.(users := db.users[uid := r.1.data.user]), uid,
                                    b.dailyLearningHours.value, today);
    }
  }
}

=== FILE: reflow.dfy ===
/** The reflow run when the daily budget or the set of active skills
    changes (`rescheduleOnTimeChange`): the budget is split equally across
    the skills in progress, all outstanding learning tasks are sorted by
    importance and curriculum position, grouped into one queue per skill,
    and placed day by day, each skill filling its own share of every day and
    splitting a task that does not fit. */
module Reflow {
  import opened Wrappers
  import opened JsValues
  import opened TaskModel
  import opened SkillModel
  import opened Store
  import opened Sorting
  import opened Capacity
  import Replanner

  const MaxDays: nat := 365
  const MinSplit: real := 15.0
  /** Appended to the title of a continuation. */
  const ContSuffix: string := " (cont.)"

  // ---------------------------------------------------------------------
  // Collecting and ordering the work

  /** The per-skill query: the user's outstanding learning tasks of that skill. */
  predicate InReflowQuery(t: Task, uid: UserId, sid: SkillId) {
    t.skill == Some(sid) && t.user == uid && Replanner.Outstanding(t) && t.kind == Learning
  }

  /** `.sort({dayNumber: 1, importance: -1})`: no day number first. */
  function QueryKey(t: Task): Key {
    if t.dayNumber.None? then Key(0, 0, -t.importance) else Key(1, t.dayNumber.value, -t.importance)
  }

  /** The global comparator: importance (default 3) descending, then day
      number (default 0) ascending. */
  function ReflowKey(t: Task): Key {
    Key(-OrInt(Some(t.importance), DefaultImportance), OrInt(t.dayNumber, 0), 0)
  }

  /** Some active skill's query selects `t`. */
  predicate InSomeQuery(t: Task, uid: UserId, skills: seq<Skill>) {
    exists j :: 0 <= j < |skills| && InReflowQuery(t, uid, skills[j].id)
  }

  lemma InSomeQueryCons(t: Task, uid: UserId, skills: seq<Skill>)
    requires |skills| > 0
    ensures InSomeQuery(t, uid, skills) <==>
      InReflowQuery(t, uid, skills[0].id) || InSomeQuery(t, uid, skills[1..])
  {
    if InSomeQuery(t, uid, skills) {
      var j :| 0 <= j < |skills| && InReflowQuery(t, uid, skills[j].id);
      if j > 0 { assert skills[1..][j - 1] == skills[j]; }
    }
    if InSomeQuery(t, uid, skills[1..]) {
      var j :| 0 <= j < |skills[1..]| && InReflowQuery(t, uid, skills[1..][j].id);
      assert skills[j + 1] == skills[1..][j];
    }
  }

  /** The tasks one skill's query returns, in the query's order. */
  function SkillQuery(ts: seq<Task>, uid: UserId, sid: SkillId): (q: seq<Task>)
    ensures forall t :: t in q <==> t in ts && InReflowQuery(t, uid, sid)
  {
    var f := Filter(ts, (t: Task) => InReflowQuery(t, uid, sid));
    var q := SortByKey(f, QueryKey);
    assert forall t :: t in q <==> t in multiset(f);
    q
  }

  /** One query per active skill, concatenated in the order of the skills:
      exactly the stored tasks some active skill's query selects. */
  function Collect(ts: seq<Task>, uid: UserId, skills: seq<Skill>): (r: seq<Task>)
    ensures forall t :: t in r <==> t in ts && InSomeQuery(t, uid, skills)
  {
    if |skills| == 0 then []
    else
      var q := SkillQuery(ts, uid, skills[0].id);
      var rest := Collect(ts, uid, skills[1..]);
      assert forall t :: InSomeQuery(t, uid, skills) <==>
        InReflowQuery(t, uid, skills[0].id) || InSomeQuery(t, uid, skills[1..]) by {
        forall t { InSomeQueryCons(t, uid, skills); }
      }
      q + rest
  }

  // ---------------------------------------------------------------------
  // One queue per skill, in order of first appearance

  datatype Lane = Lane(skill: Option<SkillId>, queue: seq<Task>)

  /** The tasks of one skill, in their order in `s`. */
  function OfSkill(s: seq<Task>, k: Option<SkillId>): seq<Task> {
    if |s| == 0 then []
    else OfSkill(s[..|s| - 1], k) + (if s[|s| - 1].skill == k then [s[|s| - 1]] else [])
  }

  /** The position of the first task of skill `k` in `s` (|s| when none). */
  function FirstIndex(s: seq<Task>, k: Option<SkillId>): (i: nat)
    ensures i <= |s|
    ensures i < |s| ==> s[i].skill == k
    ensures forall j :: 0 <= j < i ==> s[j].skill != k
  {
    if |s| == 0 then 0
    else if s[0].skill == k then 0
    else 1 + FirstIndex(s[1..], k)
  }

  lemma {:induction false} FirstIndexSnoc(p: seq<Task>, t: Task, k: Option<SkillId>)
    ensures FirstIndex(p, k) < |p| ==> FirstIndex(p + [t], k) == FirstIndex(p, k)
    ensures FirstIndex(p, k) == |p| && t.skill == k ==> FirstIndex(p + [t], k) == |p|
    ensures FirstIndex(p, k) == |p| && t.skill != k ==> FirstIndex(p + [t], k) == |p| + 1
  {
    if |p| > 0 {
      assert (p + [t])[1..] == p[1..] + [t];
      FirstIndexSnoc(p[1..], t, k);
    }
  }

  predicate DistinctSkills(lanes: seq<Lane>) {
    forall j, k :: 0 <= j < k < |lanes| ==> lanes[j].skill != lanes[k].skill
  }

  function LaneOf(lanes: seq<Lane>, k: Option<SkillId>): (r: Option<nat>)
    ensures r.Some? ==> r.value < |lanes| && lanes[r.value].skill == k
    ensures r.None? ==> forall j :: 0 <= j < |lanes| ==> lanes[j].skill != k
  {
    if |lanes| == 0 then None
    else if lanes[|lanes| - 1].skill == k then Some(|lanes| - 1)
    else LaneOf(lanes[..|lanes| - 1], k)
  }

  /** `tasksBySkill[id].push(task)`, creating the queue on first sight. */
  function AddToLanes(lanes: seq<Lane>, t: Task): seq<Lane> {
    match LaneOf(lanes, t.skill)
    case Some(j) => lanes[j := Lane(t.skill, lanes[j].queue + [t])]
    case None => lanes + [Lane(t.skill, [t])]
  }

  /** The grouping step: `tasksBySkill`, filled in sorted order. */
  function Partition(s: seq<Task>): seq<Lane> {
    if |s| == 0 then [] else AddToLanes(Partition(s[..|s| - 1]), s[|s| - 1])
  }

  predicate QueuesMatch(s: seq<Task>, lanes: seq<Lane>) {
    forall j :: 0 <= j < |lanes| ==> lanes[j].queue == OfSkill(s, lanes[j].skill)
  }

  predicate SkillsPresent(s: seq<Task>, lanes: seq<Lane>) {
    forall j :: 0 <= j < |lanes| ==> FirstIndex(s, lanes[j].skill) < |s|
  }

  predicate Covered(s: seq<Task>, lanes: seq<Lane>) {
    forall i :: 0 <= i < |s| ==> LaneOf(lanes, s[i].skill).Some?
  }

  predicate FirstAppearanceOrder(s: seq<Task>, lanes: seq<Lane>) {
    forall j, k :: 0 <= j < k < |lanes| ==> FirstIndex(s, lanes[j].skill) < FirstIndex(s, lanes[k].skill)
  }

  /** What the grouping is for: one lane per skill, lanes in the order their
      skill first appears in `s`, each lane holding exactly that skill's
      tasks in their order in `s`. */
  predicate Grouped(s: seq<Task>, lanes: seq<Lane>) {
    DistinctSkills(lanes) && QueuesMatch(s, lanes) && SkillsPresent(s, lanes)
    && Covered(s, lanes) && FirstAppearanceOrder(s, lanes)
  }

  lemma {:induction false} PartitionGroups(s: seq<Task>)
    ensures Grouped(s, Partition(s))
  {
    if |s| > 0 {
      var n := |s| - 1;
      var p := s[..n];
      var t := s[n];
      PartitionGroups(p);
      assert s == p + [t];
      forall k: Option<SkillId> ensures OfSkill(s, k) == OfSkill(p, k) + (if t.skill == k then [t] else []) {
      }
      forall k: Option<SkillId> ensures
        && (FirstIndex(p, k) < |p| ==> FirstIndex(s, k) == FirstIndex(p, k))
        && (FirstIndex(p, k) == |p| && t.skill == k ==> FirstIndex(s, k) == |p|)
      {
        FirstIndexSnoc(p, t, k);
      }
      var lanes := Partition(p);
      CoveredSnoc(s, p, t, lanes);
      if LaneOf(lanes, t.skill).Some? {
        AddExisting(s, p, t, lanes);
      } else {
        assert FirstIndex(p, t.skill) == |p| by {
          assert forall i :: 0 <= i < |p| ==> LaneOf(lanes, p[i].skill).Some?;
        }
        OfSkillAbsent(p, t.skill);
        AddNew(s, p, t, lanes);
      }
    }
  }

  /** Adding `t` keeps every earlier task's lane and gives `t` one. */
  lemma CoveredSnoc(s: seq<Task>, p: seq<Task>, t: Task, lanes: seq<Lane>)
    requires s == p + [t] && Covered(p, lanes)
    ensures Covered(s, AddToLanes(lanes, t))
  {
    var r := AddToLanes(lanes, t);
    assert forall m :: 0 <= m < |lanes| ==> r[m].skill == lanes[m].skill;
    forall i | 0 <= i < |s| ensures LaneOf(r, s[i].skill).Some? {
      if i < |p| {
        assert s[i] == p[i];
        var m := LaneOf(lanes, p[i].skill).value;
        assert r[m].skill == s[i].skill;
      } else {
        match LaneOf(lanes, t.skill)
        case Some(j) => assert r[j].skill == t.skill;
        case None => assert r[|lanes|].skill == t.skill;
      }
    }
  }

  lemma AddExisting(s: seq<Task>, p: seq<Task>, t: Task, lanes: seq<Lane>)
    requires s == p + [t] && LaneOf(lanes, t.skill).Some?
    requires DistinctSkills(lanes) && QueuesMatch(p, lanes) && SkillsPresent(p, lanes)
    requires FirstAppearanceOrder(p, lanes)
    requires forall k: Option<SkillId> :: OfSkill(s, k) == OfSkill(p, k) + (if t.skill == k then [t] else [])
    requires forall k: Option<SkillId> :: FirstIndex(p, k) < |p| ==> FirstIndex(s, k) == FirstIndex(p, k)
    ensures DistinctSkills(AddToLanes(lanes, t)) && QueuesMatch(s, AddToLanes(lanes, t))
    ensures SkillsPresent(s, AddToLanes(lanes, t)) && FirstAppearanceOrder(s, AddToLanes(lanes, t))
  {
    var j := LaneOf(lanes, t.skill).value;
    var r := lanes[j := Lane(t.skill, lanes[j].queue + [t])];
    assert r == AddToLanes(lanes, t);
    ExistingQueues(s, p, t, lanes, j, r);
    ExistingOrder(s, p, t, lanes, j, r);
  }

  /** Appending to lane `j` extends exactly that lane's queue. */
  lemma ExistingQueues(s: seq<Task>, p: seq<Task>, t: Task, lanes: seq<Lane>, j: nat, r: seq<Lane>)
    requires j < |lanes| && lanes[j].skill == t.skill && DistinctSkills(lanes)
    requires r == lanes[j := Lane(t.skill, lanes[j].queue + [t])]
    requires QueuesMatch(p, lanes)
    requires forall k: Option<SkillId> :: OfSkill(s, k) == OfSkill(p, k) + (if t.skill == k then [t] else [])
    ensures QueuesMatch(s, r)
  {
    forall m | 0 <= m < |r| ensures r[m].queue == OfSkill(s, r[m].skill) {
      if m == j {
        assert OfSkill(s, t.skill) == OfSkill(p, t.skill) + [t];
      } else {
        assert r[m] == lanes[m] && lanes[m].skill != t.skill;
        assert OfSkill(s, lanes[m].skill) == OfSkill(p, lanes[m].skill) + [];
      }
    }
  }

  /** Appending to an existing lane changes no lane's skill, so the order
      facts carry over. */
  lemma ExistingOrder(s: seq<Task>, p: seq<Task>, t: Task, lanes: seq<Lane>, j: nat, r: seq<Lane>)
    requires j < |lanes| && lanes[j].skill == t.skill
    requires r == lanes[j := Lane(t.skill, lanes[j].queue + [t])]
    requires DistinctSkills(lanes) && SkillsPresent(p, lanes) && FirstAppearanceOrder(p, lanes)
    requires forall k: Option<SkillId> :: FirstIndex(p, k) < |p| ==> FirstIndex(s, k) == FirstIndex(p, k)
    requires |s| == |p| + 1
    ensures DistinctSkills(r) && SkillsPresent(s, r) && FirstAppearanceOrder(s, r)
  {
    assert forall m :: 0 <= m < |r| ==> r[m].skill == lanes[m].skill;
    forall m | 0 <= m < |r| ensures FirstIndex(s, r[m].skill) == FirstIndex(p, lanes[m].skill) {
      assert FirstIndex(p, lanes[m].skill) < |p|;
    }
  }

  lemma AddNew(s: seq<Task>, p: seq<Task>, t: Task, lanes: seq<Lane>)
    requires s == p + [t] && LaneOf(lanes, t.skill).None?
    requires DistinctSkills(lanes) && QueuesMatch(p, lanes) && SkillsPresent(p, lanes)
    requires FirstAppearanceOrder(p, lanes)
    requires FirstIndex(s, t.skill) == |p| && OfSkill(p, t.skill) == []
    requires forall k: Option<SkillId> :: OfSkill(s, k) == OfSkill(p, k) + (if t.skill == k then [t] else [])
    requires forall k: Option<SkillId> :: FirstIndex(p, k) < |p| ==> FirstIndex(s, k) == FirstIndex(p, k)
    ensures DistinctSkills(AddToLanes(lanes, t)) && QueuesMatch(s, AddToLanes(lanes, t))
    ensures SkillsPresent(s, AddToLanes(lanes, t)) && FirstAppearanceOrder(s, AddToLanes(lanes, t))
  {
    var r := lanes + [Lane(t.skill, [t])];
    assert r == AddToLanes(lanes, t);
    NewQueues(s, p, t, lanes, r);
    NewOrder(s, p, t, lanes, r);
  }

  /** A new lane holds just `t`; the other lanes' skills gained nothing. */
  lemma NewQueues(s: seq<Task>, p: seq<Task>, t: Task, lanes: seq<Lane>, r: seq<Lane>)
    requires r == lanes + [Lane(t.skill, [t])]
    requires forall j :: 0 <= j < |lanes| ==> lanes[j].skill != t.skill
    requires QueuesMatch(p, lanes) && OfSkill(p, t.skill) == []
    requires forall k: Option<SkillId> :: OfSkill(s, k) == OfSkill(p, k) + (if t.skill == k then [t] else [])
    ensures QueuesMatch(s, r)
  {
    var n := |lanes|;
    forall j | 0 <= j < |r| ensures r[j].queue == OfSkill(s, r[j].skill) {
      if j < n {
        assert r[j] == lanes[j];
        assert OfSkill(s, lanes[j].skill) == OfSkill(p, lanes[j].skill) + [];
      } else {
        assert OfSkill(s, t.skill) == [] + [t];
      }
    }
  }

  /** A new lane comes last and its skill appears last in `s`. */
  lemma NewOrder(s: seq<Task>, p: seq<Task>, t: Task, lanes: seq<Lane>, r: seq<Lane>)
    requires r == lanes + [Lane(t.skill, [t])]
    requires forall j :: 0 <= j < |lanes| ==> lanes[j].skill != t.skill
    requires DistinctSkills(lanes) && SkillsPresent(p, lanes) && FirstAppearanceOrder(p, lanes)
    requires FirstIndex(s, t.skill) == |p| && |s| == |p| + 1
    requires forall k: Option<SkillId> :: FirstIndex(p, k) < |p| ==> FirstIndex(s, k) == FirstIndex(p, k)
    ensures DistinctSkills(r) && SkillsPresent(s, r) && FirstAppearanceOrder(s, r)
  {
    var n := |lanes|;
    assert DistinctSkills(r) by {
      forall j, k | 0 <= j < k < |r| ensures r[j].skill != r[k].skill {
        assert r[j] == lanes[j];
        if k < n { assert r[k] == lanes[k]; }
      }
    }
    assert SkillsPresent(s, r) by {
      forall m | 0 <= m < |r| ensures FirstIndex(s, r[m].skill) < |s| {
        if m < n {
          assert r[m] == lanes[m];
          assert FirstIndex(p, lanes[m].skill) < |p|;
        }
      }
    }
    assert FirstAppearanceOrder(s, r) by {
      forall j, k | 0 <= j < k < |r| ensures FirstIndex(s, r[j].skill) < FirstIndex(s, r[k].skill) {
        assert r[j] == lanes[j];
        assert FirstIndex(p, lanes[j].skill) < |p|;
        if k < n {
          assert r[k] == lanes[k];
          assert FirstIndex(p, lanes[k].skill) < |p|;
        }
      }
    }
  }

  lemma {:induction false} OfSkillAbsent(p: seq<Task>, k: Option<SkillId>)
    requires FirstIndex(p, k) == |p|
    ensures OfSkill(p, k) == []
  {
    if |p| > 0 {
      var n := |p| - 1;
      assert forall j :: 0 <= j < n ==> p[..n][j] == p[j];
      assert FirstIndex(p[..n], k) == n;
      OfSkillAbsent(p[..n], k);
    }
  }

  /** `OfSkill` keeps exactly the tasks of that skill. */
  lemma {:induction false} OfSkillMembers(s: seq<Task>, k: Option<SkillId>)
    ensures forall t :: t in OfSkill(s, k) <==> t in s && t.skill == k
  {
    if |s| > 0 {
      var n := |s| - 1;
      var p := s[..n];
      OfSkillMembers(p, k);
      assert s == p + [s[n]];
    }
  }

  /** Every lane keeps the global order: a skill's queue, taken out of a
      sorted sequence, is itself sorted. */
  lemma {:induction false} OfSkillSorted(s: seq<Task>, k: Option<SkillId>)
    requires SortedBy(s, ReflowKey)
    ensures SortedBy(OfSkill(s, k), ReflowKey)
    ensures forall t :: t in OfSkill(s, k) ==> t in s && t.skill == k
  {
    if |s| > 0 {
      var n := |s| - 1;
      var p := s[..n];
      assert SortedBy(p, ReflowKey);
      OfSkillSorted(p, k);
      assert s == p + [s[n]];
      if s[n].skill == k {
        forall t | t in OfSkill(p, k) ensures KeyLe(ReflowKey(t), ReflowKey(s[n])) {
          var i :| 0 <= i < |p| && p[i] == t;
          assert s[i] == t;
        }
        SortedSnoc(OfSkill(p, k), s[n], ReflowKey);
      } else {
        assert OfSkill(s, k) == OfSkill(p, k) + [];
      }
    }
  }

  // ---------------------------------------------------------------------
  // Placing one task

  /** One save of a queued task: which task, on which day, and its duration
      before and after. */
  datatype Placement = Placement(id: TaskId, day: Day, oldDuration: real, newDuration: real)

  function SumNew(ps: seq<Placement>): real {
    if |ps| == 0 then 0.0 else ps[0].newDuration + SumNew(ps[1..])
  }

  /** The fit branch: the task moves to `day` with duration `minutes`; only
      if its date or its duration actually changed is it stamped (original
      date once, rescheduled, counter plus one). */
  function PlaceWhole(t: Task, day: Day, minutes: real): (r: Task)
    ensures r.scheduledDate == day && r.estimatedDuration == minutes
    ensures (t.scheduledDate != day || t.estimatedDuration != minutes) ==>
      && r.status == Rescheduled && r.rescheduledCount == t.rescheduledCount + 1
      && r.originalDate == KeepOriginal(t, t.scheduledDate)
    ensures (t.scheduledDate == day && t.estimatedDuration == minutes) ==> r == t
    ensures r.(scheduledDate := t.scheduledDate, estimatedDuration := t.estimatedDuration,
               status := t.status, rescheduledCount := t.rescheduledCount,
               originalDate := t.originalDate) == t
  {
    var moved := t.(scheduledDate := day, estimatedDuration := minutes);
    if t.scheduledDate != day || t.estimatedDuration != minutes then
      moved.(originalDate := KeepOriginal(t, t.scheduledDate), status := Rescheduled,
             rescheduledCount := t.rescheduledCount + 1)
    else moved
  }

  /** The split branch, head part: the task shrinks to the `minutes` left
      today and is always stamped. */
  function PlaceHead(t: Task, day: Day, minutes: real): (r: Task)
    ensures r.scheduledDate == day && r.estimatedDuration == minutes
    ensures r.status == Rescheduled && r.rescheduledCount == t.rescheduledCount + 1
    ensures r.originalDate == KeepOriginal(t, t.scheduledDate)
    ensures r.(scheduledDate := t.scheduledDate, estimatedDuration := t.estimatedDuration,
               status := t.status, rescheduledCount := t.rescheduledCount,
               originalDate := t.originalDate) == t
  {
    t.(scheduledDate := day, estimatedDuration := minutes,
       originalDate := KeepOriginal(t, t.scheduledDate), status := Rescheduled,
       rescheduledCount := t.rescheduledCount + 1)
  }

  /** The continuation of a split task: same owner, skill, importance,
      resources and day number, a "(cont.)" title, the unplaced minutes,
      pending and splittable, on the next day. */
  function Continuation(t: Task, id: TaskId, day: Day, minutes: real): (c: Task)
    ensures c.id == id && c.user == t.user && c.skill == t.skill
    ensures c.title == t.title + ContSuffix && c.kind == Learning
    ensures c.scheduledDate == day + 1 && c.estimatedDuration == minutes
    ensures c.importance == t.importance && c.isSplittable && c.status == Pending
    ensures c.dayNumber == t.dayNumber && c.resources == t.resources
    ensures c.originalDate.None? && c.rescheduledCount == 0
    ensures ValidTask(t) && minutes >= MinDuration ==> ValidTask(c)
  {
    var d := BlankDraft(t.user, t.title + ContSuffix, day + 1).(
      skill := t.skill, description := t.description, kind := Some(Learning),
      estimatedDuration := Some(minutes), importance := Some(t.importance),
      isSplittable := Some(true), status := Some(Pending), resources := t.resources,
      dayNumber := t.dayNumber);
    Materialize(d, id)
  }

  // ---------------------------------------------------------------------
  // One skill on one day

  predicate ValidQueue(q: seq<Task>) {
    forall i :: 0 <= i < |q| ==> ValidTask(q[i])
  }

  /** The head of the queue can be placed: whole (capped at the share) if
      it fits in what is left of the share, split if it is splittable and at
      least 15 minutes are left. */
  predicate HeadPlaceable(queue: seq<Task>, used: real, share: real)
    requires |queue| > 0
  {
    var left := share - used;
    MinReal(DurationOr60(queue[0]), share) <= left || (queue[0].isSplittable && left >= MinSplit)
  }

  /** The inner loop's condition together with its `break`. */
  predicate KeepsFilling(queue: seq<Task>, used: real, share: real) {
    |queue| > 0 && used < share && HeadPlaceable(queue, used, share)
  }

  /** The result of one pass of the inner loop. */
  datatype Step =
    | Placed(tasks: seq<Task>, nextId: nat, queue: seq<Task>, minutes: real, placement: Placement, changed: bool)
    | Failed(tasks: seq<Task>, nextId: nat)
    | Stop

  /** One pass of the inner loop for the head of the queue. */
  function NextStep(ts: seq<Task>, nextId: nat, queue: seq<Task>, used: real, share: real, day: Day): (st: Step)
    requires 0.0 <= used
    ensures st.Stop? <==> !KeepsFilling(queue, used, share)
    ensures st.Placed? ==>
      && 0.0 < st.minutes <= share - used
      && st.placement == Placement(queue[0].id, day, queue[0].estimatedDuration, st.minutes)
      && st.nextId >= nextId
      && (used + st.minutes < share ==> |st.queue| < |queue|)
    ensures st.Placed? && ValidQueue(queue) ==>
      ValidQueue(st.queue) && st.minutes <= queue[0].estimatedDuration
    ensures st.Failed? ==> st.nextId == nextId
  {
    if !KeepsFilling(queue, used, share) then Stop
    else
      var t := queue[0];
      var minutes := MinReal(DurationOr60(t), share);
      var left := share - used;
      if minutes <= left then
        var t' := PlaceWhole(t, day, minutes);
        if !ValidTask(t') then Failed(ts, nextId)
        else
          var changed := t.scheduledDate != day || t.estimatedDuration != minutes;
          Placed(PutTask(ts, t'), nextId, queue[1..], minutes,
                 Placement(t.id, day, t.estimatedDuration, minutes), changed)
      else
        var head := PlaceHead(t, day, left);
        if !ValidTask(head) then Failed(ts, nextId)
        else
          var ts' := PutTask(ts, head);
          var remainder := t.estimatedDuration - left;
          var placement := Placement(t.id, day, t.estimatedDuration, left);
          if remainder >= MinSplit then
            var c := Continuation(t, nextId, day, remainder);
            if !ValidTask(c) then Failed(ts', nextId)
            else Placed(ts' + [c], nextId + 1, [c] + queue[1..], left, placement, true)
          else Placed(ts', nextId, queue[1..], left, placement, true)
  }

  /** What one pass writes. A head whose duration (60 when unset), capped at
      the share, fits in what is left of the share is saved whole on `day`
      and leaves the queue. Otherwise the head shrinks to what is left and
      is saved; a remainder of at least 15 minutes becomes a continuation,
      saved under the next id and queued first, and a smaller remainder is
      dropped. A save that fails validation fails the pass. */
  lemma NextStepEffect(ts: seq<Task>, nextId: nat, queue: seq<Task>, used: real, share: real, day: Day)
    requires 0.0 <= used && KeepsFilling(queue, used, share)
    ensures var st := NextStep(ts, nextId, queue, used, share, day);
            var t := queue[0];
            var left := share - used;
            var whole := MinReal(DurationOr60(t), share);
            var head := PlaceHead(t, day, left);
            var c := Continuation(t, nextId, day, t.estimatedDuration - left);
            && !st.Stop?
            && (whole <= left ==>
                  && (st.Failed? <==> !ValidTask(PlaceWhole(t, day, whole)))
                  && (st.Placed? ==>
                        && st.tasks == PutTask(ts, PlaceWhole(t, day, whole)) && st.queue == queue[1..]
                        && st.minutes == whole && st.nextId == nextId))
            && (left < whole ==>
                  && (st.Failed? <==> !ValidTask(head) || (t.estimatedDuration - left >= MinSplit && !ValidTask(c)))
                  && (st.Placed? ==> st.minutes == left && st.changed)
                  && (st.Placed? && t.estimatedDuration - left >= MinSplit ==>
                        && st.tasks == PutTask(ts, head) + [c] && st.queue == [c] + queue[1..]
                        && st.nextId == nextId + 1)
                  && (st.Placed? && t.estimatedDuration - left < MinSplit ==>
                        && st.tasks == PutTask(ts, head) && st.queue == queue[1..] && st.nextId == nextId))
  {
  }

  /** Splitting conserves work: the head's stored duration and the
      continuation's add up to the task's duration before the split. When
      the remainder is under 15 minutes it is dropped: no task is added and
      the queue just loses its head. */
  lemma SplitConserves(ts: seq<Task>, nextId: nat, queue: seq<Task>, used: real, share: real, day: Day)
    requires 0.0 <= used && KeepsFilling(queue, used, share)
    requires share - used < MinReal(DurationOr60(queue[0]), share)
    ensures var st := NextStep(ts, nextId, queue, used, share, day);
            var t := queue[0];
            st.Placed? ==>
              && (forall i :: 0 <= i < |ts| && ts[i].id == t.id ==> st.tasks[i].estimatedDuration == st.minutes)
              && (t.estimatedDuration - st.minutes >= MinSplit ==>
                    && |st.tasks| == |ts| + 1 && st.tasks[|ts|] == st.queue[0] && st.tasks[|ts|].id == nextId
                    && st.minutes + st.tasks[|ts|].estimatedDuration == t.estimatedDuration)
              && (t.estimatedDuration - st.minutes < MinSplit ==> |st.tasks| == |ts| && st.queue == queue[1..])
  {
    NextStepEffect(ts, nextId, queue, used, share, day);
  }

  /** The state after a skill's turn on one day. */
  datatype Fill = Fill(tasks: seq<Task>, nextId: nat, queue: seq<Task>, used: real,
                       placed: seq<Placement>, touched: nat, failed: bool)

  /** The inner loop for one skill on `day`, starting from `used` minutes:
      it runs until the head can no longer be placed, or a save fails
      validation, which aborts the run (`failed`). */
  function FillSkillDay(ts: seq<Task>, nextId: nat, queue: seq<Task>, used: real,
                        share: real, day: Day): (r: Fill)
    requires 0.0 <= used
    ensures r.used == used + SumNew(r.placed)
    ensures used <= share ==> r.used <= share
    ensures forall i :: 0 <= i < |r.placed| ==>
      r.placed[i].day == day && 0.0 < r.placed[i].newDuration <= share
    ensures ValidQueue(queue) ==> ValidQueue(r.queue)
    ensures ValidQueue(queue) ==> forall i :: 0 <= i < |r.placed| ==>
      r.placed[i].newDuration <= r.placed[i].oldDuration
    ensures KeepsFilling(queue, used, share) ==> r.failed || |r.placed| >= 1
    ensures !r.failed ==> !KeepsFilling(r.queue, r.used, share)
    ensures r.nextId >= nextId
    ensures r.touched <= |r.placed|
    decreases if used < share then |queue| + 1 else 0
  {
    match NextStep(ts, nextId, queue, used, share, day)
    case Stop => Fill(ts, nextId, queue, used, [], 0, false)
    case Failed(ts', id') => Fill(ts', id', queue, used, [], 0, true)
    case Placed(ts', id', q', minutes, p, changed) =>
      var rest := FillSkillDay(ts', id', q', used + minutes, share, day);
      rest.(placed := [p] + rest.placed, touched := rest.touched + (if changed then 1 else 0))
  }

  /** Every placement of a skill's turn is on `day`, positive and at most
      the share. */
  predicate OnDayWithin(ps: seq<Placement>, share: real, day: Day) {
    forall i :: 0 <= i < |ps| ==> ps[i].day == day && 0.0 < ps[i].newDuration <= share
  }

  /** No placement lengthens its task. */
  predicate Shrinking(ps: seq<Placement>) {
    forall i :: 0 <= i < |ps| ==> ps[i].newDuration <= ps[i].oldDuration
  }

  /** No placement of the day lengthens its task, in any lane. */
  predicate DayShrinks(placed: seq<seq<Placement>>) {
    forall j :: 0 <= j < |placed| ==> Shrinking(placed[j])
  }

  predicate ValidLanes(lanes: seq<Lane>) {
    forall j :: 0 <= j < |lanes| ==> ValidQueue(lanes[j].queue)
  }

  predicate SameSkills(a: seq<Lane>, b: seq<Lane>) {
    |a| == |b| && forall j :: 0 <= j < |a| ==> a[j].skill == b[j].skill
  }

  /** The state after every skill has had its turn on one day. */
  datatype DayFill = DayFill(tasks: seq<Task>, nextId: nat, lanes: seq<Lane>,
                             placed: seq<seq<Placement>>, touched: nat, failed: bool)

  /** The `for (const skillId of skillIds)` loop for one day: each lane in
      turn fills its own share, starting from zero minutes used. */
  function FillLanes(ts: seq<Task>, nextId: nat, lanes: seq<Lane>, share: real, day: Day): (r: DayFill)
    ensures SameSkills(r.lanes, lanes) && |r.placed| == |lanes|
    ensures r.nextId >= nextId
    decreases |lanes|
  {
    if |lanes| == 0 then DayFill(ts, nextId, [], [], 0, false)
    else
      var f := FillSkillDay(ts, nextId, lanes[0].queue, 0.0, share, day);
      var lane := Lane(lanes[0].skill, f.queue);
      if f.failed then
        var none: seq<seq<Placement>> := seq(|lanes| - 1, _ => []);
        assert forall j :: 1 <= j < |lanes| ==> ([f.placed] + none)[j] == [];
        DayFill(f.tasks, f.nextId, [lane] + lanes[1..], [f.placed] + none, f.touched, true)
      else
        var rest := FillLanes(f.tasks, f.nextId, lanes[1..], share, day);
        assert forall j :: 1 <= j < |lanes| ==> lanes[1..][j - 1] == lanes[j];
        DayFill(rest.tasks, rest.nextId, [lane] + rest.lanes, [f.placed] + rest.placed,
                f.touched + rest.touched, rest.failed)
  }

  /** On one day every lane stays within its share, and every placement is
      dated that day. */
  lemma {:induction false} FillLanesWithinShares(ts: seq<Task>, nextId: nat, lanes: seq<Lane>,
                                                 share: real, day: Day)
    requires 0.0 <= share
    ensures DayWithinShares(FillLanes(ts, nextId, lanes, share, day).placed, share, day)
    decreases |lanes|
  {
    if |lanes| > 0 {
      var f := FillSkillDay(ts, nextId, lanes[0].queue, 0.0, share, day);
      if !f.failed {
        FillLanesWithinShares(f.tasks, f.nextId, lanes[1..], share, day);
      }
    }
  }

  /** Valid queues stay valid. */
  lemma {:induction false} FillLanesValid(ts: seq<Task>, nextId: nat, lanes: seq<Lane>,
                                          share: real, day: Day)
    requires ValidLanes(lanes)
    ensures ValidLanes(FillLanes(ts, nextId, lanes, share, day).lanes)
    decreases |lanes|
  {
    if |lanes| > 0 {
      var f := FillSkillDay(ts, nextId, lanes[0].queue, 0.0, share, day);
      if !f.failed {
        assert ValidLanes(lanes[1..]) by {
          assert forall j :: 1 <= j < |lanes| ==> lanes[1..][j - 1] == lanes[j];
        }
        FillLanesValid(f.tasks, f.nextId, lanes[1..], share, day);
      }
    }
  }

  /** From valid queues, no placement lengthens its task. */
  lemma {:induction false} FillLanesShrinks(ts: seq<Task>, nextId: nat, lanes: seq<Lane>,
                                            share: real, day: Day)
    requires ValidLanes(lanes)
    ensures DayShrinks(FillLanes(ts, nextId, lanes, share, day).placed)
    decreases |lanes|
  {
    if |lanes| > 0 {
      var f := FillSkillDay(ts, nextId, lanes[0].queue, 0.0, share, day);
      if !f.failed {
        assert ValidLanes(lanes[1..]) by {
          assert forall j :: 1 <= j < |lanes| ==> lanes[1..][j - 1] == lanes[j];
        }
        FillLanesShrinks(f.tasks, f.nextId, lanes[1..], share, day);
      }
    }
  }

  /** With a positive share, a day on which nothing fails places at least
      one task from every lane that had work: the head of a queue always
      fits (or splits) at the start of a day. */
  lemma {:induction false} FillLanesProgress(ts: seq<Task>, nextId: nat, lanes: seq<Lane>,
                                             share: real, day: Day)
    requires 0.0 < share
    ensures var r := FillLanes(ts, nextId, lanes, share, day);
      !r.failed ==> forall j :: 0 <= j < |lanes| && |lanes[j].queue| > 0 ==> |r.placed[j]| > 0
    decreases |lanes|
  {
    if |lanes| > 0 {
      var f := FillSkillDay(ts, nextId, lanes[0].queue, 0.0, share, day);
      if !f.failed {
        var rest := FillLanes(f.tasks, f.nextId, lanes[1..], share, day);
        var r := FillLanes(ts, nextId, lanes, share, day);
        assert r.placed == [f.placed] + rest.placed && r.failed == rest.failed;
        FillLanesProgress(f.tasks, f.nextId, lanes[1..], share, day);
        if |lanes[0].queue| > 0 {
          assert KeepsFilling(lanes[0].queue, 0.0, share);
        }
        forall j | 0 <= j < |lanes| && |lanes[j].queue| > 0 && !r.failed
          ensures |r.placed[j]| > 0
        {
          if j > 0 {
            assert lanes[1..][j - 1] == lanes[j];
          }
        }
      }
    }
  }

  predicate AllEmpty(lanes: seq<Lane>) {
    forall j :: 0 <= j < |lanes| ==> |lanes[j].queue| == 0
  }

  /** The number of tasks still queued across all lanes. */
  function Queued(lanes: seq<Lane>): nat {
    if |lanes| == 0 then 0 else |lanes[0].queue| + Queued(lanes[1..])
  }

  /** `skillIds.every(id => taskPointers[id] >= tasksBySkill[id].length)`
      holds exactly when nothing is pending. */
  lemma {:induction false} QueuedZero(lanes: seq<Lane>)
    ensures Queued(lanes) == 0 <==> AllEmpty(lanes)
  {
    if |lanes| > 0 {
      QueuedZero(lanes[1..]);
      assert forall j :: 1 <= j < |lanes| ==> lanes[1..][j - 1] == lanes[j];
    }
  }

  /** The state when the day loop stops; `log[k][j]` holds what lane `j`
      placed on the `k`-th day swept, and `days` is the final day counter. */
  datatype Sweep = Sweep(tasks: seq<Task>, nextId: nat, lanes: seq<Lane>,
                         log: seq<seq<seq<Placement>>>, touched: nat, failed: bool, days: nat)

  /** A day's log respects every lane's share. */
  predicate DayWithinShares(placed: seq<seq<Placement>>, share: real, day: Day) {
    forall j :: 0 <= j < |placed| ==> SumNew(placed[j]) <= share && OnDayWithin(placed[j], share, day)
  }

  /** One day's pass over all lanes, as a function of the store, the next
      id, the queues and the day; `Reschedule` passes `FillLanes` with the
      share fixed. */
  type DayPass = (seq<Task>, nat, seq<Lane>, Day) -> DayFill

  /** The `while (dayCount < maxDays)` loop: the day swept is
      `today + dayCount`; the loop stops when every queue is empty, after
      365 days, or when a save fails. */
  function DayLoop(pass: DayPass, ts: seq<Task>, nextId: nat, lanes: seq<Lane>, today: Day,
                   dayCount: nat): (r: Sweep)
    requires dayCount <= MaxDays
    ensures dayCount <= r.days <= MaxDays
    ensures r.failed || Queued(r.lanes) == 0 || r.days == MaxDays
    ensures |r.log| <= MaxDays - dayCount
    decreases MaxDays - dayCount
  {
    if dayCount == MaxDays then Sweep(ts, nextId, lanes, [], 0, false, dayCount)
    else
      var d := pass(ts, nextId, lanes, today + dayCount);
      if d.failed || Queued(d.lanes) == 0 then
        Sweep(d.tasks, d.nextId, d.lanes, [d.placed], d.touched, d.failed, dayCount)
      else
        var rest := DayLoop(pass, d.tasks, d.nextId, d.lanes, today, dayCount + 1);
        Sweep(rest.tasks, rest.nextId, rest.lanes, [d.placed] + rest.log,
              d.touched + rest.touched, rest.failed, rest.days)
  }

  /** Day `k` of the log is `firstDay + k`, and on every day each lane stays
      within its share. */
  predicate LogWithinShares(log: seq<seq<seq<Placement>>>, share: real, firstDay: Day) {
    forall k :: 0 <= k < |log| ==> DayWithinShares(log[k], share, firstDay + k)
  }

  /** No placement in the log lengthens its task. */
  predicate LogShrinks(log: seq<seq<seq<Placement>>>) {
    forall k, j :: 0 <= k < |log| && 0 <= j < |log[k]| ==> Shrinking(log[k][j])
  }

  lemma LogCons(day0: seq<seq<Placement>>, log: seq<seq<seq<Placement>>>, share: real, firstDay: Day)
    requires DayWithinShares(day0, share, firstDay) && LogWithinShares(log, share, firstDay + 1)
    ensures LogWithinShares([day0] + log, share, firstDay)
  {
    forall k | 1 <= k < |log| + 1 ensures DayWithinShares(([day0] + log)[k], share, firstDay + k) {
      assert ([day0] + log)[k] == log[k - 1];
      assert firstDay + k == firstDay + 1 + (k - 1);
    }
  }

  lemma ShrinksCons(day0: seq<seq<Placement>>, log: seq<seq<seq<Placement>>>)
    requires DayShrinks(day0) && LogShrinks(log)
    ensures LogShrinks([day0] + log)
  {
    forall k, j | 0 <= k < |log| + 1 && 0 <= j < |([day0] + log)[k]| ensures Shrinking(([day0] + log)[k][j]) {
      if k > 0 { assert ([day0] + log)[k] == log[k - 1]; }
    }
  }

  /** A pass that keeps every lane within `share` on its day. */
  ghost predicate PassWithinShares(pass: DayPass, share: real) {
    forall ts, nextId, lanes, day :: DayWithinShares(pass(ts, nextId, lanes, day).placed, share, day)
  }

  /** A pass that keeps valid queues valid and never lengthens a task. */
  ghost predicate PassShrinks(pass: DayPass) {
    forall ts, nextId, lanes, day :: ValidLanes(lanes) ==>
      ValidLanes(pass(ts, nextId, lanes, day).lanes) && DayShrinks(pass(ts, nextId, lanes, day).placed)
  }

  /** The budget holds on every day swept. */
  lemma {:induction false} DayLoopWithinShares(pass: DayPass, share: real, ts: seq<Task>, nextId: nat,
                                               lanes: seq<Lane>, today: Day, dayCount: nat)
    requires dayCount <= MaxDays && PassWithinShares(pass, share)
    ensures LogWithinShares(DayLoop(pass, ts, nextId, lanes, today, dayCount).log, share, today + dayCount)
    decreases MaxDays - dayCount
  {
    if dayCount < MaxDays {
      var d := pass(ts, nextId, lanes, today + dayCount);
      if d.failed || Queued(d.lanes) == 0 {
        LogCons(d.placed, [], share, today + dayCount);
      } else {
        DayLoopWithinShares(pass, share, d.tasks, d.nextId, d.lanes, today, dayCount + 1);
        LogCons(d.placed, DayLoop(pass, d.tasks, d.nextId, d.lanes, today, dayCount + 1).log,
                share, today + dayCount);
      }
    }
  }

  /** From valid queues, the queues stay valid and no placement on any day
      lengthens its task. */
  lemma {:induction false} DayLoopShrinks(pass: DayPass, ts: seq<Task>, nextId: nat,
                                          lanes: seq<Lane>, today: Day, dayCount: nat)
    requires dayCount <= MaxDays && PassShrinks(pass) && ValidLanes(lanes)
    ensures var r := DayLoop(pass, ts, nextId, lanes, today, dayCount);
      ValidLanes(r.lanes) && LogShrinks(r.log)
    decreases MaxDays - dayCount
  {
    if dayCount < MaxDays {
      var d := pass(ts, nextId, lanes, today + dayCount);
      if d.failed || Queued(d.lanes) == 0 {
        ShrinksCons(d.placed, []);
      } else {
        DayLoopShrinks(pass, d.tasks, d.nextId, d.lanes, today, dayCount + 1);
        ShrinksCons(d.placed, DayLoop(pass, d.tasks, d.nextId, d.lanes, today, dayCount + 1).log);
      }
    }
  }

  /** The day pass of the reflow: every lane fills `share` minutes. */
  function Pass(share: real): DayPass {
    (ts: seq<Task>, nextId: nat, lanes: seq<Lane>, day: Day) => FillLanes(ts, nextId, lanes, share, day)
  }

  /** `FillLanes` with a fixed share keeps every lane within that share. */
  lemma FillLanesPassWithin(share: real)
    requires 0.0 <= share
    ensures PassWithinShares(Pass(share), share)
  {
    var pass := Pass(share);
    forall ts, nextId, lanes, day ensures DayWithinShares(pass(ts, nextId, lanes, day).placed, share, day) {
      FillLanesWithinShares(ts, nextId, lanes, share, day);
    }
  }

  /** `FillLanes` with a fixed share keeps queues valid and never
      lengthens a task. */
  lemma FillLanesPassShrinks(share: real)
    ensures PassShrinks(Pass(share))
  {
    var pass := Pass(share);
    forall ts, nextId, lanes, day | ValidLanes(lanes)
      ensures ValidLanes(pass(ts, nextId, lanes, day).lanes) && DayShrinks(pass(ts, nextId, lanes, day).placed)
    {
      FillLanesValid(ts, nextId, lanes, share, day);
      FillLanesShrinks(ts, nextId, lanes, share, day);
    }
  }

  /** The reflow's sweep keeps every lane within its share on every day. */
  lemma SweepWithinBudget(ts: seq<Task>, nextId: nat, lanes: seq<Lane>, share: real, today: Day)
    requires 0.0 <= share
    ensures LogWithinShares(DayLoop(Pass(share), ts, nextId, lanes, today, 0).log, share, today)
  {
    var pass := Pass(share);
    assert PassWithinShares(pass, share) by {
      FillLanesPassWithin(share);
    }
    DayLoopWithinShares(pass, share, ts, nextId, lanes, today, 0);
    assert today + 0 == today;
  }

  /** The reflow's sweep keeps valid queues valid and never lengthens a
      task. */
  lemma SweepShrinks(ts: seq<Task>, nextId: nat, lanes: seq<Lane>, share: real, today: Day)
    requires ValidLanes(lanes)
    ensures LogShrinks(DayLoop(Pass(share), ts, nextId, lanes, today, 0).log)
  {
    FillLanesPassShrinks(share);
    DayLoopShrinks(Pass(share), ts, nextId, lanes, today, 0);
  }

  // ---------------------------------------------------------------------
  // Skill end dates

  predicate OfSkillAndUser(t: Task, sid: SkillId, uid: UserId) {
    t.skill == Some(sid) && t.user == uid
  }

  /** `findOne({skill, user}).sort({scheduledDate: -1})`: the latest date
      of any of the skill's tasks, whatever their status or type. */
  function LatestDate(ts: seq<Task>, sid: SkillId, uid: UserId): (r: Option<Day>)
    ensures r.None? <==> forall i :: 0 <= i < |ts| ==> !OfSkillAndUser(ts[i], sid, uid)
    ensures r.Some? ==> exists i :: 0 <= i < |ts| && OfSkillAndUser(ts[i], sid, uid) && ts[i].scheduledDate == r.value
    ensures r.Some? ==> forall i :: 0 <= i < |ts| && OfSkillAndUser(ts[i], sid, uid) ==> ts[i].scheduledDate <= r.value
  {
    if |ts| == 0 then None
    else
      var rest := LatestDate(ts[1..], sid, uid);
      assert forall i :: 1 <= i < |ts| ==> ts[1..][i - 1] == ts[i];
      if !OfSkillAndUser(ts[0], sid, uid) then rest
      else if rest.Some? && rest.value > ts[0].scheduledDate then rest
      else Some(ts[0].scheduledDate)
  }

  /** Sets each active skill's end date to its latest task date, saving the
      skill as loaded before the sweep; the pre-save hook leaves the end date
      alone because neither the target days nor the start date changed. A
      save that fails validation stops the loop (`false`). */
  function SetEndDates(ss: seq<Skill>, ts: seq<Task>, uid: UserId, active: seq<Skill>): (r: (seq<Skill>, bool))
    ensures |r.0| == |ss|
    ensures forall i :: 0 <= i < |ss| ==> r.0[i].id == ss[i].id
    ensures forall i :: 0 <= i < |ss| && (forall a :: a in active ==> a.id != ss[i].id) ==> r.0[i] == ss[i]
    decreases |active|
  {
    if |active| == 0 then (ss, true)
    else
      var a := active[0];
      match LatestDate(ts, a.id, uid)
      case None => SetEndDates(ss, ts, uid, active[1..])
      case Some(d) =>
        var a' := PreSave(a.(endDate := Some(d)), false, false);
        if !ValidSkill(a') then (ss, false)
        else SetEndDates(PutSkill(ss, a'), ts, uid, active[1..])
  }

  /** After the end-date loop completed, each active skill with tasks is
      the copy loaded before the sweep with its end date set to the latest
      task date. */
  predicate EndDatesSet(after: seq<Skill>, before: seq<Skill>, ts: seq<Task>, uid: UserId,
                        active: seq<Skill>) {
    forall i, j ::
      (0 <= i < |before| && 0 <= j < |active| && before[i].id == active[j].id
       && LatestDate(ts, active[j].id, uid).Some?) ==>
      i < |after| && after[i] == active[j].(endDate := LatestDate(ts, active[j].id, uid))
  }

  lemma {:induction false} SetEndDatesEffect(ss: seq<Skill>, ts: seq<Task>, uid: UserId, active: seq<Skill>)
    requires UniqueSkillIds(active)
    ensures SetEndDates(ss, ts, uid, active).1 ==> EndDatesSet(SetEndDates(ss, ts, uid, active).0, ss, ts, uid, active)
    decreases |active|
  {
    if |active| > 0 {
      var a := active[0];
      var tail := active[1..];
      assert UniqueSkillIds(tail) by {
        forall i, j | 0 <= i < j < |tail| ensures tail[i].id != tail[j].id {
          assert tail[i] == active[i + 1] && tail[j] == active[j + 1];
        }
      }
      assert forall j :: 1 <= j < |active| ==> tail[j - 1] == active[j];
      var r := SetEndDates(ss, ts, uid, active);
      match LatestDate(ts, a.id, uid)
      case None =>
        SetEndDatesEffect(ss, ts, uid, tail);
      case Some(d) =>
        var a' := PreSave(a.(endDate := Some(d)), false, false);
        if ValidSkill(a') {
          var ss' := PutSkill(ss, a');
          SetEndDatesEffect(ss', ts, uid, tail);
          forall i | 0 <= i < |ss| && ss[i].id == a.id ensures r.0[i] == a' {
            assert ss'[i] == a';
            forall b | b in tail ensures b.id != ss'[i].id {
              var k :| 0 <= k < |tail| && tail[k] == b;
              assert active[k + 1] == b;
            }
          }
        }
    }
  }

  // ---------------------------------------------------------------------
  // The whole reflow

  predicate ActiveFor(s: Skill, uid: UserId) {
    s.user == uid && s.status == InProgressSkill
  }

  /** `Skill.find({user, status: 'in_progress'})`, in store order. */
  function ActiveSkills(ss: seq<Skill>, uid: UserId): (r: seq<Skill>)
    ensures forall a :: a in r <==> a in ss && ActiveFor(a, uid)
  {
    FilterSkills(ss, (s: Skill) => ActiveFor(s, uid))
  }

  /** The queues the sweep starts from. */
  function Plan(ts: seq<Task>, uid: UserId, active: seq<Skill>): seq<Lane> {
    Partition(SortByKey(Collect(ts, uid, active), ReflowKey))
  }

  /** The outcome: the store afterwards, whether the run completed (a failed
      save rejects the promise after earlier writes), the number of tasks
      rescheduled, the hours per skill, the active skills, and the log of
      placements. */
  datatype ReflowResult = ReflowResult(db: Db, ok: bool, rescheduledCount: nat, hoursPerSkill: real,
                                       skills: seq<SkillId>, log: seq<seq<seq<Placement>>>)

  function SkillIds(ss: seq<Skill>): (r: seq<SkillId>)
    ensures |r| == |ss| && forall i :: 0 <= i < |ss| ==> r[i] == ss[i].id
  {
    seq(|ss|, i requires 0 <= i < |ss| => ss[i].id)
  }

  /** `minutesPerSkill`: the day's minutes split equally, possibly a
      fraction of a minute. */
  function Share(hours: real, skills: nat): (m: real)
    requires skills > 0
    ensures 0.0 <= hours ==> 0.0 <= m
    ensures 0.0 < hours ==> 0.0 < m
    ensures m * (skills as real) == hours * 60.0
  {
    hours * 60.0 / (skills as real)
  }

  /** The share is below `bound` exactly when the day's minutes are below
      `bound` times the number of skills. */
  lemma ShareBelow(hours: real, skills: nat, bound: real)
    requires skills > 0
    ensures Share(hours, skills) < bound <==> hours * 60.0 < bound * (skills as real)
  {
    var m := Share(hours, skills);
    var n := skills as real;
    assert m * n - bound * n == (m - bound) * n;
  }

  /** `rescheduleOnTimeChange(userId, newDailyHours)`, with today's date as
      a parameter. */
  function Reschedule(db: Db, uid: UserId, newDailyHours: real, today: Day): (r: ReflowResult)
    ensures r.db.users == db.users
  {
    var active := ActiveSkills(db.skills, uid);
    if |active| == 0 || |Collect(db.tasks, uid, active)| == 0 then ReflowResult(db, true, 0, 0.0, [], [])
    else Run(db, uid, active, Share(newDailyHours, |active|), today)
  }

  /** The sweep over the planned queues with `share` minutes per skill and
      day, then the end-date loop, which runs only when the sweep completed. */
  function Run(db: Db, uid: UserId, active: seq<Skill>, share: real, today: Day): (r: ReflowResult)
    ensures r.db.users == db.users
    ensures r.skills == SkillIds(active) && r.hoursPerSkill == share / 60.0
  {
    var sw := DayLoop(Pass(share), db.tasks, db.nextId, Plan(db.tasks, uid, active), today, 0);
    if sw.failed then
      ReflowResult(db.(tasks := sw.tasks, nextId := sw.nextId), false, sw.touched, share / 60.0,
                   SkillIds(active), sw.log)
    else
      var (ss, ok) := SetEndDates(db.skills, sw.tasks, uid, active);
      ReflowResult(db.(tasks := sw.tasks, skills := ss, nextId := sw.nextId), ok, sw.touched,
                   share / 60.0, SkillIds(active), sw.log)
  }

  /** The path a reflow with work to do takes. */
  lemma RescheduleShape(db: Db, uid: UserId, newDailyHours: real, today: Day)
    requires |ActiveSkills(db.skills, uid)| > 0
    requires |Collect(db.tasks, uid, ActiveSkills(db.skills, uid))| > 0
    ensures var active := ActiveSkills(db.skills, uid);
            Reschedule(db, uid, newDailyHours, today) == Run(db, uid, active, Share(newDailyHours, |active|), today)
  {
  }

  /** The early returns: nothing active, or nothing outstanding. */
  lemma RescheduleIdle(db: Db, uid: UserId, newDailyHours: real, today: Day)
    requires |ActiveSkills(db.skills, uid)| == 0 || |Collect(db.tasks, uid, ActiveSkills(db.skills, uid))| == 0
    ensures Reschedule(db, uid, newDailyHours, today) == ReflowResult(db, true, 0, 0.0, [], [])
  {
  }

  /** What a run writes: the store after the sweep, and after the end-date
      loop when the sweep completed. */
  lemma RunShape(db: Db, uid: UserId, active: seq<Skill>, share: real, today: Day)
    ensures var r := Run(db, uid, active, share, today);
            var sw := DayLoop(Pass(share), db.tasks, db.nextId, Plan(db.tasks, uid, active), today, 0);
            var e := SetEndDates(db.skills, sw.tasks, uid, active);
            && r.log == sw.log && r.db.tasks == sw.tasks && r.rescheduledCount == sw.touched
            && r.ok == (!sw.failed && e.1) && (!sw.failed ==> r.db.skills == e.0)
  {
  }

  /** With no skill in progress, or no outstanding learning task of an
      in-progress skill, the reflow succeeds without writing anything. */
  lemma RescheduleNoWork(db: Db, uid: UserId, newDailyHours: real, today: Day)
    requires forall t, a :: t in db.tasks && a in db.skills && ActiveFor(a, uid) ==> !InReflowQuery(t, uid, a.id)
    ensures var r := Reschedule(db, uid, newDailyHours, today);
            r.db == db && r.ok && r.rescheduledCount == 0 && r.log == [] && r.skills == []
  {
    var active := ActiveSkills(db.skills, uid);
    forall t | t in db.tasks ensures !InSomeQuery(t, uid, active) {
      if InSomeQuery(t, uid, active) {
        assert false;
      }
    }
    NothingCollected(db.tasks, uid, active);
    RescheduleIdle(db, uid, newDailyHours, today);
  }

  lemma NothingCollected(ts: seq<Task>, uid: UserId, active: seq<Skill>)
    requires forall t :: t in ts ==> !InSomeQuery(t, uid, active)
    ensures Collect(ts, uid, active) == []
  {
    NoMemberEmpty(Collect(ts, uid, active));
  }

  lemma NoMemberEmpty(s: seq<Task>)
    ensures (forall t :: t !in s) ==> s == []
  {
    if s != [] {
      assert s[0] in s;
    }
  }

  /** Conversely, a reflow that finds any outstanding learning task of an
      in-progress skill runs the sweep and reports the active skills. */
  lemma RescheduleHasWork(db: Db, uid: UserId, newDailyHours: real, today: Day, t: Task, a: Skill)
    requires t in db.tasks && a in db.skills && ActiveFor(a, uid) && InReflowQuery(t, uid, a.id)
    ensures Reschedule(db, uid, newDailyHours, today).skills == SkillIds(ActiveSkills(db.skills, uid))
    ensures |Reschedule(db, uid, newDailyHours, today).skills| > 0
  {
    var active := ActiveSkills(db.skills, uid);
    assert a in active;
    var j :| 0 <= j < |active| && active[j] == a;
    assert InSomeQuery(t, uid, active);
    assert t in Collect(db.tasks, uid, active);
    RescheduleShape(db, uid, newDailyHours, today);
  }

  /** A run keeps every lane within `share` on every day swept. */
  lemma RunWithinBudget(db: Db, uid: UserId, active: seq<Skill>, share: real, today: Day)
    requires 0.0 <= share
    ensures LogWithinShares(Run(db, uid, active, share, today).log, share, today)
  {
    SweepWithinBudget(db.tasks, db.nextId, Plan(db.tasks, uid, active), share, today);
    RunShape(db, uid, active, share, today);
  }

  /** Per skill per simulated day, the minutes placed never exceed the
      share `hoursPerSkill * 60`, every placement lies on its day, and no
      placement is longer than the share. */
  lemma RescheduleWithinBudget(db: Db, uid: UserId, newDailyHours: real, today: Day)
    requires 0.0 <= newDailyHours
    ensures var r := Reschedule(db, uid, newDailyHours, today);
            LogWithinShares(r.log, r.hoursPerSkill * 60.0, today)
  {
    var active := ActiveSkills(db.skills, uid);
    if |active| > 0 && |Collect(db.tasks, uid, active)| > 0 {
      var share := Share(newDailyHours, |active|);
      RescheduleShape(db, uid, newDailyHours, today);
      RunWithinBudget(db, uid, active, share, today);
      assert share / 60.0 * 60.0 == share;
    } else {
      RescheduleIdle(db, uid, newDailyHours, today);
    }
  }

  /** The queues hold stored tasks, so from a store of valid tasks they
      are valid. */
  lemma PlanValid(ts: seq<Task>, uid: UserId, active: seq<Skill>)
    requires AllValid(ts)
    ensures ValidLanes(Plan(ts, uid, active))
  {
    var lanes := Plan(ts, uid, active);
    PlanLaneMembers(ts, uid, active);
    forall j | 0 <= j < |lanes| ensures ValidQueue(lanes[j].queue) {
      forall i | 0 <= i < |lanes[j].queue| ensures ValidTask(lanes[j].queue[i]) {
        assert lanes[j].queue[i] in lanes[j].queue;
      }
    }
  }

  /** From a store of valid tasks, no placement of the reflow lengthens
      its task. */
  lemma RescheduleShrinks(db: Db, uid: UserId, newDailyHours: real, today: Day)
    requires AllValid(db.tasks)
    ensures LogShrinks(Reschedule(db, uid, newDailyHours, today).log)
  {
    var active := ActiveSkills(db.skills, uid);
    if |active| > 0 && |Collect(db.tasks, uid, active)| > 0 {
      var share := Share(newDailyHours, |active|);
      RescheduleShape(db, uid, newDailyHours, today);
      RunShape(db, uid, active, share, today);
      PlanValid(db.tasks, uid, active);
      SweepShrinks(db.tasks, db.nextId, Plan(db.tasks, uid, active), share, today);
    } else {
      RescheduleIdle(db, uid, newDailyHours, today);
    }
  }

  /** A completed run has set every active skill's end date. */
  lemma RunEndDates(db: Db, uid: UserId, active: seq<Skill>, share: real, today: Day)
    requires UniqueSkillIds(active)
    ensures var r := Run(db, uid, active, share, today);
            r.ok ==> EndDatesSet(r.db.skills, db.skills, r.db.tasks, uid, active)
  {
    var sw := DayLoop(Pass(share), db.tasks, db.nextId, Plan(db.tasks, uid, active), today, 0);
    RunShape(db, uid, active, share, today);
    SetEndDatesEffect(db.skills, sw.tasks, uid, active);
  }

  /** When the sweep and the end-date loop complete, every in-progress
      skill with any task ends on the latest date among all its tasks, of
      any status, after the sweep. */
  lemma RescheduleEndDates(db: Db, uid: UserId, newDailyHours: real, today: Day)
    requires UniqueSkillIds(db.skills)
    ensures var r := Reschedule(db, uid, newDailyHours, today);
            r.ok && r.skills != [] ==>
              forall i ::
                (0 <= i < |db.skills| && ActiveFor(db.skills[i], uid)
                 && LatestDate(r.db.tasks, db.skills[i].id, uid).Some?) ==>
                r.db.skills[i] == db.skills[i].(endDate := LatestDate(r.db.tasks, db.skills[i].id, uid))
  {
    var r := Reschedule(db, uid, newDailyHours, today);
    var active := ActiveSkills(db.skills, uid);
    if |active| > 0 && |Collect(db.tasks, uid, active)| > 0 {
      RescheduleShape(db, uid, newDailyHours, today);
      FilterSkillsUnique(db.skills, (s: Skill) => ActiveFor(s, uid));
      RunEndDates(db, uid, active, Share(newDailyHours, |active|), today);
      forall i | 0 <= i < |db.skills| && ActiveFor(db.skills[i], uid)
        && LatestDate(r.db.tasks, db.skills[i].id, uid).Some? && r.ok
        ensures r.db.skills[i] == db.skills[i].(endDate := LatestDate(r.db.tasks, db.skills[i].id, uid))
      {
        assert db.skills[i] in active;
        var j :| 0 <= j < |active| && active[j] == db.skills[i];
      }
    } else {
      RescheduleIdle(db, uid, newDailyHours, today);
    }
  }

  /** The work list is the collected tasks reordered stably: sorted by
      importance then day number, with tasks of equal key in the order
      they were collected; the queues group it by skill. */
  lemma PlanOrder(ts: seq<Task>, uid: UserId, active: seq<Skill>)
    ensures var all := Collect(ts, uid, active);
            var sorted := SortByKey(all, ReflowKey);
            && multiset(sorted) == multiset(all) && SortedBy(sorted, ReflowKey)
            && (forall k :: WithKey(sorted, ReflowKey, k) == WithKey(all, ReflowKey, k))
            && Grouped(sorted, Plan(ts, uid, active))
  {
    var all := Collect(ts, uid, active);
    SortSorted(all, ReflowKey);
    forall k ensures WithKey(SortByKey(all, ReflowKey), ReflowKey, k) == WithKey(all, ReflowKey, k) {
      SortStable(all, ReflowKey, k);
    }
    PartitionGroups(SortByKey(all, ReflowKey));
  }

  /** The sorted work list holds exactly the collected tasks. */
  lemma SortedMembers(ts: seq<Task>, uid: UserId, active: seq<Skill>)
    ensures forall t :: t in SortByKey(Collect(ts, uid, active), ReflowKey) <==> t in ts && InSomeQuery(t, uid, active)
  {
    var all := Collect(ts, uid, active);
    assert forall t :: t in SortByKey(all, ReflowKey) <==> t in multiset(all);
  }

  /** Each queue holds exactly the collected tasks of its skill. */
  lemma PlanLaneMembers(ts: seq<Task>, uid: UserId, active: seq<Skill>)
    ensures var lanes := Plan(ts, uid, active);
            forall j :: 0 <= j < |lanes| ==>
              forall t :: t in lanes[j].queue <==> t in ts && InSomeQuery(t, uid, active) && t.skill == lanes[j].skill
  {
    var sorted := SortByKey(Collect(ts, uid, active), ReflowKey);
    var lanes := Plan(ts, uid, active);
    assert QueuesMatch(sorted, lanes) by { PartitionGroups(sorted); }
    SortedMembers(ts, uid, active);
    forall j | 0 <= j < |lanes|
      ensures forall t :: t in lanes[j].queue <==> t in ts && InSomeQuery(t, uid, active) && t.skill == lanes[j].skill
    {
      assert lanes[j].queue == OfSkill(sorted, lanes[j].skill);
      OfSkillMembers(sorted, lanes[j].skill);
    }
  }

  /** Each queue is in work-list order. */
  lemma PlanLaneSorted(ts: seq<Task>, uid: UserId, active: seq<Skill>)
    ensures var lanes := Plan(ts, uid, active);
            forall j :: 0 <= j < |lanes| ==> SortedBy(lanes[j].queue, ReflowKey)
  {
    var sorted := SortByKey(Collect(ts, uid, active), ReflowKey);
    var lanes := Plan(ts, uid, active);
    assert QueuesMatch(sorted, lanes) by { PartitionGroups(sorted); }
    SortSorted(Collect(ts, uid, active), ReflowKey);
    forall j | 0 <= j < |lanes| ensures SortedBy(lanes[j].queue, ReflowKey) {
      assert lanes[j].queue == OfSkill(sorted, lanes[j].skill);
      OfSkillSorted(sorted, lanes[j].skill);
    }
  }

  /** Every collected task is queued. */
  lemma PlanCovers(ts: seq<Task>, uid: UserId, active: seq<Skill>, t: Task)
    requires t in ts && InSomeQuery(t, uid, active)
    ensures exists j :: 0 <= j < |Plan(ts, uid, active)| && t in Plan(ts, uid, active)[j].queue
  {
    var sorted := SortByKey(Collect(ts, uid, active), ReflowKey);
    var lanes := Plan(ts, uid, active);
    PartitionGroups(sorted);
    SortedMembers(ts, uid, active);
    var i :| 0 <= i < |sorted| && sorted[i] == t;
    var j := LaneOf(lanes, t.skill).value;
    PlanLaneMembers(ts, uid, active);
  }

  // ---------------------------------------------------------------------
  // A share below the schema minimum

  /** With a share under 15 minutes, the head of a valid queue fits whole
      but its capped duration fails the duration validator. */
  lemma NextStepTinyShare(ts: seq<Task>, nextId: nat, queue: seq<Task>, share: real, day: Day)
    requires |queue| > 0 && ValidTask(queue[0])
    requires 0.0 < share < MinDuration
    ensures NextStep(ts, nextId, queue, 0.0, share, day) == Failed(ts, nextId)
  {
    assert MinReal(DurationOr60(queue[0]), share) == share;
    assert !ValidTask(PlaceWhole(queue[0], day, share));
  }

  lemma FillLanesTinyShare(ts: seq<Task>, nextId: nat, lanes: seq<Lane>, share: real, day: Day)
    requires |lanes| > 0 && |lanes[0].queue| > 0 && ValidTask(lanes[0].queue[0])
    requires 0.0 < share < MinDuration
    ensures var d := FillLanes(ts, nextId, lanes, share, day);
            d.failed && d.tasks == ts && d.touched == 0
  {
    NextStepTinyShare(ts, nextId, lanes[0].queue, share, day);
    assert FillSkillDay(ts, nextId, lanes[0].queue, 0.0, share, day)
        == Fill(ts, nextId, lanes[0].queue, 0.0, [], 0, true);
  }

  lemma DayLoopTinyShare(ts: seq<Task>, nextId: nat, lanes: seq<Lane>, share: real, today: Day)
    requires |lanes| > 0 && |lanes[0].queue| > 0 && ValidTask(lanes[0].queue[0])
    requires 0.0 < share < MinDuration
    ensures var sw := DayLoop(Pass(share), ts, nextId, lanes, today, 0);
            sw.failed && sw.tasks == ts && sw.touched == 0
  {
    FillLanesTinyShare(ts, nextId, lanes, share, today + 0);
  }

  /** Only the first queue can hold the skill that appears first. */
  lemma FirstLaneFirst(s: seq<Task>, lanes: seq<Lane>)
    requires FirstAppearanceOrder(s, lanes)
    ensures forall k :: 0 < k < |lanes| ==> FirstIndex(s, lanes[k].skill) > 0
  {
    forall k | 0 < k < |lanes| ensures FirstIndex(s, lanes[k].skill) > 0 {
      assert FirstIndex(s, lanes[0].skill) < FirstIndex(s, lanes[k].skill);
    }
  }

  /** The first queue holds the first task of the work list. */
  lemma PlanFirstLane(ts: seq<Task>, uid: UserId, active: seq<Skill>)
    requires |Collect(ts, uid, active)| > 0
    ensures |Plan(ts, uid, active)| > 0 && |Plan(ts, uid, active)[0].queue| > 0
  {
    var sorted := SortByKey(Collect(ts, uid, active), ReflowKey);
    var lanes := Plan(ts, uid, active);
    var k := sorted[0].skill;
    assert LaneOf(lanes, k).Some? && FirstAppearanceOrder(sorted, lanes)
        && QueuesMatch(sorted, lanes) by {
      PartitionGroups(sorted);
    }
    var j := LaneOf(lanes, k).value;
    FirstLaneFirst(sorted, lanes);
    assert sorted[0] in lanes[0].queue by {
      OfSkillMembers(sorted, k);
    }
  }

  /** When the day's minutes split across the in-progress skills give each
      less than 15 minutes, a reflow with work to do fails at its first
      save: the first task is capped below the duration minimum. Nothing
      has been written by then. */
  lemma RescheduleTinyShareFails(db: Db, uid: UserId, newDailyHours: real, today: Day, t: Task, a: Skill)
    requires AllValid(db.tasks)
    requires t in db.tasks && a in db.skills && ActiveFor(a, uid) && InReflowQuery(t, uid, a.id)
    requires 0.0 < newDailyHours
    requires a in ActiveSkills(db.skills, uid) && Share(newDailyHours, |ActiveSkills(db.skills, uid)|) < MinDuration
    ensures var r := Reschedule(db, uid, newDailyHours, today);
            !r.ok && r.db.tasks == db.tasks && r.db.skills == db.skills && r.rescheduledCount == 0
  {
    var active := ActiveSkills(db.skills, uid);
    assert |Collect(db.tasks, uid, active)| > 0 by {
      assert a in active;
      var j :| 0 <= j < |active| && active[j] == a;
      assert InSomeQuery(t, uid, active);
      assert t in Collect(db.tasks, uid, active);
    }
    RescheduleShape(db, uid, newDailyHours, today);
    RunTinyShare(db, uid, active, Share(newDailyHours, |active|), today);
  }

  lemma RunTinyShare(db: Db, uid: UserId, active: seq<Skill>, share: real, today: Day)
    requires AllValid(db.tasks) && |Collect(db.tasks, uid, active)| > 0
    requires 0.0 < share < MinDuration
    ensures var r := Run(db, uid, active, share, today);
            !r.ok && r.db.tasks == db.tasks && r.db.skills == db.skills && r.rescheduledCount == 0
  {
    var lanes := Plan(db.tasks, uid, active);
    assert |lanes| > 0 && |lanes[0].queue| > 0 && ValidTask(lanes[0].queue[0]) by {
      PlanFirstLane(db.tasks, uid, active);
      PlanValid(db.tasks, uid, active);
    }
    DayLoopTinyShare(db.tasks, db.nextId, lanes, share, today);
    RunShape(db, uid, active, share, today);
  }

  // ---------------------------------------------------------------------
  // What a reflow writes to the task store

  /** A task the sweep may rewrite: one the reflow's queries selected (its
      id is in `movable`), or one created during the sweep (id from `n0`). */
  predicate Movable(id: TaskId, movable: set<TaskId>, n0: nat) {
    id in movable || id >= n0
  }

  /** A task as the sweep saves it: the user's learning task, dated `lo` or
      later, and valid, since every save runs the validators. */
  predicate Rewritten(t: Task, uid: UserId, lo: Day) {
    t.user == uid && t.kind == Learning && t.scheduledDate >= lo && ValidTask(t)
  }

  /** `after` is `before` after some of the sweep's saves: every document
      keeps its place and id, and one that changed is movable and was saved
      by the sweep; the documents appended were saved by the sweep under the
      consecutive ids `m` up to `n`. */
  predicate Reflowed(before: seq<Task>, after: seq<Task>, uid: UserId, movable: set<TaskId>,
                     n0: nat, m: nat, n: nat, lo: Day) {
    && m <= n && |after| == |before| + (n - m)
    && (forall i :: 0 <= i < |before| ==> after[i].id == before[i].id)
    && (forall i :: 0 <= i < |before| ==>
          after[i] == before[i] || (Movable(before[i].id, movable, n0) && Rewritten(after[i], uid, lo)))
    && (forall i :: |before| <= i < |after| ==> after[i].id == m + (i - |before|) && Rewritten(after[i], uid, lo))
  }

  /** Every queued task is the user's movable learning task. */
  predicate Movers(q: seq<Task>, uid: UserId, movable: set<TaskId>, n0: nat) {
    forall t :: t in q ==> Movable(t.id, movable, n0) && t.user == uid && t.kind == Learning
  }

  /** Every lane's queue holds only the user's movable learning tasks. */
  predicate LanesMove(lanes: seq<Lane>, uid: UserId, movable: set<TaskId>, n0: nat) {
    forall j :: 0 <= j < |lanes| ==> Movers(lanes[j].queue, uid, movable, n0)
  }

  /** A day's pass, from queues of movers and a counter at `n0` or above,
      saves only movable tasks of the user dated `lo` or later, never moves
      the counter back, and leaves queues of movers. */
  ghost predicate PassReflows(pass: DayPass, uid: UserId, movable: set<TaskId>, n0: nat, lo: Day) {
    forall ts, nextId, lanes, day :: n0 <= nextId && lo <= day && LanesMove(lanes, uid, movable, n0) ==>
      && nextId <= pass(ts, nextId, lanes, day).nextId
      && Reflowed(ts, pass(ts, nextId, lanes, day).tasks, uid, movable, n0, nextId,
                  pass(ts, nextId, lanes, day).nextId, lo)
      && LanesMove(pass(ts, nextId, lanes, day).lanes, uid, movable, n0)
  }

  /** The ids of the tasks the reflow's queries select. */
  function CollectedIds(ts: seq<Task>, uid: UserId, active: seq<Skill>): set<TaskId> {
    set t | t in ts && InSomeQuery(t, uid, active) :: t.id
  }

}

=== FILE: reflow_frame.dfy ===
/** What a reflow writes to the task store: the sweep saves only the tasks
    its queries selected and the continuations it creates, so everything
    else in the store is left exactly as it was. */
module ReflowFrame {
  import opened Wrappers
  import opened JsValues
  import opened TaskModel
  import opened SkillModel
  import opened Store
  import opened Capacity
  import opened Reflow

  /** Saving nothing. */
  lemma ReflowedRefl(ts: seq<Task>, uid: UserId, movable: set<TaskId>, n0: nat, n: nat, lo: Day)
    ensures Reflowed(ts, ts, uid, movable, n0, n, n, lo)
  {
  }

  /** Saving a movable task in place. */
  lemma ReflowedPut(ts: seq<Task>, t: Task, uid: UserId, movable: set<TaskId>, n0: nat, m: nat, lo: Day)
    requires Movable(t.id, movable, n0) && Rewritten(t, uid, lo)
    ensures Reflowed(ts, PutTask(ts, t), uid, movable, n0, m, m, lo)
  {
  }

  /** Saving a new task under the next id. */
  lemma ReflowedAppend(ts: seq<Task>, c: Task, uid: UserId, movable: set<TaskId>, n0: nat, lo: Day)
    requires Rewritten(c, uid, lo)
    ensures Reflowed(ts, ts + [c], uid, movable, n0, c.id, c.id + 1, lo)
  {
  }

  /** Two runs of saves, one after the other, make one. */
  lemma ReflowedTrans(a: seq<Task>, b: seq<Task>, c: seq<Task>, uid: UserId, movable: set<TaskId>,
                      n0: nat, m: nat, n1: nat, n2: nat, lo: Day)
    requires Reflowed(a, b, uid, movable, n0, m, n1, lo) && Reflowed(b, c, uid, movable, n0, n1, n2, lo)
    ensures Reflowed(a, c, uid, movable, n0, m, n2, lo)
  {
    forall i | 0 <= i < |a|
      ensures c[i].id == a[i].id
      ensures c[i] == a[i] || (Movable(a[i].id, movable, n0) && Rewritten(c[i], uid, lo))
    {
      assert c[i].id == b[i].id;
    }
    forall i | |a| <= i < |c| ensures c[i].id == m + (i - |a|) && Rewritten(c[i], uid, lo) {
      if i < |b| {
        assert c[i].id == b[i].id;
      }
    }
  }

  /** One pass saves only movable tasks of the user, and queues only such. */
  lemma NextStepFrame(ts: seq<Task>, nextId: nat, queue: seq<Task>, used: real, share: real, day: Day,
                      uid: UserId, movable: set<TaskId>, n0: nat, lo: Day)
    requires 0.0 <= used && Movers(queue, uid, movable, n0) && n0 <= nextId && lo <= day
    ensures var st := NextStep(ts, nextId, queue, used, share, day);
            && (!st.Stop? ==> Reflowed(ts, st.tasks, uid, movable, n0, nextId, st.nextId, lo))
            && (st.Placed? ==> Movers(st.queue, uid, movable, n0))
  {
    var st := NextStep(ts, nextId, queue, used, share, day);
    if !st.Stop? {
      NextStepEffect(ts, nextId, queue, used, share, day);
      var t := queue[0];
      var left := share - used;
      var whole := MinReal(DurationOr60(t), share);
      if st.Failed? {
        if left < whole && ValidTask(PlaceHead(t, day, left)) {
          ReflowedPut(ts, PlaceHead(t, day, left), uid, movable, n0, nextId, lo);
        }
      } else if whole <= left {
        ReflowedPut(ts, PlaceWhole(t, day, whole), uid, movable, n0, nextId, lo);
      } else {
        var head := PlaceHead(t, day, left);
        ReflowedPut(ts, head, uid, movable, n0, nextId, lo);
        if t.estimatedDuration - left >= MinSplit {
          var c := Continuation(t, nextId, day, t.estimatedDuration - left);
          ReflowedAppend(PutTask(ts, head), c, uid, movable, n0, lo);
          ReflowedTrans(ts, PutTask(ts, head), st.tasks, uid, movable, n0, nextId, nextId, nextId + 1, lo);
        }
      }
    }
  }

  /** One step of a skill's turn, as a value, so that the frame argument is
      made once for any step with the properties below. */
  type StepFn = (seq<Task>, nat, seq<Task>, real, real, Day) --> Step

  /** A step defined from zero minutes used on, which ends the turn unless
      the share has room, and which places a positive number of minutes and
      shortens the queue unless the share is then full. */
  ghost predicate Advances(step: StepFn) {
    forall ts, nextId, queue, used, share, day :: 0.0 <= used ==>
      && step.requires(ts, nextId, queue, used, share, day)
      && (!step(ts, nextId, queue, used, share, day).Stop? ==> used < share)
      && (step(ts, nextId, queue, used, share, day).Placed? ==>
            && 0.0 < step(ts, nextId, queue, used, share, day).minutes
            && (used + step(ts, nextId, queue, used, share, day).minutes < share ==>
                  |step(ts, nextId, queue, used, share, day).queue| < |queue|))
  }

  /** A step that saves only movable tasks of the user and queues only such. */
  ghost predicate StepReflows(step: StepFn, uid: UserId, movable: set<TaskId>, n0: nat, lo: Day) {
    forall ts, nextId, queue, used, share, day ::
      && step.requires(ts, nextId, queue, used, share, day)
      && Movers(queue, uid, movable, n0) && n0 <= nextId && lo <= day ==>
      && (!step(ts, nextId, queue, used, share, day).Stop? ==>
            Reflowed(ts, step(ts, nextId, queue, used, share, day).tasks, uid, movable, n0, nextId,
                     step(ts, nextId, queue, used, share, day).nextId, lo))
      && (step(ts, nextId, queue, used, share, day).Placed? ==>
            Movers(step(ts, nextId, queue, used, share, day).queue, uid, movable, n0))
  }

  /** The store, counter and queue a skill's turn leaves. */
  datatype Cursor = Cursor(tasks: seq<Task>, nextId: nat, queue: seq<Task>)

  /** A skill's turn from a store, counter, queue and minutes used. */
  type TurnFn = (seq<Task>, nat, seq<Task>, real, real, Day) -> Cursor

  /** The turn that follows from its first step `st` and, after a
      placement, the turn `c1` that goes on: a stop keeps the state, a
      failed save keeps the queue. */
  function Next(st: Step, c1: Cursor, ts: seq<Task>, nextId: nat, queue: seq<Task>): Cursor {
    if st.Stop? then Cursor(ts, nextId, queue)
    else if st.Failed? then Cursor(st.tasks, st.nextId, queue)
    else c1
  }

  /** After a placement, `turn` goes on to `c1` from the state it reached. */
  ghost predicate Resumes(turn: TurnFn, st: Step, c1: Cursor, used: real, share: real, day: Day) {
    st.Placed? ==> turn(st.tasks, st.nextId, st.queue, used + st.minutes, share, day) == c1
  }

  /** From one state, `turn` does what the first step of `step` says. */
  ghost predicate TurnStepAt(turn: TurnFn, step: StepFn, ts: seq<Task>, nextId: nat, queue: seq<Task>,
                             used: real, share: real, day: Day)
    requires Advances(step) && 0.0 <= used
  {
    var st := step(ts, nextId, queue, used, share, day);
    var c0 := turn(ts, nextId, queue, used, share, day);
    c0 == Next(st, if st.Placed? then turn(st.tasks, st.nextId, st.queue, used + st.minutes, share, day) else c0,
               ts, nextId, queue)
  }

  /** `turn` runs the steps of `step` until one ends the turn. */
  ghost predicate TurnsBy(turn: TurnFn, step: StepFn, share: real, day: Day) {
    && Advances(step)
    && (forall ts, nextId, queue, used :: 0.0 <= used ==>
          TurnStepAt(turn, step, ts, nextId, queue, used, share, day))
  }

  /** `FillSkillDay`, seen as a turn; the turn of a negative count of
      minutes used, which no caller reaches, leaves the state. */
  ghost function SkillCursor(ts: seq<Task>, nextId: nat, queue: seq<Task>, used: real, share: real, day: Day): Cursor {
    if 0.0 <= used then
      var r := FillSkillDay(ts, nextId, queue, used, share, day);
      Cursor(r.tasks, r.nextId, r.queue)
    else Cursor(ts, nextId, queue)
  }

  /** `NextStep` is a step in the sense of `Advances`. */
  lemma NextStepAdvances()
    ensures Advances(NextStep)
  {
  }

  /** `NextStep` saves only movable tasks of the user, and queues only such. */
  lemma NextStepReflows(uid: UserId, movable: set<TaskId>, n0: nat, lo: Day)
    ensures StepReflows(NextStep, uid, movable, n0, lo)
  {
    forall ts, nextId, queue, used, share, day |
      && NextStep.requires(ts, nextId, queue, used, share, day)
      && Movers(queue, uid, movable, n0) && n0 <= nextId && lo <= day
      ensures && (!NextStep(ts, nextId, queue, used, share, day).Stop? ==>
                    Reflowed(ts, NextStep(ts, nextId, queue, used, share, day).tasks, uid, movable, n0, nextId,
                             NextStep(ts, nextId, queue, used, share, day).nextId, lo))
              && (NextStep(ts, nextId, queue, used, share, day).Placed? ==>
                    Movers(NextStep(ts, nextId, queue, used, share, day).queue, uid, movable, n0))
    {
      NextStepFrame(ts, nextId, queue, used, share, day, uid, movable, n0, lo);
    }
  }

  /** A skill's turn runs the steps of `NextStep`. */
  lemma SkillTurnBy(share: real, day: Day)
    ensures TurnsBy(SkillCursor, NextStep, share, day)
  {
    NextStepAdvances();
    forall ts, nextId, queue, used | 0.0 <= used
      ensures TurnStepAt(SkillCursor, NextStep, ts, nextId, queue, used, share, day)
    {
      SkillTurnStep(ts, nextId, queue, used, share, day);
    }
  }

  /** One step of a skill's turn, through the handles. */
  lemma SkillTurnStep(ts: seq<Task>, nextId: nat, queue: seq<Task>, used: real, share: real, day: Day)
    requires 0.0 <= used
    ensures Advances(NextStep)
    ensures TurnStepAt(SkillCursor, NextStep, ts, nextId, queue, used, share, day)
  {
    NextStepAdvances();
    SkillCursorStep(ts, nextId, queue, used, share, day);
    var st := NextStep(ts, nextId, queue, used, share, day);
    var c0 := SkillCursor(ts, nextId, queue, used, share, day);
    var c1 := if st.Placed? then SkillCursor(st.tasks, st.nextId, st.queue, used + st.minutes, share, day) else c0;
    SkillHandles(ts, nextId, queue, used, share, day, st, c0, c1);
    TurnStepFrom(SkillCursor, NextStep, ts, nextId, queue, used, share, day, st, c0, c1);
  }

  /** The facts of `SkillCursorStep`, through the handles. */
  lemma SkillHandles(ts: seq<Task>, nextId: nat, queue: seq<Task>, used: real, share: real, day: Day,
                     st: Step, c0: Cursor, c1: Cursor)
    requires 0.0 <= used && NextStep(ts, nextId, queue, used, share, day) == st
    requires SkillCursor(ts, nextId, queue, used, share, day) == c0
    requires st.Placed? ==> SkillCursor(st.tasks, st.nextId, st.queue, used + st.minutes, share, day) == c1
    ensures var step: StepFn, turn: TurnFn := NextStep, SkillCursor;
            && step(ts, nextId, queue, used, share, day) == st && turn(ts, nextId, queue, used, share, day) == c0
            && Resumes(turn, st, c1, used, share, day)
  {
  }

  /** The first step and the turns before and after it determine the step
      equation. */
  lemma TurnStepFrom(turn: TurnFn, step: StepFn, ts: seq<Task>, nextId: nat, queue: seq<Task>,
                     used: real, share: real, day: Day, st: Step, c0: Cursor, c1: Cursor)
    requires Advances(step) && 0.0 <= used
    requires step(ts, nextId, queue, used, share, day) == st && turn(ts, nextId, queue, used, share, day) == c0
    requires Resumes(turn, st, c1, used, share, day) && c0 == Next(st, c1, ts, nextId, queue)
    ensures TurnStepAt(turn, step, ts, nextId, queue, used, share, day)
  {
  }

  /** One step of a skill's turn. */
  lemma SkillCursorStep(ts: seq<Task>, nextId: nat, queue: seq<Task>, used: real, share: real, day: Day)
    requires 0.0 <= used
    ensures var st := NextStep(ts, nextId, queue, used, share, day);
            && (st.Stop? ==> SkillCursor(ts, nextId, queue, used, share, day) == Cursor(ts, nextId, queue))
            && (st.Failed? ==> SkillCursor(ts, nextId, queue, used, share, day) == Cursor(st.tasks, st.nextId, queue))
            && (st.Placed? ==> SkillCursor(ts, nextId, queue, used, share, day) ==
                                 SkillCursor(st.tasks, st.nextId, st.queue, used + st.minutes, share, day))
  {
    FillSkillDayUnfold(ts, nextId, queue, used, share, day);
  }

  /** The store, counter and queue a skill's turn leaves, by its first step. */
  lemma FillSkillDayUnfold(ts: seq<Task>, nextId: nat, queue: seq<Task>, used: real, share: real, day: Day)
    requires 0.0 <= used
    ensures var st := NextStep(ts, nextId, queue, used, share, day);
            var r := FillSkillDay(ts, nextId, queue, used, share, day);
            && (st.Stop? ==> r.tasks == ts && r.nextId == nextId && r.queue == queue)
            && (st.Failed? ==> r.tasks == st.tasks && r.nextId == st.nextId && r.queue == queue)
            && (st.Placed? ==>
                  var rest := FillSkillDay(st.tasks, st.nextId, st.queue, used + st.minutes, share, day);
                  r.tasks == rest.tasks && r.nextId == rest.nextId && r.queue == rest.queue)
  {
  }

  /** A turn of a step that saves only movable tasks saves only such. */
  lemma {:induction false} TurnFrame(turn: TurnFn, step: StepFn, share: real, day: Day, ts: seq<Task>,
                                     nextId: nat, queue: seq<Task>, used: real, uid: UserId,
                                     movable: set<TaskId>, n0: nat, lo: Day)
    requires TurnsBy(turn, step, share, day) && StepReflows(step, uid, movable, n0, lo)
    requires 0.0 <= used && Movers(queue, uid, movable, n0) && n0 <= nextId && lo <= day
    ensures var r := turn(ts, nextId, queue, used, share, day);
            Reflowed(ts, r.tasks, uid, movable, n0, nextId, r.nextId, lo) && Movers(r.queue, uid, movable, n0)
    decreases if used < share then |queue| + 1 else 0
  {
    var st := step(ts, nextId, queue, used, share, day);
    assert TurnStepAt(turn, step, ts, nextId, queue, used, share, day);
    if st.Stop? {
      ReflowedRefl(ts, uid, movable, n0, nextId, lo);
    } else if st.Placed? {
      TurnFrame(turn, step, share, day, st.tasks, st.nextId, st.queue, used + st.minutes, uid, movable, n0, lo);
      var rest := turn(st.tasks, st.nextId, st.queue, used + st.minutes, share, day);
      ReflowedTrans(ts, st.tasks, rest.tasks, uid, movable, n0, nextId, st.nextId, rest.nextId, lo);
    }
  }

  /** A skill's turn saves only movable tasks of the user. */
  lemma FillSkillDayFrame(ts: seq<Task>, nextId: nat, queue: seq<Task>, used: real,
                          share: real, day: Day, uid: UserId, movable: set<TaskId>, n0: nat, lo: Day)
    requires 0.0 <= used && Movers(queue, uid, movable, n0) && n0 <= nextId && lo <= day
    ensures var r := FillSkillDay(ts, nextId, queue, used, share, day);
            Reflowed(ts, r.tasks, uid, movable, n0, nextId, r.nextId, lo) && Movers(r.queue, uid, movable, n0)
  {
    SkillTurnBy(share, day);
    NextStepReflows(uid, movable, n0, lo);
    TurnFrame(SkillCursor, NextStep, share, day, ts, nextId, queue, used, uid, movable, n0, lo);
  }

  /** A day's pass saves only movable tasks of the user. */
  lemma {:induction false} FillLanesFrame(ts: seq<Task>, nextId: nat, lanes: seq<Lane>, share: real, day: Day,
                                          uid: UserId, movable: set<TaskId>, n0: nat, lo: Day)
    requires LanesMove(lanes, uid, movable, n0) && n0 <= nextId && lo <= day
    ensures var r := FillLanes(ts, nextId, lanes, share, day);
            Reflowed(ts, r.tasks, uid, movable, n0, nextId, r.nextId, lo) && LanesMove(r.lanes, uid, movable, n0)
    decreases |lanes|
  {
    var r := FillLanes(ts, nextId, lanes, share, day);
    if |lanes| == 0 {
      ReflowedRefl(ts, uid, movable, n0, nextId, lo);
    } else {
      assert Movers(lanes[0].queue, uid, movable, n0);
      FillSkillDayFrame(ts, nextId, lanes[0].queue, 0.0, share, day, uid, movable, n0, lo);
      var f := FillSkillDay(ts, nextId, lanes[0].queue, 0.0, share, day);
      assert forall j :: 1 <= j < |lanes| ==> lanes[1..][j - 1] == lanes[j];
      if f.failed {
        assert r.lanes == [Lane(lanes[0].skill, f.queue)] + lanes[1..];
        assert forall j :: 1 <= j < |lanes| ==> r.lanes[j] == lanes[j];
      } else {
        FillLanesFrame(f.tasks, f.nextId, lanes[1..], share, day, uid, movable, n0, lo);
        var rest := FillLanes(f.tasks, f.nextId, lanes[1..], share, day);
        ReflowedTrans(ts, f.tasks, rest.tasks, uid, movable, n0, nextId, f.nextId, rest.nextId, lo);
        assert r.lanes == [Lane(lanes[0].skill, f.queue)] + rest.lanes;
        assert forall j :: 1 <= j < |r.lanes| ==> r.lanes[j] == rest.lanes[j - 1];
      }
    }
  }

  /** A pass that saves only movable tasks of the user, from `lo` on. */
  lemma FillLanesPassReflows(share: real, uid: UserId, movable: set<TaskId>, n0: nat, lo: Day)
    ensures PassReflows(Pass(share), uid, movable, n0, lo)
  {
    var pass := Pass(share);
    forall ts, nextId, lanes, day | n0 <= nextId && lo <= day && LanesMove(lanes, uid, movable, n0)
      ensures && nextId <= pass(ts, nextId, lanes, day).nextId
              && Reflowed(ts, pass(ts, nextId, lanes, day).tasks, uid, movable, n0, nextId,
                          pass(ts, nextId, lanes, day).nextId, lo)
              && LanesMove(pass(ts, nextId, lanes, day).lanes, uid, movable, n0)
    {
      FillLanesFrame(ts, nextId, lanes, share, day, uid, movable, n0, lo);
    }
  }

  /** Every day of the sweep saves only movable tasks of the user. */
  lemma {:induction false} DayLoopFrame(pass: DayPass, ts: seq<Task>, nextId: nat, lanes: seq<Lane>,
                                        today: Day, dayCount: nat, uid: UserId, movable: set<TaskId>,
                                        n0: nat, lo: Day)
    requires dayCount <= MaxDays && PassReflows(pass, uid, movable, n0, lo)
    requires n0 <= nextId && lo <= today && LanesMove(lanes, uid, movable, n0)
    ensures var r := DayLoop(pass, ts, nextId, lanes, today, dayCount);
            nextId <= r.nextId && Reflowed(ts, r.tasks, uid, movable, n0, nextId, r.nextId, lo)
    decreases MaxDays - dayCount
  {
    if dayCount == MaxDays {
      ReflowedRefl(ts, uid, movable, n0, nextId, lo);
    } else {
      var d := pass(ts, nextId, lanes, today + dayCount);
      if !(d.failed || Queued(d.lanes) == 0) {
        DayLoopFrame(pass, d.tasks, d.nextId, d.lanes, today, dayCount + 1, uid, movable, n0, lo);
        var rest := DayLoop(pass, d.tasks, d.nextId, d.lanes, today, dayCount + 1);
        ReflowedTrans(ts, d.tasks, rest.tasks, uid, movable, n0, nextId, d.nextId, rest.nextId, lo);
      }
    }
  }

  /** The planned queues hold only collected tasks, all the user's learning
      tasks. */
  lemma PlanMovers(ts: seq<Task>, uid: UserId, active: seq<Skill>, n0: nat)
    ensures LanesMove(Plan(ts, uid, active), uid, CollectedIds(ts, uid, active), n0)
  {
    var lanes := Plan(ts, uid, active);
    var movable := CollectedIds(ts, uid, active);
    PlanLaneMembers(ts, uid, active);
    forall j, t | 0 <= j < |lanes| && t in lanes[j].queue
      ensures Movable(t.id, movable, n0) && t.user == uid && t.kind == Learning
    {
      var k :| 0 <= k < |active| && InReflowQuery(t, uid, active[k].id);
      assert t.id in movable;
    }
  }

  /** A run saves only tasks its queries selected and continuations it
      created. */
  lemma RunFrame(db: Db, uid: UserId, active: seq<Skill>, share: real, today: Day)
    ensures var r := Run(db, uid, active, share, today);
            Reflowed(db.tasks, r.db.tasks, uid, CollectedIds(db.tasks, uid, active), db.nextId, db.nextId,
                     r.db.nextId, today)
  {
    var movable := CollectedIds(db.tasks, uid, active);
    var lanes := Plan(db.tasks, uid, active);
    PlanMovers(db.tasks, uid, active, db.nextId);
    FillLanesPassReflows(share, uid, movable, db.nextId, today);
    DayLoopFrame(Pass(share), db.tasks, db.nextId, lanes, today, 0, uid, movable, db.nextId, today);
    RunShape(db, uid, active, share, today);
  }

  /** What a reflow writes to the task store, whether or not it completes:
      every task no active skill's query selected (completed tasks,
      workouts, other users' tasks) is left exactly as it was; a selected
      task that changed is still the user's valid learning task, now dated
      today or later; and the only tasks added are the user's valid learning
      tasks, the continuations, under consecutive fresh ids from the store's
      counter. The store stays well formed. */
  lemma RescheduleStoreFrame(db: Db, uid: UserId, newDailyHours: real, today: Day)
    requires WellFormed(db)
    ensures var r := Reflow.Reschedule(db, uid, newDailyHours, today);
            var active := ActiveSkills(db.skills, uid);
            && |db.tasks| <= |r.db.tasks| && db.nextId <= r.db.nextId
            && (forall i :: 0 <= i < |db.tasks| ==> r.db.tasks[i].id == db.tasks[i].id)
            && (forall i :: 0 <= i < |db.tasks| && !InSomeQuery(db.tasks[i], uid, active) ==>
                  r.db.tasks[i] == db.tasks[i])
            && (forall i :: 0 <= i < |db.tasks| && r.db.tasks[i] != db.tasks[i] ==>
                  Rewritten(r.db.tasks[i], uid, today))
            && |r.db.tasks| == |db.tasks| + (r.db.nextId - db.nextId)
            && (forall i :: |db.tasks| <= i < |r.db.tasks| ==>
                  r.db.tasks[i].id == db.nextId + (i - |db.tasks|) && Rewritten(r.db.tasks[i], uid, today))
            && WellFormed(r.db)
  {
    var r := Reflow.Reschedule(db, uid, newDailyHours, today);
    var active := ActiveSkills(db.skills, uid);
    if |active| > 0 && |Collect(db.tasks, uid, active)| > 0 {
      var movable := CollectedIds(db.tasks, uid, active);
      RescheduleShape(db, uid, newDailyHours, today);
      RunFrame(db, uid, active, Share(newDailyHours, |active|), today);
      RunNextId(db, uid, active, Share(newDailyHours, |active|), today);
      ReflowedKeepsOthers(db, r.db.tasks, uid, active, r.db.nextId, today);
    }
  }

  /** A run hands out ids from the store's counter on. */
  lemma RunNextId(db: Db, uid: UserId, active: seq<Skill>, share: real, today: Day)
    ensures db.nextId <= Run(db, uid, active, share, today).db.nextId
  {
    var movable := CollectedIds(db.tasks, uid, active);
    PlanMovers(db.tasks, uid, active, db.nextId);
    FillLanesPassReflows(share, uid, movable, db.nextId, today);
    DayLoopFrame(Pass(share), db.tasks, db.nextId, Plan(db.tasks, uid, active), today, 0,
                 uid, movable, db.nextId, today);
    RunShape(db, uid, active, share, today);
  }

  /** In a well-formed store, a task whose id is movable but below the
      counter is one the queries selected; so a rewrite that keeps all
      unselected tasks keeps the store well formed. */
  lemma ReflowedKeepsOthers(db: Db, after: seq<Task>, uid: UserId, active: seq<Skill>, n: nat, lo: Day)
    requires WellFormed(db) && db.nextId <= n
    requires Reflowed(db.tasks, after, uid, CollectedIds(db.tasks, uid, active), db.nextId, db.nextId, n, lo)
    ensures forall i :: 0 <= i < |db.tasks| && !InSomeQuery(db.tasks[i], uid, active) ==> after[i] == db.tasks[i]
    ensures WellFormed(db.(tasks := after, nextId := n))
  {
    var movable := CollectedIds(db.tasks, uid, active);
    forall i | 0 <= i < |db.tasks| && !InSomeQuery(db.tasks[i], uid, active)
      ensures after[i] == db.tasks[i]
    {
      assert db.tasks[i].id !in movable;
    }
    forall i, j | 0 <= i < j < |after| ensures after[i].id != after[j].id {
      if j < |db.tasks| {
        assert after[i].id == db.tasks[i].id && after[j].id == db.tasks[j].id;
      } else if i < |db.tasks| {
        assert after[i].id == db.tasks[i].id < db.nextId;
      }
    }
    forall i | 0 <= i < |after| ensures after[i].id < n && ValidTask(after[i]) {
      if i < |db.tasks| {
        assert after[i].id == db.tasks[i].id;
        assert ValidTask(db.tasks[i]);
      }
    }
  }
}

=== FILE: replanner.dfy ===
/** Missed-task detection, the two chaining replanners and workout-task
    generation (backend/services/aiReplanner.js). */
module Replanner {
  import opened Wrappers
  import opened JsValues
  import opened TaskModel
  import opened SkillModel
  import opened UserModel
  import opened Store
  import opened Sorting
  import opened Capacity

  // ---------------------------------------------------------------------
  // detectMissedTasks

  /** A task the sweep turns into a missed one: the user's, still pending,
      and dated before today's midnight. */
  predicate DueForMissed(t: Task, uid: UserId, today: Day) {
    t.user == uid && t.scheduledDate < today && t.status == Pending
  }

  function MarkIfDue(t: Task, uid: UserId, today: Day): Task {
    if DueForMissed(t, uid, today) then MarkMissed(t) else t
  }

  /** The tasks the sweep selects, in store order. */
  function DueTasks(ts: seq<Task>, uid: UserId, today: Day): (r: seq<Task>)
    ensures forall t :: t in r <==> t in ts && DueForMissed(t, uid, today)
  {
    if |ts| == 0 then []
    else (if DueForMissed(ts[0], uid, today) then [ts[0]] else []) + DueTasks(ts[1..], uid, today)
  }

  /** The store after the sweep and the list of tasks it updated. */
  datatype Detection = Detection(tasks: seq<Task>, marked: seq<Task>)

  /** `detectMissedTasks`: every selected task becomes missed, recording its
      scheduled date as the original date only if none was recorded; every
      other task is left as it was. The updated tasks are returned. */
  function DetectMissed(ts: seq<Task>, uid: UserId, today: Day): (r: Detection)
    ensures |r.tasks| == |ts|
    ensures forall i :: 0 <= i < |ts| && !DueForMissed(ts[i], uid, today) ==> r.tasks[i] == ts[i]
    ensures forall i :: 0 <= i < |ts| && DueForMissed(ts[i], uid, today) ==>
      && r.tasks[i].status == Missed
      && r.tasks[i].originalDate == KeepOriginal(ts[i], ts[i].scheduledDate)
      && r.tasks[i].(status := Pending, originalDate := ts[i].originalDate) == ts[i]
    ensures |r.marked| == |DueTasks(ts, uid, today)|
    ensures forall k :: 0 <= k < |r.marked| ==>
      r.marked[k] == MarkMissed(DueTasks(ts, uid, today)[k]) && r.marked[k].status == Missed
  {
    var due := DueTasks(ts, uid, today);
    Detection(seq(|ts|, i requires 0 <= i < |ts| => MarkIfDue(ts[i], uid, today)),
              seq(|due|, k requires 0 <= k < |due| => MarkMissed(due[k])))
  }

  lemma {:induction false} NoneDue(ts: seq<Task>, uid: UserId, today: Day)
    requires forall i :: 0 <= i < |ts| ==> !DueForMissed(ts[i], uid, today)
    ensures DueTasks(ts, uid, today) == []
  {
    if |ts| > 0 {
      NoneDue(ts[1..], uid, today);
    }
  }

  /** Idempotence: a second sweep right after the first changes nothing and
      reports no task. */
  lemma DetectMissedIdempotent(ts: seq<Task>, uid: UserId, today: Day)
    ensures DetectMissed(DetectMissed(ts, uid, today).tasks, uid, today).tasks
         == DetectMissed(ts, uid, today).tasks
    ensures DetectMissed(DetectMissed(ts, uid, today).tasks, uid, today).marked == []
  {
    var once := DetectMissed(ts, uid, today).tasks;
    forall i | 0 <= i < |once|
      ensures !DueForMissed(once[i], uid, today)
    {
    }
    NoneDue(once, uid, today);
  }

  /** The sweep keeps every task's id in place. */
  lemma DetectMissedKeepsIds(ts: seq<Task>, uid: UserId, today: Day)
    ensures forall i :: 0 <= i < |ts| ==> DetectMissed(ts, uid, today).tasks[i].id == ts[i].id
    ensures UniqueIds(ts) ==> UniqueIds(DetectMissed(ts, uid, today).tasks)
  {
    var det := DetectMissed(ts, uid, today).tasks;
    forall i | 0 <= i < |ts|
      ensures det[i].id == ts[i].id
    {
    }
  }

  /** The sweep keeps ids and validity, so the store stays well formed. */
  lemma DetectMissedWellFormed(db: Db, uid: UserId, today: Day)
    requires WellFormed(db)
    ensures WellFormed(db.(tasks := DetectMissed(db.tasks, uid, today).tasks))
  {
    var r := DetectMissed(db.tasks, uid, today).tasks;
    forall i | 0 <= i < |r|
      ensures r[i].id == db.tasks[i].id && ValidTask(r[i])
    {
      LifecyclePreservesValidity(db.tasks[i], 0, 0);
    }
  }

  // ---------------------------------------------------------------------
  // The placement chain shared by replanMissedTasks and replanSkillTasks

  /** One entry of a replan summary. */
  datatype Moved = Moved(id: TaskId, title: string, originalDate: Option<Day>, newDate: Day)

  predicate StrictlyIncreasing(ms: seq<Moved>) {
    forall j, k :: 0 <= j < k < |ms| ==> ms[j].newDate < ms[k].newDate
  }

  /** How the next date is chosen for a task: from the store as it stands,
      the task, and the cursor. */
  type SlotFinder = (seq<Task>, Task, Day) -> Day

  /** `findNextAvailableSlot(userId, task.estimatedDuration || 60, cursor)`,
      re-reading the store so that earlier placements count. */
  function Slots(uid: UserId, dailyHours: real): SlotFinder {
    (ts: seq<Task>, t: Task, cursor: Day) => FindNextAvailableSlot(ts, uid, dailyHours, DurationOr60(t), cursor)
  }

  /** A finder that always answers within the 30 days after the cursor. */
  ghost predicate SlotsAhead(next: SlotFinder) {
    forall ts, t, cursor :: cursor < next(ts, t, cursor) <= cursor + SearchHorizon
  }

  lemma SlotsAheadHolds(uid: UserId, dailyHours: real)
    ensures SlotsAhead(Slots(uid, dailyHours))
  {
    forall ts, t, cursor ensures cursor < Slots(uid, dailyHours)(ts, t, cursor) <= cursor + SearchHorizon {
      var _ := FindNextAvailableSlot(ts, uid, dailyHours, DurationOr60(t), cursor);
    }
  }

  /** Tasks are placed one at a time: each goes to the date `next` picks
      after the cursor, is rescheduled there, saved, and becomes the new
      cursor. */
  function Chain(next: SlotFinder, ts: seq<Task>, queue: seq<Task>, cursor: Day)
    : (r: (seq<Task>, seq<Moved>))
    ensures |r.0| == |ts| && |r.1| == |queue|
    ensures forall k :: 0 <= k < |queue| ==>
      && r.1[k].id == queue[k].id && r.1[k].title == queue[k].title
      && r.1[k].originalDate == KeepOriginal(queue[k], queue[k].scheduledDate)
    decreases |queue|
  {
    if |queue| == 0 then (ts, [])
    else
      var t := queue[0];
      var slot := next(ts, t, cursor);
      var moved := Reschedule(t, slot);
      var rest := Chain(next, PutTask(ts, moved), queue[1..], slot);
      assert forall k :: 1 <= k < |queue| ==> queue[1..][k - 1] == queue[k];
      (rest.0, [Moved(t.id, t.title, moved.originalDate, slot)] + rest.1)
  }

  /** The dates the chain picks: each strictly after the previous one (the
      first strictly after `cursor`), and the `k`-th at most 30 days per
      step beyond `cursor`. */
  lemma {:induction false} ChainDates(next: SlotFinder, ts: seq<Task>, queue: seq<Task>, cursor: Day)
    requires SlotsAhead(next)
    ensures var ms := Chain(next, ts, queue, cursor).1;
      && StrictlyIncreasing(ms)
      && forall k :: 0 <= k < |ms| ==> cursor < ms[k].newDate <= cursor + SearchHorizon * (k + 1)
    decreases |queue|
  {
    if |queue| > 0 {
      var t := queue[0];
      var slot := next(ts, t, cursor);
      var moved := Reschedule(t, slot);
      ChainDates(next, PutTask(ts, moved), queue[1..], slot);
      var rest := Chain(next, PutTask(ts, moved), queue[1..], slot).1;
      var ms := Chain(next, ts, queue, cursor).1;
      assert ms == [Moved(t.id, t.title, moved.originalDate, slot)] + rest;
      forall k | 1 <= k < |ms| ensures cursor < ms[k].newDate <= cursor + SearchHorizon * (k + 1) {
        assert ms[k] == rest[k - 1];
      }
      forall j, k | 0 <= j < k < |ms| ensures ms[j].newDate < ms[k].newDate {
        assert ms[k] == rest[k - 1];
        if j > 0 { assert ms[j] == rest[j - 1]; }
      }
    }
  }

  /** `after` and `moved` record writing `queue` into `before`: each queued
      task's stored copy becomes that task rescheduled to its new date, and
      every task not in the queue is left as it was. */
  predicate WritesQueue(before: seq<Task>, queue: seq<Task>, after: seq<Task>, moved: seq<Moved>) {
    && |after| == |before| && |moved| == |queue|
    && (forall k :: 0 <= k < |queue| ==> moved[k].id == queue[k].id)
    && (forall i :: 0 <= i < |before| && IdAbsent(before[i].id, queue) ==> after[i] == before[i])
    && (forall i, k :: 0 <= i < |before| && 0 <= k < |queue| && before[i].id == queue[k].id ==>
          after[i] == Reschedule(queue[k], moved[k].newDate))
  }

  /** What the chain writes: each queued task's stored copy becomes that
      task rescheduled to its new date; every task not in the queue is left
      as it was. */
  lemma {:induction false} ChainStoreEffect(next: SlotFinder, ts: seq<Task>, queue: seq<Task>, cursor: Day)
    requires UniqueIds(queue)
    ensures WritesQueue(ts, queue, Chain(next, ts, queue, cursor).0, Chain(next, ts, queue, cursor).1)
    decreases |queue|
  {
    if |queue| > 0 {
      var t := queue[0];
      var slot := next(ts, t, cursor);
      var moved := Reschedule(t, slot);
      var ts' := PutTask(ts, moved);
      var tail := queue[1..];
      ChainStoreEffect(next, ts', tail, slot);
      var r := Chain(next, ts, queue, cursor);
      var rest := Chain(next, ts', tail, slot);
      assert r.0 == rest.0 && r.1 == [Moved(t.id, t.title, moved.originalDate, slot)] + rest.1;
      forall i | 0 <= i < |ts| && IdAbsent(ts[i].id, queue)
        ensures r.0[i] == ts[i]
      {
        assert ts'[i] == ts[i];
        assert IdAbsent(ts'[i].id, tail) by {
          forall j | 0 <= j < |tail| ensures tail[j].id != ts[i].id { assert tail[j] == queue[j + 1]; }
        }
      }
      forall i, k | 0 <= i < |ts| && 0 <= k < |queue| && ts[i].id == queue[k].id
        ensures r.0[i] == Reschedule(queue[k], r.1[k].newDate)
      {
        if k == 0 {
          assert ts'[i] == moved;
          assert IdAbsent(ts'[i].id, tail) by {
            forall j | 0 <= j < |tail| ensures tail[j].id != t.id { assert tail[j] == queue[j + 1]; }
          }
        } else {
          assert ts'[i] == ts[i];
          assert tail[k - 1] == queue[k];
          assert r.1[k] == rest.1[k - 1];
        }
      }
    }
  }

  // ---------------------------------------------------------------------
  // replanMissedTasks

  /** The store's `{user, status: 'missed'[, skill]}` query. */
  predicate InMissedQuery(t: Task, uid: UserId, skillFilter: Option<SkillId>) {
    t.user == uid && t.status == Missed && (skillFilter.None? || t.skill == skillFilter)
  }

  function DateKey(t: Task): Key {
    Key(t.scheduledDate, 0, 0)
  }

  /** The missed tasks to replan, ascending by scheduled date. */
  function MissedQueue(ts: seq<Task>, uid: UserId, skillFilter: Option<SkillId>): (q: seq<Task>)
    ensures forall t :: t in q <==> t in ts && InMissedQuery(t, uid, skillFilter)
    ensures SortedBy(q, DateKey)
    ensures UniqueIds(ts) ==> UniqueIds(q)
  {
    var p := (t: Task) => InMissedQuery(t, uid, skillFilter);
    SelectSorted(ts, p, DateKey);
    SortByKey(Filter(ts, p), DateKey)
  }

  /** The user's daily learning hours, read from the user record. */
  function Hours(db: Db, uid: UserId): real
    requires uid in db.users
  {
    db.users[uid].profile.dailyLearningHours
  }

  /** `success` is false when the run throws: the slot search dereferences
      the user record, so a missing one aborts the run after the sweep. */
  datatype MissedReplan = MissedReplan(success: bool, tasks: seq<Task>, rescheduledCount: nat, moved: seq<Moved>)

  /** `replanMissedTasks`: run the missed sweep, then chain every missed task
      (of one skill, when a filter is given) in ascending date order, starting
      after today, with the user's daily hours as each day's capacity. */
  function ReplanMissed(db: Db, uid: UserId, skillFilter: Option<SkillId>, today: Day): (r: MissedReplan)
    ensures var det := DetectMissed(db.tasks, uid, today).tasks;
            var q := MissedQueue(det, uid, skillFilter);
            && (r.success <==> |q| == 0 || uid in db.users)
            && r.rescheduledCount == |r.moved|
            && (r.success ==> |r.moved| == |q|)
            && (!r.success || |q| == 0 ==> r.tasks == det && r.moved == [])
            && StrictlyIncreasing(r.moved)
            && (forall k :: 0 <= k < |r.moved| ==> r.moved[k].id == q[k].id && r.moved[k].newDate > today)
            && |r.tasks| == |db.tasks|
  {
    var det := DetectMissed(db.tasks, uid, today).tasks;
    var q := MissedQueue(det, uid, skillFilter);
    if |q| == 0 then MissedReplan(true, det, 0, [])
    else if uid !in db.users then MissedReplan(false, det, 0, [])
    else
      var hours := Hours(db, uid);
      var c := Chain(Slots(uid, hours), det, q, today);
      SlotsAheadHolds(uid, hours);
      ChainDates(Slots(uid, hours), det, q, today);
      MissedReplan(true, c.0, |c.1|, c.1)
  }

  /** Each missed task taken up is rescheduled in place (original date kept
      once, counter plus one); every other task is as the sweep left it. */
  lemma ReplanMissedEffect(db: Db, uid: UserId, skillFilter: Option<SkillId>, today: Day)
    requires UniqueIds(db.tasks)
    ensures var r := ReplanMissed(db, uid, skillFilter, today);
            var det := DetectMissed(db.tasks, uid, today).tasks;
            r.success ==> WritesQueue(det, MissedQueue(det, uid, skillFilter), r.tasks, r.moved)
  {
    var det := DetectMissed(db.tasks, uid, today).tasks;
    var q := MissedQueue(det, uid, skillFilter);
    DetectMissedKeepsIds(db.tasks, uid, today);
    ReplanMissedShape(db, uid, skillFilter, today);
    if |q| > 0 && uid in db.users {
      ChainStoreEffect(Slots(uid, Hours(db, uid)), det, q, today);
    }
  }

  lemma ReplanMissedShape(db: Db, uid: UserId, skillFilter: Option<SkillId>, today: Day)
    ensures var r := ReplanMissed(db, uid, skillFilter, today);
            var det := DetectMissed(db.tasks, uid, today).tasks;
            var q := MissedQueue(det, uid, skillFilter);
            && (|q| == 0 || uid !in db.users ==> r.tasks == det && r.moved == [])
            && (|q| > 0 && uid in db.users ==>
                  var c := Chain(Slots(uid, Hours(db, uid)), det, q, today);
                  r.tasks == c.0 && r.moved == c.1)
  {
  }

  /** A task the sweep marks is queued for replanning. */
  lemma DueIsQueued(ts: seq<Task>, uid: UserId, today: Day, i: nat)
    requires i < |ts| && DueForMissed(ts[i], uid, today)
    ensures var det := DetectMissed(ts, uid, today).tasks;
            det[i] in MissedQueue(det, uid, None)
  {
    var det := DetectMissed(ts, uid, today).tasks;
    assert det[i] in det && InMissedQuery(det[i], uid, None);
  }

  /** An empty unfiltered queue means the sweep found nothing due. */
  lemma EmptyQueueNoneDue(ts: seq<Task>, uid: UserId, today: Day)
    requires |MissedQueue(DetectMissed(ts, uid, today).tasks, uid, None)| == 0
    ensures forall i :: 0 <= i < |ts| ==> !DueForMissed(ts[i], uid, today)
  {
    forall i | 0 <= i < |ts|
      ensures !DueForMissed(ts[i], uid, today)
    {
      if DueForMissed(ts[i], uid, today) {
        DueIsQueued(ts, uid, today, i);
      }
    }
  }

  /** A sweep that finds nothing due leaves the store as it was. */
  lemma NoneDueKeepsStore(ts: seq<Task>, uid: UserId, today: Day)
    requires forall i :: 0 <= i < |ts| ==> !DueForMissed(ts[i], uid, today)
    ensures DetectMissed(ts, uid, today).tasks == ts
  {
  }

  /** With no skill filter, a successful run that reschedules nothing
      writes nothing: no task of the user was pending in the past or
      already missed. */
  lemma ReplanNothingWritesNothing(db: Db, uid: UserId, today: Day)
    requires ReplanMissed(db, uid, None, today).success
    requires ReplanMissed(db, uid, None, today).rescheduledCount == 0
    ensures ReplanMissed(db, uid, None, today).tasks == db.tasks
    ensures forall i :: 0 <= i < |db.tasks| ==> !DueForMissed(db.tasks[i], uid, today)
  {
    EmptyQueueNoneDue(db.tasks, uid, today);
    NoneDueKeepsStore(db.tasks, uid, today);
  }

  // ---------------------------------------------------------------------
  // replanSkillTasks

  /** `.sort({dayNumber: 1})`: tasks without a day number come first. */
  function DayNumberKey(t: Task): Key {
    if t.dayNumber.None? then Key(0, 0, 0) else Key(1, t.dayNumber.value, 0)
  }

  predicate Outstanding(t: Task) {
    t.status == Pending || t.status == Missed || t.status == Rescheduled
  }

  predicate InSkillQuery(t: Task, uid: UserId, sid: SkillId) {
    t.skill == Some(sid) && t.user == uid && Outstanding(t)
  }

  /** The skill's pending, missed and rescheduled tasks in curriculum order. */
  function SkillQueue(ts: seq<Task>, uid: UserId, sid: SkillId): (q: seq<Task>)
    ensures forall t :: t in q <==> t in ts && InSkillQuery(t, uid, sid)
    ensures SortedBy(q, DayNumberKey)
    ensures UniqueIds(ts) ==> UniqueIds(q)
  {
    var p := (t: Task) => InSkillQuery(t, uid, sid);
    SelectSorted(ts, p, DayNumberKey);
    SortByKey(Filter(ts, p), DayNumberKey)
  }

  function IncompleteCount(ts: seq<SkillModel.Topic>): nat {
    if |ts| == 0 then 0
    else (if ts[0].completed then 0 else 1) + IncompleteCount(ts[1..])
  }

  /** `success` is false for an unknown skill and when the run throws on a
      missing user record. */
  datatype SkillReplan = SkillReplan(success: bool, db: Db, rescheduledCount: nat,
                                     moved: seq<Moved>, newEndDate: Option<Day>)

  /** The skill as saved at the end of a replan: its end date moved to the
      last new date. */
  function WithEndDate(s: Skill, d: Day): (r: Skill)
    ensures r.endDate == Some(d) && r.(endDate := s.endDate) == s
    ensures ValidSkill(s) ==> ValidSkill(r)
  {
    PreSave(s.(endDate := Some(d)), false, false)
  }

  /** `replanSkillTasks`: for a skill of the user with topics left, chain its
      outstanding tasks in day-number order starting after tomorrow, then
      move the skill's end date to the last placed date. The user record is
      read once the skill is found; a missing one throws before any write. */
  function ReplanSkill(db: Db, uid: UserId, sid: SkillId, today: Day): (r: SkillReplan)
    ensures r.success <==> FindOwnedSkill(db.skills, sid, uid).Some? && uid in db.users
    ensures !r.success ==> r.db == db && r.moved == []
    ensures r.success ==> r.rescheduledCount == |r.moved|
    ensures r.success && IncompleteCount(FindOwnedSkill(db.skills, sid, uid).value.dailyTopics) == 0
            ==> r.db == db && r.rescheduledCount == 0
    ensures |r.moved| > 0 ==>
      && r.newEndDate == Some(r.moved[|r.moved| - 1].newDate)
      && r.db.skills == PutSkill(db.skills, WithEndDate(FindOwnedSkill(db.skills, sid, uid).value,
                                                        r.moved[|r.moved| - 1].newDate))
    ensures |r.moved| == 0 ==> r.db.skills == db.skills
    ensures r.db.users == db.users && r.db.nextId == db.nextId && |r.db.tasks| == |db.tasks|
  {
    var found := FindOwnedSkill(db.skills, sid, uid);
    if found.None? || uid !in db.users then SkillReplan(false, db, 0, [], None)
    else ReplanOwned(db, uid, Hours(db, uid), found.value, today)
  }

  /** `replanSkillTasks` once the skill and the user are found: nothing to
      do when every topic is complete, otherwise the chain. */
  function ReplanOwned(db: Db, uid: UserId, dailyHours: real, skill: Skill, today: Day): (r: SkillReplan)
    ensures r.success && r.rescheduledCount == |r.moved|
    ensures IncompleteCount(skill.dailyTopics) == 0 ==> r.db == db && r.rescheduledCount == 0
    ensures |r.moved| > 0 ==>
      && r.newEndDate == Some(r.moved[|r.moved| - 1].newDate)
      && r.db.skills == PutSkill(db.skills, WithEndDate(skill, r.moved[|r.moved| - 1].newDate))
    ensures |r.moved| == 0 ==> r.db.skills == db.skills
    ensures r.db.users == db.users && r.db.nextId == db.nextId && |r.db.tasks| == |db.tasks|
  {
    if IncompleteCount(skill.dailyTopics) == 0 then SkillReplan(true, db, 0, [], skill.endDate)
    else ReplanSkillChain(db, uid, dailyHours, skill, today)
  }

  /** The chaining branch of `replanSkillTasks`, for a skill with topics
      left: the skill is saved with its new end date only when some task
      moved. */
  function ReplanSkillChain(db: Db, uid: UserId, dailyHours: real, skill: Skill, today: Day): (r: SkillReplan)
    ensures r.success && r.rescheduledCount == |r.moved|
    ensures r.moved == Chain(Slots(uid, dailyHours), db.tasks, SkillQueue(db.tasks, uid, skill.id), today + 1).1
    ensures |r.moved| > 0 ==>
      && r.newEndDate == Some(r.moved[|r.moved| - 1].newDate)
      && r.db.skills == PutSkill(db.skills, WithEndDate(skill, r.moved[|r.moved| - 1].newDate))
    ensures |r.moved| == 0 ==> r.db.skills == db.skills && r.newEndDate == skill.endDate
    ensures r.db.users == db.users && r.db.nextId == db.nextId && |r.db.tasks| == |db.tasks|
  {
    var q := SkillQueue(db.tasks, uid, skill.id);
    var c := Chain(Slots(uid, dailyHours), db.tasks, q, today + 1);
    if |c.1| > 0 then
      var skill' := WithEndDate(skill, c.1[|c.1| - 1].newDate);
      SkillReplan(true, db.(tasks := c.0, skills := PutSkill(db.skills, skill')), |c.1|, c.1, skill'.endDate)
    else SkillReplan(true, db.(tasks := c.0), 0, [], skill.endDate)
  }

  /** The moves of a skill replan are those of the chain over its queue,
      starting from tomorrow, with the user's daily hours. */
  lemma ReplanSkillMoves(db: Db, uid: UserId, sid: SkillId, today: Day)
    ensures var r := ReplanSkill(db, uid, sid, today);
      r.moved == [] ||
      (uid in db.users
       && r.moved == Chain(Slots(uid, Hours(db, uid)), db.tasks, SkillQueue(db.tasks, uid, sid), today + 1).1)
  {
  }

  /** The new dates strictly increase, so the skill's new end date is the
      latest of them. */
  lemma ReplanSkillIncreasing(db: Db, uid: UserId, sid: SkillId, today: Day)
    ensures StrictlyIncreasing(ReplanSkill(db, uid, sid, today).moved)
  {
    ReplanSkillMoves(db, uid, sid, today);
    if uid in db.users {
      SlotsAheadHolds(uid, Hours(db, uid));
      ChainDates(Slots(uid, Hours(db, uid)), db.tasks, SkillQueue(db.tasks, uid, sid), today + 1);
    }
  }

  /** The cursor starts at tomorrow, so every new date is at least the day
      after tomorrow. */
  lemma ReplanSkillAfterTomorrow(db: Db, uid: UserId, sid: SkillId, today: Day)
    ensures var ms := ReplanSkill(db, uid, sid, today).moved;
      forall k :: 0 <= k < |ms| ==> ms[k].newDate >= today + 2
  {
    ReplanSkillMoves(db, uid, sid, today);
    if uid in db.users {
      SlotsAheadHolds(uid, Hours(db, uid));
      ChainDates(Slots(uid, Hours(db, uid)), db.tasks, SkillQueue(db.tasks, uid, sid), today + 1);
    }
  }

  /** Every outstanding task of the skill is placed, in day-number order, and
      each one placed becomes a rescheduled copy of itself on its new date. */
  lemma ReplanSkillPlacesQueue(db: Db, uid: UserId, sid: SkillId, today: Day)
    requires UniqueIds(db.tasks) && uid in db.users
    requires FindOwnedSkill(db.skills, sid, uid).Some?
    requires IncompleteCount(FindOwnedSkill(db.skills, sid, uid).value.dailyTopics) > 0
    ensures var r := ReplanSkill(db, uid, sid, today);
            var q := SkillQueue(db.tasks, uid, sid);
            r.success && WritesQueue(db.tasks, q, r.db.tasks, r.moved)
  {
    var q := SkillQueue(db.tasks, uid, sid);
    ReplanSkillShape(db, uid, sid, today);
    ChainStoreEffect(Slots(uid, Hours(db, uid)), db.tasks, q, today + 1);
  }

  lemma ReplanSkillShape(db: Db, uid: UserId, sid: SkillId, today: Day)
    requires uid in db.users
    requires FindOwnedSkill(db.skills, sid, uid).Some?
    requires IncompleteCount(FindOwnedSkill(db.skills, sid, uid).value.dailyTopics) > 0
    ensures var r := ReplanSkill(db, uid, sid, today);
            var c := Chain(Slots(uid, Hours(db, uid)), db.tasks, SkillQueue(db.tasks, uid, sid), today + 1);
            r.success && r.moved == c.1 && r.db.tasks == c.0
  {
  }

  // ---------------------------------------------------------------------
  // The replanners' saves

  /** Every save of the chain passes the task validators when the queued
      tasks are valid: rescheduling keeps a task valid. */
  lemma ChainSavesValid(next: SlotFinder, ts: seq<Task>, queue: seq<Task>, cursor: Day)
    requires AllValid(queue)
    ensures var ms := Chain(next, ts, queue, cursor).1;
      forall k :: 0 <= k < |queue| ==> ValidTask(Reschedule(queue[k], ms[k].newDate))
  {
    var ms := Chain(next, ts, queue, cursor).1;
    forall k | 0 <= k < |queue| ensures ValidTask(Reschedule(queue[k], ms[k].newDate)) {
      LifecyclePreservesValidity(queue[k], ms[k].newDate, 0);
    }
  }

  /** From a store of valid documents, every save `replanMissedTasks` makes
      passes validation: the sweep's, and each rescheduled task's. */
  lemma ReplanMissedSavesValid(db: Db, uid: UserId, skillFilter: Option<SkillId>, today: Day)
    requires WellFormed(db)
    ensures var det := DetectMissed(db.tasks, uid, today).tasks;
            var r := ReplanMissed(db, uid, skillFilter, today);
            var q := MissedQueue(det, uid, skillFilter);
            && AllValid(det)
            && forall k :: 0 <= k < |r.moved| ==> ValidTask(Reschedule(q[k], r.moved[k].newDate))
  {
    var det := DetectMissed(db.tasks, uid, today).tasks;
    var q := MissedQueue(det, uid, skillFilter);
    DetectMissedWellFormed(db, uid, today);
    ValidSelection(det, q);
    ReplanMissedShape(db, uid, skillFilter, today);
    if |q| > 0 && uid in db.users {
      ChainSavesValid(Slots(uid, Hours(db, uid)), det, q, today);
    }
  }

  /** From a store of valid documents, every save `replanSkillTasks` makes
      passes validation: each rescheduled task's and the skill's. */
  lemma ReplanSkillSavesValid(db: Db, uid: UserId, sid: SkillId, today: Day)
    requires AllValid(db.tasks) && AllValidSkills(db.skills)
    ensures var r := ReplanSkill(db, uid, sid, today);
            var q := SkillQueue(db.tasks, uid, sid);
            && (forall k :: 0 <= k < |r.moved| ==> ValidTask(Reschedule(q[k], r.moved[k].newDate)))
            && AllValidSkills(r.db.skills)
  {
    var r := ReplanSkill(db, uid, sid, today);
    var q := SkillQueue(db.tasks, uid, sid);
    var found := FindOwnedSkill(db.skills, sid, uid);
    if found.Some? && uid in db.users {
      ValidSelection(db.tasks, q);
      ReplanSkillMoves(db, uid, sid, today);
      if |r.moved| > 0 {
        ChainSavesValid(Slots(uid, Hours(db, uid)), db.tasks, q, today + 1);
        var s' := WithEndDate(found.value, r.moved[|r.moved| - 1].newDate);
        assert ValidSkill(found.value);
        forall i | 0 <= i < |r.db.skills| ensures ValidSkill(r.db.skills[i]) {
          assert r.db.skills[i] == (if db.skills[i].id == s'.id then s' else db.skills[i]);
        }
      }
    }
  }

  // ---------------------------------------------------------------------
  // generateWorkoutTasks

  const WorkoutDuration: real := 60.0
  const WorkoutPriority: int := 2

  const WorkoutTitle: string := "Daily Workout"
  const WorkoutDescription: string := "Complete your daily exercise routine"
  const WorkoutVideo: Resource := Resource("Full Body Workout for Students",
    "https://www.youtube.com/results?search_query=quick+workout+for+students", YouTube)

  const MorningWindow: TimeWindow := TimeWindow("07:00", "08:00")
  const EveningWindow: TimeWindow := TimeWindow("18:00", "19:00")

  /** The morning hour for a morning preference, the evening hour otherwise. */
  function WorkoutWindow(p: WorkoutPreference): (w: TimeWindow)
    ensures p == Morning ==> w == MorningWindow
    ensures p != Morning ==> w == EveningWindow
  {
    if p == Morning then MorningWindow else EveningWindow
  }

  function WorkoutDraft(uid: UserId, date: Day, w: TimeWindow): (d: Draft)
    ensures d.user == uid && d.scheduledDate == date && d.kind == Some(Workout)
    ensures d.estimatedDuration == Some(WorkoutDuration) && d.priority == Some(WorkoutPriority)
    ensures d.scheduledTime == Some(w) && d.status.None? && d.importance.None?
    ensures |d.title| > 0
  {
    BlankDraft(uid, WorkoutTitle, date).(
      description := WorkoutDescription,
      kind := Some(Workout), scheduledTime := Some(w),
      estimatedDuration := Some(WorkoutDuration), priority := Some(WorkoutPriority),
      resources := [WorkoutVideo])
  }

  /** The stored document for one workout draft. */
  function WorkoutTask(uid: UserId, date: Day, w: TimeWindow, id: TaskId): (t: Task)
    ensures t.id == id && t.user == uid && t.scheduledDate == date && t.kind == Workout
    ensures t.estimatedDuration == WorkoutDuration && t.status == Pending
    ensures t.priority == WorkoutPriority && t.scheduledTime == Some(w)
    ensures ValidTask(t)
  {
    Materialize(WorkoutDraft(uid, date, w), id)
  }

  /** `success` is false when the run throws: the user record is read
      first, so a missing one aborts the run before anything is inserted. */
  datatype WorkoutBatch = WorkoutBatch(success: bool, db: Db, created: seq<Task>)

  /** `generateWorkoutTasks`: reads the user's stored profile; nothing when
      workouts are disabled; otherwise one hour-long workout per day for
      `days` consecutive days from `startDate`, in the morning window for a
      morning preference and the evening window otherwise, inserted in one
      batch. */
  function GenerateWorkouts(db: Db, uid: UserId, startDate: Day, days: int): (r: WorkoutBatch)
    ensures r.success <==> uid in db.users
    ensures !r.success ==> r.db == db && r.created == []
    ensures r.success && !db.users[uid].profile.workoutEnabled ==> r.db == db && r.created == []
    ensures r.success && db.users[uid].profile.workoutEnabled ==>
      var profile := db.users[uid].profile;
      && |r.created| == (if days > 0 then days else 0)
      && r.db == db.(tasks := db.tasks + r.created, nextId := db.nextId + |r.created|)
      && forall i :: 0 <= i < |r.created| ==>
           && r.created[i].id == db.nextId + i && r.created[i].user == uid
           && r.created[i].scheduledDate == startDate + i
           && r.created[i].kind == Workout && r.created[i].estimatedDuration == 60.0
           && r.created[i].status == Pending && r.created[i].priority == 2
           && r.created[i].scheduledTime == Some(if profile.workoutPreference == Morning
                                                 then MorningWindow else EveningWindow)
           && ValidTask(r.created[i])
  {
    if uid !in db.users then WorkoutBatch(false, db, [])
    else
      var profile := db.users[uid].profile;
      if !profile.workoutEnabled then WorkoutBatch(true, db, [])
      else
        var n := if days > 0 then days else 0;
        var w := WorkoutWindow(profile.workoutPreference);
        var created := seq(n, i requires 0 <= i < n => WorkoutTask(uid, startDate + i, w, db.nextId + i));
        assert forall i :: 0 <= i < n ==> created[i] == WorkoutTask(uid, startDate + i, w, db.nextId + i);
        WorkoutBatch(true, db.(tasks := db.tasks + created, nextId := db.nextId + n), created)
  }

  /** The batch insert keeps the store invariants: the workouts take fresh
      consecutive ids above every stored one, and each passes validation. */
  lemma GenerateWorkoutsWellFormed(db: Db, uid: UserId, startDate: Day, days: int)
    requires WellFormed(db)
    ensures WellFormed(GenerateWorkouts(db, uid, startDate, days).db)
  {
  }
}

=== FILE: skill.dfy ===
/** The Skill record (backend/models/Skill.js): a learning goal with a target
    number of days, an ordered curriculum of daily topics and a derived end
    date and progress. */
module SkillModel {
  import opened Wrappers
  import opened JsValues
  import opened TaskModel

  datatype SkillStatus = NotStarted | InProgressSkill | CompletedSkill | Paused

  datatype Topic = Topic(day: int, topic: string, description: string,
                         estimatedHours: real, completed: bool)

  datatype Skill = Skill(
    id: SkillId,
    user: UserId,
    name: string,
    description: string,
    targetDays: int,
    startDate: Day,
    endDate: Option<Day>,
    status: SkillStatus,
    priority: int,
    dailyTopics: seq<Topic>,
    progress: int)

  /** The schema validators: a name, 1..365 target days, priority 1..5 and
      progress 0..100. */
  predicate ValidSkill(s: Skill) {
    && |s.name| > 0
    && 1 <= s.targetDays <= 365
    && 1 <= s.priority <= 5
    && 0 <= s.progress <= 100
  }

  function CompletedCount(ts: seq<Topic>): (n: nat)
    ensures n <= |ts|
  {
    if |ts| == 0 then 0
    else CompletedCount(ts[..|ts| - 1]) + (if ts[|ts| - 1].completed then 1 else 0)
  }

  /** `calculateProgress`: 0 for an empty curriculum, otherwise the rounded
      percentage of completed topics. */
  function CalculateProgress(ts: seq<Topic>): (p: int)
    ensures |ts| == 0 ==> p == 0
    ensures |ts| > 0 ==> 2 * |ts| * p <= 200 * CompletedCount(ts) + |ts| < 2 * |ts| * (p + 1)
  {
    if |ts| == 0 then 0 else RoundDiv(100 * CompletedCount(ts), |ts|)
  }

  predicate AllCompleted(ts: seq<Topic>) {
    forall i :: 0 <= i < |ts| ==> ts[i].completed
  }

  predicate NoneCompleted(ts: seq<Topic>) {
    forall i :: 0 <= i < |ts| ==> !ts[i].completed
  }

  lemma {:induction false} CompletedCountAll(ts: seq<Topic>)
    requires AllCompleted(ts)
    ensures CompletedCount(ts) == |ts|
  {
    if |ts| > 0 {
      CompletedCountAll(ts[..|ts| - 1]);
    }
  }

  lemma {:induction false} CompletedCountNone(ts: seq<Topic>)
    requires NoneCompleted(ts)
    ensures CompletedCount(ts) == 0
  {
    if |ts| > 0 {
      CompletedCountNone(ts[..|ts| - 1]);
    }
  }

  /** Multiplying by a non-negative factor keeps an inequality. */
  lemma MulLe(k: int, a: int, b: int)
    requires k >= 0 && a <= b
    ensures k * a <= k * b
  {
    assert k * b - k * a == k * (b - a);
  }

  /** Progress is a percentage: it always lies in 0..100. */
  lemma ProgressInRange(ts: seq<Topic>)
    ensures 0 <= CalculateProgress(ts) <= 100
  {
    if |ts| > 0 {
      var n, c, p := |ts|, CompletedCount(ts), CalculateProgress(ts);
      if p > 100 {
        MulLe(2 * n, 101, p);
        assert false;
      }
      if p < 0 {
        MulLe(2 * n, p + 1, 0);
        assert false;
      }
    }
  }

  /** A fully completed curriculum is at 100 and an untouched one at 0. */
  lemma ProgressExtremes(ts: seq<Topic>)
    ensures AllCompleted(ts) && |ts| > 0 ==> CalculateProgress(ts) == 100
    ensures NoneCompleted(ts) ==> CalculateProgress(ts) == 0
  {
    var n := |ts|;
    if n > 0 {
      var p := CalculateProgress(ts);
      if AllCompleted(ts) {
        CompletedCountAll(ts);
        ProgressInRange(ts);
        if p < 100 {
          MulLe(2 * n, p + 1, 100);
          assert false;
        }
      }
      if NoneCompleted(ts) {
        CompletedCountNone(ts);
        ProgressInRange(ts);
        if p > 0 {
          MulLe(2 * n, 1, p);
          assert false;
        }
      }
    }
  }

  /** The curriculum with topic `i` marked completed (the assignment
      `dailyTopics[i].completed = true`). */
  function CompleteTopic(ts: seq<Topic>, i: nat): (r: seq<Topic>)
    requires i < |ts|
    ensures |r| == |ts| && r[i].completed
    ensures forall j :: 0 <= j < |ts| && j != i ==> r[j] == ts[j]
  {
    ts[i := ts[i].(completed := true)]
  }

  /** Completing one topic adds at most one to the completed count, and
      exactly one when it was not yet completed. */
  lemma {:induction false} CompleteTopicCount(ts: seq<Topic>, i: nat)
    requires i < |ts|
    ensures CompletedCount(CompleteTopic(ts, i)) == CompletedCount(ts) + (if ts[i].completed then 0 else 1)
    decreases |ts|
  {
    var r := CompleteTopic(ts, i);
    var n := |ts| - 1;
    if i == n {
      assert r[..n] == ts[..n];
    } else {
      assert r[..n] == CompleteTopic(ts[..n], i);
      CompleteTopicCount(ts[..n], i);
    }
  }

  /** Progress never goes down when one more topic is completed. */
  lemma ProgressMonotone(ts: seq<Topic>, i: nat)
    requires i < |ts|
    ensures CalculateProgress(ts) <= CalculateProgress(CompleteTopic(ts, i))
  {
    CompleteTopicCount(ts, i);
    var n := |ts|;
    var c := CompletedCount(ts);
    var c' := CompletedCount(CompleteTopic(ts, i));
    var p := CalculateProgress(ts);
    var p' := CalculateProgress(CompleteTopic(ts, i));
    assert 2 * n * p <= 200 * c + n;
    assert 200 * c' + n < 2 * n * (p' + 1);
    if p' < p {
      MulLe(2 * n, p' + 1, p);
      assert false;
    }
  }

  /** The pre-save hook: when the target length or the start date was
      modified the end date becomes start + target days; otherwise an
      end date assigned by the caller is kept. */
  function PreSave(s: Skill, targetDaysModified: bool, startDateModified: bool): (r: Skill)
    ensures targetDaysModified || startDateModified ==> r.endDate == Some(s.startDate + s.targetDays)
    ensures !targetDaysModified && !startDateModified ==> r.endDate == s.endDate
    ensures r.(endDate := s.endDate) == s
  {
    if targetDaysModified || startDateModified then s.(endDate := Some(s.startDate + s.targetDays))
    else s
  }

  /** The status rule shared by `completeTask` and `updateSkillProgress`:
      completed at 100, in progress above 0, otherwise unchanged. */
  function StatusForProgress(progress: int, current: SkillStatus): (st: SkillStatus)
    ensures progress == 100 ==> st == CompletedSkill
    ensures progress != 100 && progress > 0 ==> st == InProgressSkill
    ensures progress <= 0 ==> st == current
  {
    if progress == 100 then CompletedSkill
    else if progress > 0 then InProgressSkill
    else current
  }

  /** Progress recomputed from the curriculum and the status rule applied. */
  function RefreshProgress(s: Skill): (r: Skill)
    ensures r.progress == CalculateProgress(s.dailyTopics)
    ensures 0 <= r.progress <= 100
    ensures r.progress == 100 ==> r.status == CompletedSkill
    ensures 0 < r.progress < 100 ==> r.status == InProgressSkill
    ensures r.progress == 0 ==> r.status == s.status
    ensures r.(progress := s.progress, status := s.status) == s
  {
    var p := CalculateProgress(s.dailyTopics);
    ProgressInRange(s.dailyTopics);
    s.(progress := p, status := StatusForProgress(p, s.status))
  }
}

=== FILE: skill_controller.dfy ===
/** The skill endpoints (backend/controllers/skillController.js). Deleting a
    skill cascades to its tasks and then reflows the learner's remaining
    in-progress skills. */
module SkillController {
  import opened Wrappers
  import opened JsValues
  import opened TaskModel
  import opened SkillModel
  import opened UserModel
  import opened Store
  import opened Responses
  import Reflow

  const SkillNotFound: string := "Skill not found"
  /** `profile.dailyLearningHours || 2` when the profile holds no budget. */
  const FallbackHours: real := 2.0

  // ---------------------------------------------------------------------
  // createSkill

  /** The fields `createSkill` reads from the request body. */
  datatype NewSkill = NewSkill(name: string, description: string, targetDays: Option<int>,
                               priority: Option<int>, startDate: Option<Day>)

  /** Every skill id lies below the next id the store will hand out. */
  predicate SkillIdsBelow(db: Db) {
    forall i :: 0 <= i < |db.skills| ==> db.skills[i].id < db.nextId
  }

  /** `createSkill`: the requester's new skill, not started, priority 1 and
      start today when absent, with an empty curriculum; the save hook
      sets its end date. 500 with nothing stored when a validator
      rejects it (a missing target day count included). */
  function CreateSkill(db: Db, uid: UserId, b: NewSkill, today: Day): (r: (Db, Reply<Skill>))
    ensures r.1.Ok? <==>
      && |b.name| > 0 && b.targetDays.Some? && 1 <= b.targetDays.value <= 365
      && 1 <= OrInt(b.priority, DefaultPriority) <= 5
    ensures r.1.Err? ==> r == (db, Err(ServerError, ServerErrorMessage))
    ensures r.1.Ok? ==>
      var s := r.1.data;
      && r.1.code == Created
      && r.0 == db.(skills := db.skills + [s], nextId := db.nextId + 1)
      && s.id == db.nextId && s.user == uid && s.name == b.name
      && s.targetDays == b.targetDays.value && s.status == NotStarted
      && s.priority == OrInt(b.priority, DefaultPriority)
      && s.startDate == b.startDate.GetOr(today)
      && s.endDate == Some(s.startDate + s.targetDays)
      && s.dailyTopics == [] && s.progress == 0
  {
    if b.targetDays.None? then (db, Err(ServerError, ServerErrorMessage))
    else
      var s := Skill(db.nextId, uid, b.name, b.description, b.targetDays.value, b.startDate.GetOr(today),
                     None, NotStarted, OrInt(b.priority, DefaultPriority), [], 0);
      // a new document counts every path as modified
      var saved := PreSave(s, true, true);
      if ValidSkill(saved) then (db.(skills := db.skills + [saved], nextId := db.nextId + 1), Ok(Created, saved))
      else (db, Err(ServerError, ServerErrorMessage))
  }

  lemma {:induction false} FindOwnedSkillLast(ss: seq<Skill>, s: Skill)
    requires forall i :: 0 <= i < |ss| ==> ss[i].id != s.id
    ensures FindOwnedSkill(ss + [s], s.id, s.user) == Some(s)
    decreases |ss|
  {
    if |ss| > 0 {
      assert (ss + [s])[1..] == ss[1..] + [s];
      FindOwnedSkillLast(ss[1..], s);
    }
  }

  /** A created skill is what `getSkill` answers for its id afterwards. */
  lemma CreateThenGet(db: Db, uid: UserId, b: NewSkill, today: Day)
    requires SkillIdsBelow(db)
    ensures var r := CreateSkill(db, uid, b, today);
            r.1.Ok? ==> GetSkill(r.0, uid, r.1.data.id) == Ok(OkCode, r.1.data) && SkillIdsBelow(r.0)
  {
    var r := CreateSkill(db, uid, b, today);
    if r.1.Ok? {
      FindOwnedSkillLast(db.skills, r.1.data);
    }
  }

  // ---------------------------------------------------------------------
  // getSkills, getSkill

  predicate OwnedBy(s: Skill, uid: UserId) {
    s.user == uid
  }

  function Reverse(ss: seq<Skill>): (r: seq<Skill>)
    ensures |r| == |ss| && forall i :: 0 <= i < |ss| ==> r[i] == ss[|ss| - 1 - i]
  {
    seq(|ss|, i requires 0 <= i < |ss| => ss[|ss| - 1 - i])
  }

  /** Skill ids grow in store order, as a store that only appends under
      fresh ids keeps them. */
  predicate IdsIncreasing(ss: seq<Skill>) {
    forall i, j :: 0 <= i < j < |ss| ==> ss[i].id < ss[j].id
  }

  /** Filtering keeps ids increasing. */
  lemma {:induction false} FilterSkillsIncreasing(ss: seq<Skill>, p: Skill -> bool)
    ensures IdsIncreasing(ss) ==> IdsIncreasing(FilterSkills(ss, p))
  {
    if |ss| > 0 && IdsIncreasing(ss) {
      var tail := ss[1..];
      assert IdsIncreasing(tail) by {
        forall i, j | 0 <= i < j < |tail| ensures tail[i].id < tail[j].id {
          assert tail[i] == ss[i + 1] && tail[j] == ss[j + 1];
        }
      }
      FilterSkillsIncreasing(tail, p);
      var rest := FilterSkills(tail, p);
      forall k | 0 <= k < |rest| ensures ss[0].id < rest[k].id {
        assert rest[k] in tail;
      }
    }
  }

  /** `getSkills`: the requester's skills, newest first: in a store whose
      ids grow with creation, ids strictly decrease along the listing. */
  function GetSkills(db: Db, uid: UserId): (r: seq<Skill>)
    ensures forall s :: s in r <==> s in db.skills && s.user == uid
    ensures IdsIncreasing(db.skills) ==> forall i, j :: 0 <= i < j < |r| ==> r[i].id > r[j].id
  {
    var owned := FilterSkills(db.skills, (s: Skill) => OwnedBy(s, uid));
    var r := Reverse(owned);
    assert forall s :: s in r <==> s in owned by {
      forall s ensures s in r <==> s in owned {
        if s in owned {
          var k :| 0 <= k < |owned| && owned[k] == s;
          assert r[|owned| - 1 - k] == s;
        }
      }
    }
    FilterSkillsIncreasing(db.skills, (s: Skill) => OwnedBy(s, uid));
    r
  }

  /** Creating a skill keeps ids increasing, so the skill just created is
      listed first. */
  lemma CreateKeepsIdsIncreasing(db: Db, uid: UserId, b: NewSkill, today: Day)
    requires SkillIdsBelow(db) && IdsIncreasing(db.skills)
    ensures IdsIncreasing(CreateSkill(db, uid, b, today).0.skills)
    ensures var r := CreateSkill(db, uid, b, today);
            r.1.Ok? ==> GetSkills(r.0, uid)[0] == r.1.data
  {
    var r := CreateSkill(db, uid, b, today);
    if r.1.Ok? {
      var g := GetSkills(r.0, uid);
      assert r.1.data in r.0.skills;
      assert r.1.data in g;
      if g[0] != r.1.data {
        var k :| 0 <= k < |g| && g[k] == r.1.data;
        assert g[0] in r.0.skills;
        var m :| 0 <= m < |r.0.skills| && r.0.skills[m] == g[0];
        assert m < |db.skills|;
      }
    }
  }

  /** `getSkill`: the requester's skill with that id, or 404. */
  function GetSkill(db: Db, uid: UserId, id: SkillId): (r: Reply<Skill>)
    ensures r.Err? <==> forall i :: 0 <= i < |db.skills| ==> !(db.skills[i].id == id && db.skills[i].user == uid)
    ensures r.Err? ==> r == Err(NotFound, SkillNotFound)
    ensures r.Ok? ==> r.code == OkCode && r.data in db.skills && r.data.id == id && r.data.user == uid
  {
    match FindOwnedSkill(db.skills, id, uid)
    case None => Err(NotFound, SkillNotFound)
    case Some(s) => Ok(OkCode, s)
  }

  // ---------------------------------------------------------------------
  // updateSkill

  /** The fields `updateSkill` copies, each only when truthy. */
  datatype SkillPatch = SkillPatch(name: Option<string>, description: Option<string>, targetDays: Option<int>,
                                   priority: Option<int>, status: Option<SkillStatus>)

  /** The patched skill as saved: the truthy fields assigned, and the end
      date recomputed by the save hook exactly when the target day count
      took a new value. */
  function ApplySkillPatch(s: Skill, p: SkillPatch): (r: Skill)
    ensures r.name == OrString(p.name, s.name) && r.description == OrString(p.description, s.description)
    ensures r.targetDays == OrInt(p.targetDays, s.targetDays) && r.priority == OrInt(p.priority, s.priority)
    ensures r.status == p.status.GetOr(s.status)
    ensures r.endDate == if r.targetDays != s.targetDays then Some(s.startDate + r.targetDays) else s.endDate
    ensures r.id == s.id && r.user == s.user && r.startDate == s.startDate
    ensures r.dailyTopics == s.dailyTopics && r.progress == s.progress
  {
    var u := s.(name := OrString(p.name, s.name), description := OrString(p.description, s.description),
                targetDays := OrInt(p.targetDays, s.targetDays), priority := OrInt(p.priority, s.priority),
                status := p.status.GetOr(s.status));
    PreSave(u, u.targetDays != s.targetDays, false)
  }

  /** Sending the same update twice stores the same skill as sending it
      once: the second save finds the target day count unchanged and keeps
      the end date. */
  lemma ApplySkillPatchIdempotent(s: Skill, p: SkillPatch)
    ensures ApplySkillPatch(ApplySkillPatch(s, p), p) == ApplySkillPatch(s, p)
  {
  }

  /** `updateSkill`: 404 for a skill the requester does not own; otherwise
      the patched skill replaces it when it passes validation. */
  function UpdateSkill(db: Db, uid: UserId, id: SkillId, p: SkillPatch): (r: (Db, Reply<Skill>))
    ensures FindOwnedSkill(db.skills, id, uid).None? ==> r == (db, Err(NotFound, SkillNotFound))
    ensures r.1.Err? ==> r.0 == db
    ensures r.1.Ok? ==>
      && FindOwnedSkill(db.skills, id, uid).Some?
      && r.1.data == ApplySkillPatch(FindOwnedSkill(db.skills, id, uid).value, p)
      && ValidSkill(r.1.data) && r.1.code == OkCode
      && r.0 == db.(skills := PutSkill(db.skills, r.1.data))
    ensures FindOwnedSkill(db.skills, id, uid).Some? ==>
      (r.1.Ok? <==> ValidSkill(ApplySkillPatch(FindOwnedSkill(db.skills, id, uid).value, p)))
  {
    match FindOwnedSkill(db.skills, id, uid)
    case None => (db, Err(NotFound, SkillNotFound))
    case Some(s) =>
      var u := ApplySkillPatch(s, p);
      if ValidSkill(u) then (db.(skills := PutSkill(db.skills, u)), Ok(OkCode, u))
      else (db, Err(ServerError, ServerErrorMessage))
  }

  /** A patch that leaves out every out-of-range value cannot fail on a
      valid skill: only a bad target day count or priority, or an empty
      name after a falsy check, reaches the validators. */
  lemma UpdateSkillSucceeds(db: Db, uid: UserId, id: SkillId, p: SkillPatch)
    requires FindOwnedSkill(db.skills, id, uid).Some? && ValidSkill(FindOwnedSkill(db.skills, id, uid).value)
    requires p.targetDays.Some? ==> p.targetDays.value == 0 || 1 <= p.targetDays.value <= 365
    requires p.priority.Some? ==> p.priority.value == 0 || 1 <= p.priority.value <= 5
    ensures UpdateSkill(db, uid, id, p).1.Ok?
  {
  }

  // ---------------------------------------------------------------------
  // deleteSkill

  /** `Task.deleteMany({skill})` then `skill.deleteOne()`. The task filter
      names only the skill, so tasks of any owner linked to it go. */
  function CascadeDelete(db: Db, id: SkillId): (r: Db)
    ensures forall t :: t in r.tasks <==> t in db.tasks && t.skill != Some(id)
    ensures forall s :: s in r.skills <==> s in db.skills && s.id != id
    ensures r.users == db.users && r.nextId == db.nextId
  {
    db.(tasks := Filter(db.tasks, (t: Task) => t.skill != Some(id)),
        skills := FilterSkills(db.skills, (s: Skill) => s.id != id))
  }

  /** The cascade keeps the store's invariants. */
  lemma CascadeKeepsWellFormed(db: Db, id: SkillId)
    requires WellFormed(db)
    ensures WellFormed(CascadeDelete(db, id))
  {
    FilterKeepsUniqueIds(db.tasks, (t: Task) => t.skill != Some(id));
  }

  /** The hours the freed time is reflowed with. */
  function HoursAfterDelete(u: User): (h: real)
    ensures u.profile.dailyLearningHours != 0.0 ==> h == u.profile.dailyLearningHours
    ensures u.profile.dailyLearningHours == 0.0 ==> h == FallbackHours
  {
    OrReal(Some(u.profile.dailyLearningHours), FallbackHours)
  }

  /** `deleteSkill`: 404 for a skill the requester does not own; otherwise
      the cascade, then a reflow of the requester's in-progress skills with
      their daily budget. A missing user record or a failing reflow answers
      500 after the writes already made. */
  function DeleteSkill(db: Db, uid: UserId, id: SkillId, today: Day): (r: (Db, Reply<Reflow.ReflowResult>))
    ensures FindOwnedSkill(db.skills, id, uid).None? <==> r == (db, Err(NotFound, SkillNotFound))
    ensures FindOwnedSkill(db.skills, id, uid).Some? && uid !in db.users ==>
      r == (CascadeDelete(db, id), Err(ServerError, ServerErrorMessage))
    ensures FindOwnedSkill(db.skills, id, uid).Some? && uid in db.users ==>
      var rr := Reflow.Reschedule(CascadeDelete(db, id), uid, HoursAfterDelete(db.users[uid]), today);
      && r.0 == rr.db
      && (r.1.Ok? <==> rr.ok)
      && (r.1.Ok? ==> r.1 == Ok(OkCode, rr))
  {
    match FindOwnedSkill(db.skills, id, uid)
    case None => (db, Err(NotFound, SkillNotFound))
    case Some(_) =>
      var db1 := CascadeDelete(db, id);
      if uid !in db1.users then (db1, Err(ServerError, ServerErrorMessage))
      else
        var rr := Reflow.Reschedule(db1, uid, HoursAfterDelete(db1.users[uid]), today);
        if rr.ok then (rr.db, Ok(OkCode, rr)) else (rr.db, Err(ServerError, ServerErrorMessage))
  }

  /** The reflow after a delete keeps every skill within its share: for a
      valid user, per skill and day the placed minutes stay within the
      daily budget split evenly over the remaining in-progress skills. */
  lemma DeleteSkillWithinBudget(db: Db, uid: UserId, id: SkillId, today: Day)
    requires uid in db.users && ValidUser(db.users[uid])
    ensures var r := DeleteSkill(db, uid, id, today);
            r.1.Ok? ==> Reflow.LogWithinShares(r.1.data.log, r.1.data.hoursPerSkill * 60.0, today)
  {
    if FindOwnedSkill(db.skills, id, uid).Some? {
      Reflow.RescheduleWithinBudget(CascadeDelete(db, id), uid, HoursAfterDelete(db.users[uid]), today);
    }
  }

  /** A reflow reports only skills of the store it runs on. */
  lemma ReflowOmits(db: Db, uid: UserId, hours: real, today: Day, id: SkillId)
    requires forall s :: s in db.skills ==> s.id != id
    ensures id !in Reflow.Reschedule(db, uid, hours, today).skills
  {
    var active := Reflow.ActiveSkills(db.skills, uid);
    if |active| > 0 && |Reflow.Collect(db.tasks, uid, active)| > 0 {
      Reflow.RescheduleShape(db, uid, hours, today);
      forall k | 0 <= k < |active| ensures active[k].id != id {
        assert active[k] in active;
      }
    } else {
      Reflow.RescheduleIdle(db, uid, hours, today);
    }
  }

  /** The deleted skill is never reflowed: the reflow's skills are the
      requester's remaining in-progress skills, none with the deleted id. */
  lemma DeleteSkillNotReflowed(db: Db, uid: UserId, id: SkillId, today: Day)
    ensures var r := DeleteSkill(db, uid, id, today);
            r.1.Ok? ==> id !in r.1.data.skills
  {
    if FindOwnedSkill(db.skills, id, uid).Some? && uid in db.users {
      ReflowOmits(CascadeDelete(db, id), uid, HoursAfterDelete(db.users[uid]), today, id);
    }
  }

  // ---------------------------------------------------------------------
  // updateSkillProgress

  /** `updateSkillProgress`: 404 for a skill the requester does not own;
      otherwise progress is recomputed from the curriculum, the status
      rule applied and the skill saved. */
  function UpdateSkillProgress(db: Db, uid: UserId, id: SkillId): (r: (Db, Reply<Skill>))
    ensures FindOwnedSkill(db.skills, id, uid).None? ==> r == (db, Err(NotFound, SkillNotFound))
    ensures r.1.Err? ==> r.0 == db
    ensures r.1.Ok? ==>
      var s := FindOwnedSkill(db.skills, id, uid).value;
      && r.1.code == OkCode
      && r.1.data.progress == CalculateProgress(s.dailyTopics)
      && r.1.data.(progress := s.progress, status := s.status) == s
      && r.0 == db.(skills := PutSkill(db.skills, r.1.data))
    ensures FindOwnedSkill(db.skills, id, uid).Some? && ValidSkill(FindOwnedSkill(db.skills, id, uid).value) ==>
      r.1.Ok?
  {
    match FindOwnedSkill(db.skills, id, uid)
    case None => (db, Err(NotFound, SkillNotFound))
    case Some(s) =>
      var u := PreSave(RefreshProgress(s), false, false);
      if ValidSkill(u) then (db.(skills := PutSkill(db.skills, u)), Ok(OkCode, u))
      else (db, Err(ServerError, ServerErrorMessage))
  }

  /** Refreshing progress twice is refreshing it once: the second pass
      computes the same percentage and the status rule is then stable. */
  lemma RefreshProgressIdempotent(s: Skill)
    ensures RefreshProgress(RefreshProgress(s)) == RefreshProgress(s)
  {
  }

  /** A curriculum with every topic completed marks the skill completed;
      one with none completed leaves the status alone. */
  lemma UpdateSkillProgressExtremes(db: Db, uid: UserId, id: SkillId)
    requires FindOwnedSkill(db.skills, id, uid).Some? && ValidSkill(FindOwnedSkill(db.skills, id, uid).value)
    ensures var s := FindOwnedSkill(db.skills, id, uid).value;
            var r := UpdateSkillProgress(db, uid, id);
            && (|s.dailyTopics| > 0 && AllCompleted(s.dailyTopics) ==> r.1.data.status == CompletedSkill)
            && (NoneCompleted(s.dailyTopics) ==> r.1.data.status == s.status && r.1.data.progress == 0)
  {
    ProgressExtremes(FindOwnedSkill(db.skills, id, uid).value.dailyTopics);
  }
}

=== FILE: sorting.dfy ===
/** Stable sorting of tasks by a lexicographic key. The store's
    `.sort({...})` clauses and JavaScript's `Array.prototype.sort` (stable
    since ES2019) are both modelled by this insertion sort; ties keep the
    order in which the tasks arrived. */
module Sorting {
  import opened TaskModel
  import opened Store

  /** A three-part sort key compared lexicographically. */
  datatype Key = Key(a: int, b: int, c: int)

  predicate KeyLe(x: Key, y: Key) {
    x.a < y.a || (x.a == y.a && (x.b < y.b || (x.b == y.b && x.c <= y.c)))
  }

  predicate SortedBy(s: seq<Task>, key: Task -> Key) {
    forall i, j :: 0 <= i < j < |s| ==> KeyLe(key(s[i]), key(s[j]))
  }

  lemma SortedSnoc(a: seq<Task>, x: Task, key: Task -> Key)
    requires SortedBy(a, key)
    requires forall t :: t in a ==> KeyLe(key(t), key(x))
    ensures SortedBy(a + [x], key)
  {
    forall i, j | 0 <= i < j < |a| + 1 ensures KeyLe(key((a + [x])[i]), key((a + [x])[j])) {
      if j == |a| { assert (a + [x])[i] == a[i]; }
    }
  }

  /** The tasks of `s` whose key is exactly `k`, in order. */
  function WithKey(s: seq<Task>, key: Task -> Key, k: Key): seq<Task> {
    if |s| == 0 then []
    else (if key(s[0]) == k then [s[0]] else []) + WithKey(s[1..], key, k)
  }

  /** `x` goes in front of the first element whose key is not smaller, so it
      precedes every element with an equal key. */
  function Insert(x: Task, s: seq<Task>, key: Task -> Key): (r: seq<Task>)
    ensures multiset(r) == multiset(s) + multiset{x}
    ensures |r| == |s| + 1
  {
    if |s| == 0 || KeyLe(key(x), key(s[0])) then [x] + s
    else
      assert s == [s[0]] + s[1..];
      [s[0]] + Insert(x, s[1..], key)
  }

  function SortByKey(s: seq<Task>, key: Task -> Key): (r: seq<Task>)
    ensures multiset(r) == multiset(s)
    ensures |r| == |s|
  {
    if |s| == 0 then []
    else
      assert s == [s[0]] + s[1..];
      Insert(s[0], SortByKey(s[1..], key), key)
  }

  lemma {:induction false} InsertSorted(x: Task, s: seq<Task>, key: Task -> Key)
    requires SortedBy(s, key)
    ensures SortedBy(Insert(x, s, key), key)
  {
    if |s| == 0 || KeyLe(key(x), key(s[0])) {
    } else {
      InsertSorted(x, s[1..], key);
      var r := Insert(x, s[1..], key);
      forall y | y in multiset(r)
        ensures KeyLe(key(s[0]), key(y))
      {
        if y != x {
          assert y in multiset(s[1..]);
          var j :| 0 <= j < |s[1..]| && s[1..][j] == y;
          assert s[j + 1] == y;
        }
      }
      forall j | 0 <= j < |r|
        ensures KeyLe(key(s[0]), key(r[j]))
      {
        assert r[j] in multiset(r);
      }
    }
  }

  /** The sorted output is ordered by the key. */
  lemma {:induction false} SortSorted(s: seq<Task>, key: Task -> Key)
    ensures SortedBy(SortByKey(s, key), key)
  {
    if |s| > 0 {
      SortSorted(s[1..], key);
      InsertSorted(s[0], SortByKey(s[1..], key), key);
    }
  }

  lemma {:induction false} InsertStable(x: Task, s: seq<Task>, key: Task -> Key, k: Key)
    ensures WithKey(Insert(x, s, key), key, k)
         == (if key(x) == k then [x] else []) + WithKey(s, key, k)
  {
    if |s| == 0 || KeyLe(key(x), key(s[0])) {
      assert ([x] + s)[1..] == s;
    } else {
      var r := Insert(x, s[1..], key);
      assert ([s[0]] + r)[1..] == r;
      InsertStable(x, s[1..], key, k);
    }
  }

  /** Stability: the tasks sharing any one key appear in the output in the
      order they had in the input. */
  lemma {:induction false} SortStable(s: seq<Task>, key: Task -> Key, k: Key)
    ensures WithKey(SortByKey(s, key), key, k) == WithKey(s, key, k)
  {
    if |s| > 0 {
      SortStable(s[1..], key, k);
      InsertStable(s[0], SortByKey(s[1..], key), key, k);
    }
  }

  /** No task of `s` carries the id. */
  predicate IdAbsent(id: TaskId, s: seq<Task>) {
    forall i :: 0 <= i < |s| ==> s[i].id != id
  }

  /** Two sequences with the same elements carry the same ids. */
  lemma IdAbsentPermutation(id: TaskId, s: seq<Task>, r: seq<Task>)
    requires multiset(r) == multiset(s) && IdAbsent(id, s)
    ensures IdAbsent(id, r)
  {
    forall i | 0 <= i < |r|
      ensures r[i].id != id
    {
      assert r[i] in multiset(s);
    }
  }

  lemma {:induction false} InsertKeepsUniqueIds(x: Task, s: seq<Task>, key: Task -> Key)
    requires UniqueIds(s) && IdAbsent(x.id, s)
    ensures UniqueIds(Insert(x, s, key))
  {
    if |s| == 0 || KeyLe(key(x), key(s[0])) {
    } else {
      var tail := s[1..];
      InsertKeepsUniqueIds(x, tail, key);
      var r := Insert(x, tail, key);
      assert IdAbsent(s[0].id, tail);
      IdAbsentPermutation(s[0].id, tail + [x], r);
    }
  }

  /** Sorting keeps every id unique when it was unique before. */
  lemma {:induction false} SortKeepsUniqueIds(s: seq<Task>, key: Task -> Key)
    requires UniqueIds(s)
    ensures UniqueIds(SortByKey(s, key))
  {
    if |s| > 0 {
      var tail := s[1..];
      SortKeepsUniqueIds(tail, key);
      assert IdAbsent(s[0].id, tail);
      IdAbsentPermutation(s[0].id, tail, SortByKey(tail, key));
      InsertKeepsUniqueIds(s[0], SortByKey(tail, key), key);
    }
  }

  /** A query's `find(...).sort(...)`: the matching tasks, sorted, with
      unique ids when the store's were unique. */
  lemma SelectSorted(ts: seq<Task>, p: Task -> bool, key: Task -> Key)
    ensures var q := SortByKey(Filter(ts, p), key);
            && (forall t :: t in q <==> t in ts && p(t))
            && SortedBy(q, key)
            && (UniqueIds(ts) ==> UniqueIds(q))
  {
    var f := Filter(ts, p);
    var q := SortByKey(f, key);
    SortSorted(f, key);
    if UniqueIds(ts) {
      FilterKeepsUniqueIds(ts, p);
      SortKeepsUniqueIds(f, key);
    }
    assert forall t :: t in q <==> t in multiset(f);
  }
}

=== FILE: store.dfy ===
/** The record store: the task, skill and user collections of one database,
    in insertion (natural) order, with the id-keyed reads and writes and the
    filtered queries the scheduler issues. */
module Store {
  import opened Wrappers
  import opened TaskModel
  import opened SkillModel
  import opened UserModel

  datatype Db = Db(tasks: seq<Task>, skills: seq<Skill>, users: map<UserId, User>, nextId: nat)

  /** Document ids are unique within the task collection. */
  predicate UniqueIds(ts: seq<Task>) {
    forall i, j :: 0 <= i < j < |ts| ==> ts[i].id != ts[j].id
  }

  /** Every task id lies below the next id the store will hand out. */
  predicate IdsBelow(ts: seq<Task>, bound: nat) {
    forall i :: 0 <= i < |ts| ==> ts[i].id < bound
  }

  /** Every stored task passed the schema validators when it was saved. */
  predicate AllValid(ts: seq<Task>) {
    forall i :: 0 <= i < |ts| ==> ValidTask(ts[i])
  }

  /** Every stored skill passed the schema validators when it was saved. */
  predicate AllValidSkills(ss: seq<Skill>) {
    forall i :: 0 <= i < |ss| ==> ValidSkill(ss[i])
  }

  /** Tasks selected from a store of valid tasks are valid. */
  lemma ValidSelection(ts: seq<Task>, q: seq<Task>)
    requires AllValid(ts) && forall t :: t in q ==> t in ts
    ensures AllValid(q)
  {
    forall i | 0 <= i < |q| ensures ValidTask(q[i]) {
      assert q[i] in ts;
    }
  }

  /** The collection invariants a store keeps between requests. */
  predicate WellFormed(db: Db) {
    UniqueIds(db.tasks) && IdsBelow(db.tasks, db.nextId) && AllValid(db.tasks)
  }

  /** The tasks satisfying `p`, in store order. */
  function Filter(ts: seq<Task>, p: Task -> bool): (r: seq<Task>)
    ensures |r| <= |ts|
    ensures forall t :: t in r <==> t in ts && p(t)
    ensures forall i :: 0 <= i < |r| ==> p(r[i])
  {
    if |ts| == 0 then []
    else (if p(ts[0]) then [ts[0]] else []) + Filter(ts[1..], p)
  }

  lemma {:induction false} FilterAppend(a: seq<Task>, b: seq<Task>, p: Task -> bool)
    ensures Filter(a + b, p) == Filter(a, p) + Filter(b, p)
  {
    if |a| == 0 {
      assert a + b == b;
    } else {
      assert (a + b)[1..] == a[1..] + b;
      FilterAppend(a[1..], b, p);
    }
  }

  /** Filtering keeps task ids unique. */
  lemma {:induction false} FilterKeepsUniqueIds(ts: seq<Task>, p: Task -> bool)
    requires UniqueIds(ts)
    ensures UniqueIds(Filter(ts, p))
  {
    if |ts| > 0 {
      FilterKeepsUniqueIds(ts[1..], p);
      var rest := Filter(ts[1..], p);
      forall j | 0 <= j < |rest|
        ensures rest[j].id != ts[0].id
      {
        assert rest[j] in ts[1..];
      }
    }
  }

  /** Saving a task document: the stored copy with the same id is replaced in
      place; every other document is untouched. */
  function PutTask(ts: seq<Task>, t: Task): (r: seq<Task>)
    ensures |r| == |ts|
    ensures forall i :: 0 <= i < |ts| ==> r[i] == (if ts[i].id == t.id then t else ts[i])
  {
    seq(|ts|, i requires 0 <= i < |ts| => if ts[i].id == t.id then t else ts[i])
  }

  /** The first task with the given id. */
  function FindTask(ts: seq<Task>, id: TaskId): (r: Option<Task>)
    ensures r.Some? ==> r.value in ts && r.value.id == id
    ensures r.None? ==> forall i :: 0 <= i < |ts| ==> ts[i].id != id
  {
    if |ts| == 0 then None
    else if ts[0].id == id then Some(ts[0])
    else FindTask(ts[1..], id)
  }

  /** `findOne({_id, user})`: a task the given user owns. */
  function FindOwnedTask(ts: seq<Task>, id: TaskId, uid: UserId): (r: Option<Task>)
    ensures r.Some? ==> r.value in ts && r.value.id == id && r.value.user == uid
    ensures r.None? ==> forall i :: 0 <= i < |ts| ==> !(ts[i].id == id && ts[i].user == uid)
  {
    if |ts| == 0 then None
    else if ts[0].id == id && ts[0].user == uid then Some(ts[0])
    else FindOwnedTask(ts[1..], id, uid)
  }

  /** With unique ids, the task found under an id is the one stored there. */
  lemma FindUnique(ts: seq<Task>, i: nat)
    requires UniqueIds(ts) && i < |ts|
    ensures FindTask(ts, ts[i].id) == Some(ts[i])
  {
    if i > 0 {
      assert ts[1..][i - 1] == ts[i];
      FindUnique(ts[1..], i - 1);
    }
  }

  /** `findById` on skills: the first skill with the given id. */
  function FindSkill(ss: seq<Skill>, id: SkillId): (r: Option<Skill>)
    ensures r.Some? ==> r.value in ss && r.value.id == id
    ensures r.None? ==> forall i :: 0 <= i < |ss| ==> ss[i].id != id
  {
    if |ss| == 0 then None
    else if ss[0].id == id then Some(ss[0])
    else FindSkill(ss[1..], id)
  }

  /** `findOne({_id, user})` on skills. */
  function FindOwnedSkill(ss: seq<Skill>, id: SkillId, uid: UserId): (r: Option<Skill>)
    ensures r.Some? ==> r.value in ss && r.value.id == id && r.value.user == uid
    ensures r.None? ==> forall i :: 0 <= i < |ss| ==> !(ss[i].id == id && ss[i].user == uid)
  {
    if |ss| == 0 then None
    else if ss[0].id == id && ss[0].user == uid then Some(ss[0])
    else FindOwnedSkill(ss[1..], id, uid)
  }

  /** Saving a skill document: the stored copy with the same id is replaced in
      place; every other document is untouched. */
  function PutSkill(ss: seq<Skill>, s: Skill): (r: seq<Skill>)
    ensures |r| == |ss|
    ensures forall i :: 0 <= i < |ss| ==> r[i] == (if ss[i].id == s.id then s else ss[i])
  {
    seq(|ss|, i requires 0 <= i < |ss| => if ss[i].id == s.id then s else ss[i])
  }

  /** The skills satisfying `p`, in store order. */
  function FilterSkills(ss: seq<Skill>, p: Skill -> bool): (r: seq<Skill>)
    ensures |r| <= |ss|
    ensures forall s :: s in r <==> s in ss && p(s)
    ensures forall i :: 0 <= i < |r| ==> p(r[i])
  {
    if |ss| == 0 then []
    else (if p(ss[0]) then [ss[0]] else []) + FilterSkills(ss[1..], p)
  }

  /** Skill ids are unique within the skill collection. */
  predicate UniqueSkillIds(ss: seq<Skill>) {
    forall i, j :: 0 <= i < j < |ss| ==> ss[i].id != ss[j].id
  }

  /** Filtering keeps skill ids unique. */
  lemma {:induction false} FilterSkillsUnique(ss: seq<Skill>, p: Skill -> bool)
    requires UniqueSkillIds(ss)
    ensures UniqueSkillIds(FilterSkills(ss, p))
  {
    if |ss| > 0 {
      var tail := ss[1..];
      assert UniqueSkillIds(tail) by {
        forall i, j | 0 <= i < j < |tail| ensures tail[i].id != tail[j].id {
          assert tail[i] == ss[i + 1] && tail[j] == ss[j + 1];
        }
      }
      FilterSkillsUnique(tail, p);
      var rest := FilterSkills(tail, p);
      forall k | 0 <= k < |rest| ensures rest[k].id != ss[0].id {
        assert rest[k] in tail;
      }
    }
  }

  /** Appending a new document under a fresh id. */
  function InsertTask(db: Db, d: Draft): (r: (Db, Task))
    ensures r.1 == Materialize(d, db.nextId)
    ensures r.0 == db.(tasks := db.tasks + [r.1], nextId := db.nextId + 1)
  {
    var t := Materialize(d, db.nextId);
    (db.(tasks := db.tasks + [t], nextId := db.nextId + 1), t)
  }

  /** A fresh task appended under the next id keeps the collection invariants. */
  lemma InsertKeepsWellFormed(db: Db, t: Task)
    requires WellFormed(db) && t.id == db.nextId && ValidTask(t)
    ensures WellFormed(db.(tasks := db.tasks + [t], nextId := db.nextId + 1))
  {
  }

  /** Appending valid documents under consecutive fresh ids, as `insertMany`
      does, keeps the invariants. */
  lemma {:induction false} AppendKeepsWellFormed(db: Db, ts: seq<Task>)
    requires WellFormed(db) && AllValid(ts)
    requires forall i :: 0 <= i < |ts| ==> ts[i].id == db.nextId + i
    ensures WellFormed(db.(tasks := db.tasks + ts, nextId := db.nextId + |ts|))
    decreases |ts|
  {
    if |ts| == 0 {
      assert db.tasks + ts == db.tasks;
    } else {
      InsertKeepsWellFormed(db, ts[0]);
      var db1 := db.(tasks := db.tasks + [ts[0]], nextId := db.nextId + 1);
      AppendKeepsWellFormed(db1, ts[1..]);
      assert db1.tasks + ts[1..] == db.tasks + ts;
    }
  }

  /** Replacing a document by a valid version with the same id keeps the
      collection invariants. */
  lemma PutKeepsWellFormed(ts: seq<Task>, bound: nat, t: Task)
    requires UniqueIds(ts) && IdsBelow(ts, bound) && AllValid(ts) && ValidTask(t)
    ensures UniqueIds(PutTask(ts, t)) && AllValid(PutTask(ts, t))
    ensures t.id < bound ==> IdsBelow(PutTask(ts, t), bound)
  {
  }

  // ---------------------------------------------------------------------
  // Task statics (backend/models/Task.js)

  const DayMillis: int := 86400000

  /** `getTasksForDate` queries the inclusive window [00:00:00.000,
      23:59:59.999] of a day; a millisecond time stamp lies in that window
      exactly when its day number is that day, which is why a day-number
      equality stands for the window query below. */
  lemma DayWindow(ms: int, d: Day)
    ensures d * DayMillis <= ms <= d * DayMillis + DayMillis - 1 <==> ms / DayMillis == d
  {
    var q := ms / DayMillis;
    assert q * DayMillis <= ms < q * DayMillis + DayMillis;
  }

  /** `getTasksForDate`: every task of the user on that day, of any status
      and type. The query sorts them by `scheduledTime.startTime`, which is
      not modelled: the contract promises the contents, not the order. */
  function TasksForDate(ts: seq<Task>, uid: UserId, d: Day): (r: seq<Task>)
    ensures forall t :: t in r <==> t in ts && t.user == uid && t.scheduledDate == d
  {
    if |ts| == 0 then []
    else (if ts[0].user == uid && ts[0].scheduledDate == d then [ts[0]] else [])
         + TasksForDate(ts[1..], uid, d)
  }

  lemma {:induction false} TasksForDateAppend(a: seq<Task>, b: seq<Task>, uid: UserId, d: Day)
    ensures TasksForDate(a + b, uid, d) == TasksForDate(a, uid, d) + TasksForDate(b, uid, d)
  {
    if |a| == 0 {
      assert a + b == b;
    } else {
      assert (a + b)[1..] == a[1..] + b;
      TasksForDateAppend(a[1..], b, uid, d);
    }
  }

  /** `getMissedTasks`: the user's tasks dated before today that are still
      pending or already missed. A query: the store is not changed. */
  function MissedTasks(ts: seq<Task>, uid: UserId, today: Day): (r: seq<Task>)
    ensures forall t :: t in r <==>
      t in ts && t.user == uid && t.scheduledDate < today && (t.status == Pending || t.status == Missed)
  {
    Filter(ts, (t: Task) => t.user == uid && t.scheduledDate < today && (t.status == Pending || t.status == Missed))
  }
}

=== FILE: task.dfy ===
/** The Task record (backend/models/Task.js): a schedulable unit of work,
    its schema bounds and defaults, and its three lifecycle methods. */
module TaskModel {
  import opened Wrappers

  /** A calendar day; day boundaries are not modelled below day granularity. */
  type Day = int
  /** A point in time (the `Date.now()` stamped into `completedAt`). */
  type Instant = int
  type TaskId = nat
  type UserId = nat
  type SkillId = nat

  datatype TaskKind = Learning | Workout | Custom
  datatype TaskStatus = Pending | InProgress | Completed | Missed | Rescheduled
  datatype ResourceKind = YouTube | Article | Documentation | OtherResource
  datatype Resource = Resource(title: string, url: string, kind: ResourceKind)
  datatype TimeWindow = TimeWindow(startTime: string, endTime: string)

  datatype Task = Task(
    id: TaskId,
    user: UserId,
    skill: Option<SkillId>,
    title: string,
    description: string,
    kind: TaskKind,
    scheduledDate: Day,
    scheduledTime: Option<TimeWindow>,
    estimatedDuration: real,        // minutes
    importance: int,
    isSplittable: bool,
    status: TaskStatus,
    priority: int,
    resources: seq<Resource>,
    notes: string,
    completedAt: Option<Instant>,
    originalDate: Option<Day>,      // set the first time the task is moved
    rescheduledCount: nat,
    dayNumber: Option<int>,         // position in the skill's curriculum
    topicIndex: Option<int>)

  const MinDuration: real := 15.0
  const DefaultDuration: real := 60.0
  const DefaultImportance: int := 3
  const DefaultPriority: int := 1

  /** The schema validators a save enforces: a non-empty title, a duration of
      at least 15 minutes, importance and priority within 1..5 (the status and
      type enumerations are enforced by the datatypes themselves). */
  predicate ValidTask(t: Task) {
    && |t.title| > 0
    && t.estimatedDuration >= MinDuration
    && 1 <= t.importance <= 5
    && 1 <= t.priority <= 5
  }

  /** A task as handed to `create`/`insertMany`: every field the schema
      defaults may be absent. */
  datatype Draft = Draft(
    user: UserId,
    skill: Option<SkillId>,
    title: string,
    description: string,
    kind: Option<TaskKind>,
    scheduledDate: Day,
    scheduledTime: Option<TimeWindow>,
    estimatedDuration: Option<real>,
    importance: Option<int>,
    isSplittable: Option<bool>,
    status: Option<TaskStatus>,
    priority: Option<int>,
    resources: seq<Resource>,
    notes: string,
    completedAt: Option<Instant>,
    originalDate: Option<Day>,
    rescheduledCount: Option<nat>,
    dayNumber: Option<int>,
    topicIndex: Option<int>)

  /** The document the store holds for a draft: schema defaults fill every
      absent field (type learning, 60 minutes, importance 3, splittable,
      pending, priority 1, never rescheduled). */
  function Materialize(d: Draft, id: TaskId): (t: Task)
    ensures t.id == id && t.user == d.user && t.skill == d.skill
    ensures t.scheduledDate == d.scheduledDate && t.title == d.title
    ensures t.kind == d.kind.GetOr(Learning)
    ensures t.estimatedDuration == d.estimatedDuration.GetOr(DefaultDuration)
    ensures t.importance == d.importance.GetOr(DefaultImportance)
    ensures t.isSplittable == d.isSplittable.GetOr(true)
    ensures t.status == d.status.GetOr(Pending)
    ensures t.priority == d.priority.GetOr(DefaultPriority)
    ensures t.rescheduledCount == d.rescheduledCount.GetOr(0)
    ensures d.estimatedDuration.None? && d.importance.None? && d.priority.None? && |d.title| > 0
            ==> ValidTask(t)
  {
    Task(id, d.user, d.skill, d.title, d.description, d.kind.GetOr(Learning),
         d.scheduledDate, d.scheduledTime, d.estimatedDuration.GetOr(DefaultDuration),
         d.importance.GetOr(DefaultImportance), d.isSplittable.GetOr(true),
         d.status.GetOr(Pending), d.priority.GetOr(DefaultPriority), d.resources,
         d.notes, d.completedAt, d.originalDate, d.rescheduledCount.GetOr(0),
         d.dayNumber, d.topicIndex)
  }

  /** A blank draft for a user, a title and a day: everything else absent. */
  function BlankDraft(user: UserId, title: string, date: Day): Draft {
    Draft(user, None, title, "", None, date, None, None, None, None, None, None,
          [], "", None, None, None, None, None)
  }

  /** `originalDate` keeps its value once set; otherwise it records `date`. */
  function KeepOriginal(t: Task, date: Day): (o: Option<Day>)
    ensures t.originalDate.Some? ==> o == t.originalDate
    ensures t.originalDate.None? ==> o == Some(date)
  {
    if t.originalDate.Some? then t.originalDate else Some(date)
  }

  /** `markComplete`: status completed, completion time stamped; nothing else changes. */
  function MarkComplete(t: Task, now: Instant): (r: Task)
    ensures r.status == Completed && r.completedAt == Some(now)
    ensures r.(status := t.status, completedAt := t.completedAt) == t
  {
    t.(status := Completed, completedAt := Some(now))
  }

  /** `markMissed`: status missed; the scheduled date becomes the original
      date only if none was recorded; nothing else changes. */
  function MarkMissed(t: Task): (r: Task)
    ensures r.status == Missed
    ensures t.originalDate.Some? ==> r.originalDate == t.originalDate
    ensures t.originalDate.None? ==> r.originalDate == Some(t.scheduledDate)
    ensures r.(status := t.status, originalDate := t.originalDate) == t
  {
    t.(status := Missed, originalDate := KeepOriginal(t, t.scheduledDate))
  }

  /** `reschedule(newDate)`: original date recorded once, the task moves to
      `newDate`, becomes rescheduled and its counter grows by exactly one;
      nothing else changes. */
  function Reschedule(t: Task, newDate: Day): (r: Task)
    ensures r.scheduledDate == newDate && r.status == Rescheduled
    ensures r.rescheduledCount == t.rescheduledCount + 1
    ensures t.originalDate.Some? ==> r.originalDate == t.originalDate
    ensures t.originalDate.None? ==> r.originalDate == Some(t.scheduledDate)
    ensures r.(scheduledDate := t.scheduledDate, status := t.status,
               rescheduledCount := t.rescheduledCount, originalDate := t.originalDate) == t
  {
    t.(originalDate := KeepOriginal(t, t.scheduledDate), scheduledDate := newDate,
       status := Rescheduled, rescheduledCount := t.rescheduledCount + 1)
  }

  /** None of the lifecycle methods touches a field the validators check,
      so a valid task stays valid. */
  lemma LifecyclePreservesValidity(t: Task, now: Instant, d: Day)
    requires ValidTask(t)
    ensures ValidTask(MarkComplete(t, now))
    ensures ValidTask(MarkMissed(t))
    ensures ValidTask(Reschedule(t, d))
  {
  }

  /** The first deviation is remembered for good: however many times a task
      is marked missed or rescheduled afterwards, `originalDate` stays the
      date it had before the first move, and every reschedule counts once. */
  lemma OriginalDateSetOnce(t: Task, d1: Day, d2: Day)
    ensures Reschedule(Reschedule(t, d1), d2).originalDate == Reschedule(t, d1).originalDate
    ensures MarkMissed(Reschedule(t, d1)).originalDate == Reschedule(t, d1).originalDate
    ensures Reschedule(MarkMissed(t), d1).originalDate == MarkMissed(t).originalDate
    ensures Reschedule(Reschedule(t, d1), d2).rescheduledCount == t.rescheduledCount + 2
    ensures t.originalDate.None? ==>
      Reschedule(Reschedule(t, d1), d2).originalDate == Some(t.scheduledDate)
  {
  }

  /** Marking an already missed task missed again changes nothing. */
  lemma MarkMissedIdempotent(t: Task)
    ensures MarkMissed(MarkMissed(t)) == MarkMissed(t)
  {
  }
}

=== FILE: task_controller.dfy ===
/** The task endpoints (backend/controllers/taskController.js). Each handler
    takes the store and the authenticated user and returns the store after
    the request together with the reply. A failed save answers 500 and keeps
    whatever was written before it. */
module TaskController {
  import opened Wrappers
  import opened JsValues
  import opened TaskModel
  import opened SkillModel
  import opened Store
  import opened Sorting
  import opened Responses

  const TaskNotFound: string := "Task not found"
  const TasksRequired: string := "Tasks array is required"

  // ---------------------------------------------------------------------
  // createTask

  /** The fields `createTask` reads from the request body. */
  datatype NewTask = NewTask(
    title: string,
    description: string,
    kind: Option<TaskKind>,
    scheduledDate: Day,
    scheduledTime: Option<TimeWindow>,
    estimatedDuration: Option<real>,
    priority: Option<int>,
    skillId: Option<SkillId>,
    resources: Option<seq<Resource>>,
    dayNumber: Option<int>,
    topicIndex: Option<int>)

  /** The requested skill is linked only when the requester owns it. */
  function LinkedSkill(ss: seq<Skill>, skillId: Option<SkillId>, uid: UserId): (r: Option<SkillId>)
    ensures r.Some? <==> skillId.Some? && exists i :: 0 <= i < |ss| && ss[i].id == skillId.value && ss[i].user == uid
    ensures r.Some? ==> r == skillId
  {
    if skillId.Some? && FindOwnedSkill(ss, skillId.value, uid).Some? then skillId else None
  }

  /** The document `createTask` hands to `Task.create`: the requester as
      owner, type learning, 60 minutes and priority 1 when absent or zero,
      no resources when absent. */
  function CreateDraft(ss: seq<Skill>, uid: UserId, b: NewTask): Draft {
    Draft(uid, LinkedSkill(ss, b.skillId, uid), b.title, b.description, Some(b.kind.GetOr(Learning)),
          b.scheduledDate, b.scheduledTime, Some(OrReal(b.estimatedDuration, DefaultDuration)),
          None, None, None, Some(OrInt(b.priority, DefaultPriority)), b.resources.GetOr([]), "",
          None, None, None, b.dayNumber, b.topicIndex)
  }

  /** `createTask`: 201 with the stored task, or 500 with nothing stored
      when the schema validators reject it. */
  function CreateTask(db: Db, uid: UserId, b: NewTask): (r: (Db, Reply<Task>))
    ensures r.1.Ok? <==>
      |b.title| > 0 && OrReal(b.estimatedDuration, DefaultDuration) >= MinDuration
      && 1 <= OrInt(b.priority, DefaultPriority) <= 5
    ensures r.1.Err? ==> r.0 == db && r.1.code == ServerError
    ensures r.1.Ok? ==>
      var t := r.1.data;
      && r.1.code == Created
      && r.0 == db.(tasks := db.tasks + [t], nextId := db.nextId + 1)
      && t.id == db.nextId && t.user == uid && t.title == b.title
      && t.scheduledDate == b.scheduledDate && t.kind == b.kind.GetOr(Learning)
      && t.estimatedDuration == OrReal(b.estimatedDuration, DefaultDuration)
      && t.priority == OrInt(b.priority, DefaultPriority)
      && t.importance == DefaultImportance && t.isSplittable && t.status == Pending
      && t.rescheduledCount == 0 && t.originalDate.None? && t.completedAt.None?
      && t.skill == LinkedSkill(db.skills, b.skillId, uid)
  {
    var t := Materialize(CreateDraft(db.skills, uid, b), db.nextId);
    if ValidTask(t) then (db.(tasks := db.tasks + [t], nextId := db.nextId + 1), Ok(Created, t))
    else (db, Err(ServerError, ServerErrorMessage))
  }

  /** Creating a task keeps the store's invariants, and a task is never
      linked to a skill of another user. */
  lemma CreateTaskKeepsWellFormed(db: Db, uid: UserId, b: NewTask)
    requires WellFormed(db)
    ensures WellFormed(CreateTask(db, uid, b).0)
    ensures var r := CreateTask(db, uid, b);
            r.1.Ok? && r.1.data.skill.Some? ==>
              exists s :: s in db.skills && s.id == r.1.data.skill.value && s.user == uid
  {
    var r := CreateTask(db, uid, b);
    if r.1.Ok? {
      InsertKeepsWellFormed(db, r.1.data);
      if r.1.data.skill.Some? {
        var i :| 0 <= i < |db.skills| && db.skills[i].id == b.skillId.value && db.skills[i].user == uid;
        assert db.skills[i] in db.skills;
      }
    }
  }

  // ---------------------------------------------------------------------
  // getTask, getAllTasks

  /** `getTask`: the requester's task with that id, or 404. */
  function GetTask(db: Db, uid: UserId, id: TaskId): (r: Reply<Task>)
    ensures r.Err? <==> forall i :: 0 <= i < |db.tasks| ==> !(db.tasks[i].id == id && db.tasks[i].user == uid)
    ensures r.Err? ==> r == Err(NotFound, TaskNotFound)
    ensures r.Ok? ==> r.code == OkCode && r.data in db.tasks && r.data.id == id && r.data.user == uid
  {
    match FindOwnedTask(db.tasks, id, uid)
    case None => Err(NotFound, TaskNotFound)
    case Some(t) => Ok(OkCode, t)
  }

  /** The optional filters of `getAllTasks`. */
  datatype TaskQuery = TaskQuery(status: Option<TaskStatus>, kind: Option<TaskKind>, skill: Option<SkillId>,
                                 startDate: Option<Day>, endDate: Option<Day>)

  /** The query document: always the requester, each given filter an
      equality, and an inclusive date range from either bound given. */
  predicate Matches(q: TaskQuery, uid: UserId, t: Task) {
    && t.user == uid
    && (q.status.Some? ==> t.status == q.status.value)
    && (q.kind.Some? ==> t.kind == q.kind.value)
    && (q.skill.Some? ==> t.skill == q.skill)
    && (q.startDate.Some? ==> q.startDate.value <= t.scheduledDate)
    && (q.endDate.Some? ==> t.scheduledDate <= q.endDate.value)
  }

  function Selected(ts: seq<Task>, uid: UserId, q: TaskQuery): (r: seq<Task>)
    ensures forall t :: t in r <==> t in ts && Matches(q, uid, t)
  {
    Filter(ts, (t: Task) => Matches(q, uid, t))
  }

  function ByDate(t: Task): Key {
    Key(t.scheduledDate, 0, 0)
  }

  /** `getAllTasks`: exactly the matching tasks, each as often as stored,
      in ascending date order. */
  function GetAllTasks(db: Db, uid: UserId, q: TaskQuery): (r: seq<Task>)
    ensures forall t :: t in r <==> t in db.tasks && Matches(q, uid, t)
    ensures multiset(r) == multiset(Selected(db.tasks, uid, q))
    ensures SortedBy(r, ByDate)
  {
    var m := Selected(db.tasks, uid, q);
    SortSorted(m, ByDate);
    assert forall t :: t in SortByKey(m, ByDate) <==> t in multiset(m);
    SortByKey(m, ByDate)
  }

  /** Tasks of the same day are listed in store order. */
  lemma GetAllTasksStable(db: Db, uid: UserId, q: TaskQuery, d: Day)
    ensures WithKey(GetAllTasks(db, uid, q), ByDate, Key(d, 0, 0)) == WithKey(Selected(db.tasks, uid, q), ByDate, Key(d, 0, 0))
  {
    SortStable(Selected(db.tasks, uid, q), ByDate, Key(d, 0, 0));
  }

  // ---------------------------------------------------------------------
  // updateTask

  /** The nine whitelisted fields of `updateTask`; absent means undefined. */
  datatype TaskPatch = TaskPatch(
    title: Option<string>,
    description: Option<string>,
    scheduledDate: Option<Day>,
    scheduledTime: Option<TimeWindow>,
    estimatedDuration: Option<real>,
    priority: Option<int>,
    status: Option<TaskStatus>,
    notes: Option<string>,
    resources: Option<seq<Resource>>)

  const EmptyPatch: TaskPatch := TaskPatch(None, None, None, None, None, None, None, None, None)

  /** Every given whitelisted field is assigned; nothing else changes. */
  function ApplyPatch(t: Task, p: TaskPatch): (r: Task)
    ensures r.(title := t.title, description := t.description, scheduledDate := t.scheduledDate,
               scheduledTime := t.scheduledTime, estimatedDuration := t.estimatedDuration,
               priority := t.priority, status := t.status, notes := t.notes, resources := t.resources) == t
    ensures r.title == if p.title.Some? then p.title.value else t.title
    ensures r.description == if p.description.Some? then p.description.value else t.description
    ensures r.scheduledDate == if p.scheduledDate.Some? then p.scheduledDate.value else t.scheduledDate
    ensures r.scheduledTime == if p.scheduledTime.Some? then p.scheduledTime else t.scheduledTime
    ensures r.estimatedDuration == if p.estimatedDuration.Some? then p.estimatedDuration.value else t.estimatedDuration
    ensures r.priority == if p.priority.Some? then p.priority.value else t.priority
    ensures r.status == if p.status.Some? then p.status.value else t.status
    ensures r.notes == if p.notes.Some? then p.notes.value else t.notes
    ensures r.resources == if p.resources.Some? then p.resources.value else t.resources
    ensures p.title.None? && p.estimatedDuration.None? && p.priority.None? && ValidTask(t) ==> ValidTask(r)
  {
    t.(title := p.title.GetOr(t.title), description := p.description.GetOr(t.description),
       scheduledDate := p.scheduledDate.GetOr(t.scheduledDate),
       scheduledTime := if p.scheduledTime.Some? then p.scheduledTime else t.scheduledTime,
       estimatedDuration := p.estimatedDuration.GetOr(t.estimatedDuration),
       priority := p.priority.GetOr(t.priority), status := p.status.GetOr(t.status),
       notes := p.notes.GetOr(t.notes), resources := p.resources.GetOr(t.resources))
  }

  /** An empty patch changes nothing, and applying a patch twice is the
      same as applying it once. */
  lemma ApplyPatchIdempotent(t: Task, p: TaskPatch)
    ensures ApplyPatch(t, EmptyPatch) == t
    ensures ApplyPatch(ApplyPatch(t, p), p) == ApplyPatch(t, p)
  {
  }

  /** `updateTask`: 404 for a task the requester does not own; otherwise
      the patched task is saved in place when it passes validation. */
  function UpdateTask(db: Db, uid: UserId, id: TaskId, p: TaskPatch): (r: (Db, Reply<Task>))
    ensures FindOwnedTask(db.tasks, id, uid).None? ==> r == (db, Err(NotFound, TaskNotFound))
    ensures r.1.Err? ==> r.0 == db
    ensures r.1.Ok? ==>
      && FindOwnedTask(db.tasks, id, uid).Some?
      && r.1.data == ApplyPatch(FindOwnedTask(db.tasks, id, uid).value, p)
      && ValidTask(r.1.data) && r.1.code == OkCode
      && r.0 == db.(tasks := PutTask(db.tasks, r.1.data))
    ensures FindOwnedTask(db.tasks, id, uid).Some? ==>
      (r.1.Ok? <==> ValidTask(ApplyPatch(FindOwnedTask(db.tasks, id, uid).value, p)))
  {
    match FindOwnedTask(db.tasks, id, uid)
    case None => (db, Err(NotFound, TaskNotFound))
    case Some(t) =>
      var u := ApplyPatch(t, p);
      if ValidTask(u) then (db.(tasks := PutTask(db.tasks, u)), Ok(OkCode, u))
      else (db, Err(ServerError, ServerErrorMessage))
  }

  /** An update rewrites only the addressed task and keeps the store's
      invariants. */
  lemma UpdateTaskOnlyTarget(db: Db, uid: UserId, id: TaskId, p: TaskPatch)
    requires WellFormed(db)
    ensures var r := UpdateTask(db, uid, id, p);
            && WellFormed(r.0)
            && |r.0.tasks| == |db.tasks|
            && forall i :: 0 <= i < |db.tasks| && db.tasks[i].id != id ==> r.0.tasks[i] == db.tasks[i]
  {
    var r := UpdateTask(db, uid, id, p);
    if r.1.Ok? {
      PutKeepsWellFormed(db.tasks, db.nextId, r.1.data);
    }
  }

  // ---------------------------------------------------------------------
  // completeTask

  /** The skill half of `completeTask`, run after the task was saved: the
      linked skill (looked up by id alone) gets topic `topicIndex` marked
      completed, its progress recomputed and the status rule applied. An
      index outside the curriculum throws (500); no linked skill or no
      index leaves the skills alone. */
  function CompleteSkillTopic(ss: seq<Skill>, t: Task): (r: Option<seq<Skill>>)
    ensures t.skill.None? || t.topicIndex.None? || FindSkill(ss, t.skill.value).None? ==> r == Some(ss)
  {
    if t.skill.None? || t.topicIndex.None? then Some(ss)
    else match FindSkill(ss, t.skill.value)
      case None => Some(ss)
      case Some(s) =>
        var ti := t.topicIndex.value;
        if !(0 <= ti < |s.dailyTopics|) then None
        else
          var s1 := PreSave(RefreshProgress(s.(dailyTopics := CompleteTopic(s.dailyTopics, ti))), false, false);
          if ValidSkill(s1) then Some(PutSkill(ss, s1)) else None
  }

  /** `completeTask`: 404 for a task the requester does not own; otherwise
      the task is marked completed at `now` and saved, then its skill's
      topic is completed. */
  function CompleteTask(db: Db, uid: UserId, id: TaskId, now: Instant): (r: (Db, Reply<Task>))
    ensures FindOwnedTask(db.tasks, id, uid).None? ==> r == (db, Err(NotFound, TaskNotFound))
    ensures r.1.Ok? ==> r.1.code == OkCode && r.1.data.status == Completed && r.1.data.completedAt == Some(now)
    ensures r.0.users == db.users && r.0.nextId == db.nextId
  {
    match FindOwnedTask(db.tasks, id, uid)
    case None => (db, Err(NotFound, TaskNotFound))
    case Some(t) =>
      var done := MarkComplete(t, now);
      if !ValidTask(done) then (db, Err(ServerError, ServerErrorMessage))
      else
        var db1 := db.(tasks := PutTask(db.tasks, done));
        match CompleteSkillTopic(db.skills, done)
        case None => (db1, Err(ServerError, ServerErrorMessage))
        case Some(ss) => (db1.(skills := ss), Ok(OkCode, done))
  }

  /** A valid owned task is stored completed whatever happens to its
      skill: the completion is saved before the skill is touched. */
  lemma CompleteTaskSavesTask(db: Db, uid: UserId, id: TaskId, now: Instant)
    requires FindOwnedTask(db.tasks, id, uid).Some? && ValidTask(FindOwnedTask(db.tasks, id, uid).value)
    ensures var t := FindOwnedTask(db.tasks, id, uid).value;
            CompleteTask(db, uid, id, now).0.tasks == PutTask(db.tasks, MarkComplete(t, now))
  {
    LifecyclePreservesValidity(FindOwnedTask(db.tasks, id, uid).value, now, 0);
  }

  /** With a linked valid skill and an index inside its curriculum, the
      reply is 200 and the stored skill has that topic completed, every
      other topic as before, and progress recomputed, never lower than the
      progress of the curriculum before. */
  lemma CompleteTaskTopic(db: Db, uid: UserId, id: TaskId, now: Instant)
    requires FindOwnedTask(db.tasks, id, uid).Some?
    requires var t := FindOwnedTask(db.tasks, id, uid).value;
             && ValidTask(t) && t.skill.Some? && t.topicIndex.Some?
             && FindSkill(db.skills, t.skill.value).Some?
             && ValidSkill(FindSkill(db.skills, t.skill.value).value)
             && 0 <= t.topicIndex.value < |FindSkill(db.skills, t.skill.value).value.dailyTopics|
    ensures var t := FindOwnedTask(db.tasks, id, uid).value;
            var s := FindSkill(db.skills, t.skill.value).value;
            var ti := t.topicIndex.value;
            var r := CompleteTask(db, uid, id, now);
            && r.1.Ok?
            && exists s1 ::
                 && r.0.skills == PutSkill(db.skills, s1)
                 && s1.id == s.id && |s1.dailyTopics| == |s.dailyTopics|
                 && s1.dailyTopics[ti].completed
                 && (forall j :: 0 <= j < |s.dailyTopics| && j != ti ==> s1.dailyTopics[j] == s.dailyTopics[j])
                 && s1.progress == CalculateProgress(s1.dailyTopics)
                 && CalculateProgress(s.dailyTopics) <= s1.progress
  {
    var t := FindOwnedTask(db.tasks, id, uid).value;
    LifecyclePreservesValidity(t, now, 0);
    var s := FindSkill(db.skills, t.skill.value).value;
    var ti := t.topicIndex.value;
    var s1 := PreSave(RefreshProgress(s.(dailyTopics := CompleteTopic(s.dailyTopics, ti))), false, false);
    ProgressMonotone(s.dailyTopics, ti);
    assert CompleteSkillTopic(db.skills, MarkComplete(t, now)) == Some(PutSkill(db.skills, s1));
  }

  /** An index outside the linked skill's curriculum answers 500, yet the
      task stays completed and the skills are untouched. */
  lemma CompleteTaskBadIndex(db: Db, uid: UserId, id: TaskId, now: Instant)
    requires FindOwnedTask(db.tasks, id, uid).Some?
    requires var t := FindOwnedTask(db.tasks, id, uid).value;
             && ValidTask(t) && t.skill.Some? && t.topicIndex.Some?
             && FindSkill(db.skills, t.skill.value).Some?
             && !(0 <= t.topicIndex.value < |FindSkill(db.skills, t.skill.value).value.dailyTopics|)
    ensures var t := FindOwnedTask(db.tasks, id, uid).value;
            var r := CompleteTask(db, uid, id, now);
            && r.1 == Err(ServerError, ServerErrorMessage)
            && r.0 == db.(tasks := PutTask(db.tasks, MarkComplete(t, now)))
  {
    LifecyclePreservesValidity(FindOwnedTask(db.tasks, id, uid).value, now, 0);
  }

  // ---------------------------------------------------------------------
  // rescheduleTask, deleteTask

  /** `rescheduleTask`: 404 for a task the requester does not own;
      otherwise the task's `reschedule` method moves it to `newDate`. */
  function RescheduleTask(db: Db, uid: UserId, id: TaskId, newDate: Day): (r: (Db, Reply<Task>))
    ensures FindOwnedTask(db.tasks, id, uid).None? ==> r == (db, Err(NotFound, TaskNotFound))
    ensures r.1.Err? ==> r.0 == db
    ensures r.1.Ok? ==>
      var t := FindOwnedTask(db.tasks, id, uid).value;
      && r.1.data == Reschedule(t, newDate)
      && r.0 == db.(tasks := PutTask(db.tasks, r.1.data))
  {
    match FindOwnedTask(db.tasks, id, uid)
    case None => (db, Err(NotFound, TaskNotFound))
    case Some(t) =>
      var moved := Reschedule(t, newDate);
      if ValidTask(moved) then (db.(tasks := PutTask(db.tasks, moved)), Ok(OkCode, moved))
      else (db, Err(ServerError, ServerErrorMessage))
  }

  /** In a well-formed store a reschedule always succeeds: the task sits on
      `newDate`, counts one more move and remembers its first date. */
  lemma RescheduleTaskSucceeds(db: Db, uid: UserId, id: TaskId, newDate: Day)
    requires WellFormed(db) && FindOwnedTask(db.tasks, id, uid).Some?
    ensures var t := FindOwnedTask(db.tasks, id, uid).value;
            var r := RescheduleTask(db, uid, id, newDate);
            && r.1.Ok? && r.1.data.scheduledDate == newDate && r.1.data.status == Rescheduled
            && r.1.data.rescheduledCount == t.rescheduledCount + 1
            && r.1.data.originalDate == (if t.originalDate.Some? then t.originalDate else Some(t.scheduledDate))
            && WellFormed(r.0)
  {
    var t := FindOwnedTask(db.tasks, id, uid).value;
    var i :| 0 <= i < |db.tasks| && db.tasks[i] == t;
    LifecyclePreservesValidity(t, 0, newDate);
    PutKeepsWellFormed(db.tasks, db.nextId, Reschedule(t, newDate));
  }

  /** `deleteTask`: 404 for a task the requester does not own; otherwise
      the document with that id is removed. */
  function DeleteTask(db: Db, uid: UserId, id: TaskId): (r: (Db, Reply<string>))
    ensures FindOwnedTask(db.tasks, id, uid).None? <==> r == (db, Err(NotFound, TaskNotFound))
    ensures r.1.Ok? ==>
      && r.1.code == OkCode
      && r.0 == db.(tasks := r.0.tasks)
      && forall t :: t in r.0.tasks <==> t in db.tasks && t.id != id
  {
    match FindOwnedTask(db.tasks, id, uid)
    case None => (db, Err(NotFound, TaskNotFound))
    case Some(t) => (db.(tasks := Filter(db.tasks, (x: Task) => x.id != id)), Ok(OkCode, "Task deleted"))
  }

  lemma DeleteTaskKeepsWellFormed(db: Db, uid: UserId, id: TaskId)
    requires WellFormed(db)
    ensures WellFormed(DeleteTask(db, uid, id).0)
  {
    if FindOwnedTask(db.tasks, id, uid).Some? {
      FilterKeepsUniqueIds(db.tasks, (x: Task) => x.id != id);
    }
  }

  // ---------------------------------------------------------------------
  // bulkCreateTasks

  /** The documents `insertMany` stores: each request entry with the
      requester as owner, under consecutive fresh ids in request order. */
  function BulkDocuments(ds: seq<Draft>, uid: UserId, firstId: nat): (r: seq<Task>)
    ensures |r| == |ds|
    ensures forall i :: 0 <= i < |ds| ==> r[i] == Materialize(ds[i].(user := uid), firstId + i)
  {
    seq(|ds|, i requires 0 <= i < |ds| => Materialize(ds[i].(user := uid), firstId + i))
  }

  /** `bulkCreateTasks`: 400 without a task array; otherwise every task is
      stored for the requester, whatever owner the request named, or none
      is when one fails validation. */
  function BulkCreateTasks(db: Db, uid: UserId, tasks: Option<seq<Draft>>): (r: (Db, Reply<seq<Task>>))
    ensures tasks.None? ==> r == (db, Err(BadRequest, TasksRequired))
    ensures r.1.Err? ==> r.0 == db
    ensures r.1.Ok? ==>
      && tasks.Some? && r.1.code == Created && |r.1.data| == |tasks.value|
      && r.0 == db.(tasks := db.tasks + r.1.data, nextId := db.nextId + |tasks.value|)
      && (forall i :: 0 <= i < |r.1.data| ==> r.1.data[i].user == uid && r.1.data[i].id == db.nextId + i
                                                && ValidTask(r.1.data[i]))
    ensures tasks.Some? ==>
      (r.1.Ok? <==> forall i :: 0 <= i < |tasks.value| ==> ValidTask(Materialize(tasks.value[i].(user := uid), db.nextId + i)))
  {
    match tasks
    case None => (db, Err(BadRequest, TasksRequired))
    case Some(ds) =>
      var created := BulkDocuments(ds, uid, db.nextId);
      if forall i :: 0 <= i < |created| ==> ValidTask(created[i]) then
        (db.(tasks := db.tasks + created, nextId := db.nextId + |ds|), Ok(Created, created))
      else (db, Err(ServerError, ServerErrorMessage))
  }

  /** A bulk insert keeps the store's invariants. */
  lemma BulkCreateKeepsWellFormed(db: Db, uid: UserId, tasks: Option<seq<Draft>>)
    requires WellFormed(db)
    ensures WellFormed(BulkCreateTasks(db, uid, tasks).0)
  {
    var r := BulkCreateTasks(db, uid, tasks);
    if r.1.Ok? {
      AppendKeepsWellFormed(db, r.1.data);
    }
  }
}

=== FILE: user.dfy ===
/** The parts of the User record the scheduler reads and the profile
    controller writes: the learner's time budget and workout preferences.
    Credentials are not part of this model. */
module UserModel {
  import opened TaskModel

  datatype WorkoutPreference = Morning | Evening | NoPreference
  datatype Weekday = Monday | Tuesday | Wednesday | Thursday | Friday | Saturday | Sunday
  datatype FreeSlot = FreeSlot(day: Weekday, startTime: string, endTime: string)

  datatype Profile = Profile(
    dailyLearningHours: real,
    freeTimeSlots: seq<FreeSlot>,
    sleepTime: string,
    wakeTime: string,
    workoutEnabled: bool,
    workoutPreference: WorkoutPreference,
    existingSkills: seq<string>)

  datatype User = User(id: UserId, email: string, name: string, isOnboarded: bool, profile: Profile)

  /** The schema validators a user save enforces on the fields modelled here:
      a name and a daily budget of 1..12 hours. */
  predicate ValidUser(u: User) {
    |u.name| > 0 && 1.0 <= u.profile.dailyLearningHours <= 12.0
  }
}

=== FILE: values.dfy ===
/** The JavaScript value rules the source leans on: `x || fallback` for
    numbers and strings, `Math.round`, `Math.min`/`Math.max` and the
    decimal rendering of a counter inside a title. */
module JsValues {
  import opened Wrappers

  /** `x || d` on a number: an absent value and 0 are falsy. */
  function OrInt(x: Option<int>, d: int): (r: int)
    ensures x.Some? && x.value != 0 ==> r == x.value
    ensures x.None? || x.value == 0 ==> r == d
  {
    if x.Some? && x.value != 0 then x.value else d
  }

  /** `x || d` on a real-valued number (hours, minutes). */
  function OrReal(x: Option<real>, d: real): (r: real)
    ensures x.Some? && x.value != 0.0 ==> r == x.value
    ensures x.None? || x.value == 0.0 ==> r == d
  {
    if x.Some? && x.value != 0.0 then x.value else d
  }

  /** `x || d` on a string: an absent value and "" are falsy. */
  function OrString(x: Option<string>, d: string): (r: string)
    ensures x.Some? && x.value != "" ==> r == x.value
    ensures x.None? || x.value == "" ==> r == d
  {
    if x.Some? && x.value != "" then x.value else d
  }

  /** True when a JavaScript number is truthy. */
  predicate TruthyInt(x: Option<int>) {
    x.Some? && x.value != 0
  }

  predicate TruthyString(x: Option<string>) {
    x.Some? && x.value != ""
  }

  /** `Math.min` on numbers. */
  function MinReal(a: real, b: real): (r: real)
    ensures r <= a && r <= b
    ensures r == a || r == b
  {
    if a <= b then a else b
  }

  /** `Math.max` on numbers. */
  function MaxReal(a: real, b: real): (r: real)
    ensures r >= a && r >= b
    ensures r == a || r == b
  {
    if a >= b then a else b
  }

  /** `Math.max` on whole numbers. */
  function MaxInt(a: int, b: int): (r: int)
    ensures r >= a && r >= b
    ensures r == a || r == b
  {
    if a >= b then a else b
  }

  /** `Math.round(num / den)` for a positive denominator: the nearest
      integer, halves rounded up (floor of num/den + 1/2). */
  function RoundDiv(num: int, den: int): (r: int)
    requires den > 0
    ensures 2 * den * r <= 2 * num + den < 2 * den * (r + 1)
  {
    (2 * num + den) / (2 * den)
  }

  /** Decimal digits of a natural number, most significant first. */
  function NatToString(n: nat): (s: string)
    ensures |s| >= 1
    decreases n
  {
    if n < 10 then [DigitChar(n)]
    else NatToString(n / 10) + [DigitChar(n % 10)]
  }

  /** Every character of the rendering is a decimal digit. */
  lemma {:induction false} NatToStringDigits(n: nat)
    ensures var s := NatToString(n); forall i :: 0 <= i < |s| ==> '0' <= s[i] <= '9'
    decreases n
  {
    if n >= 10 {
      NatToStringDigits(n / 10);
      var s := NatToString(n);
      assert s == NatToString(n / 10) + [DigitChar(n % 10)];
    }
  }

  function DigitChar(d: nat): (c: char)
    requires d < 10
    ensures '0' <= c <= '9'
  {
    match d
    case 0 => '0' case 1 => '1' case 2 => '2' case 3 => '3' case 4 => '4'
    case 5 => '5' case 6 => '6' case 7 => '7' case 8 => '8' case _ => '9'
  }
}

=== FILE: wrappers.dfy ===
/** Optional values: a field that a record may or may not carry (a JavaScript
    `undefined`), or a lookup that may find nothing. */
module Wrappers {

  datatype Option<+T> = None | Some(value: T) {

    /** The carried value, or `default` when there is none
        (the `x !== undefined ? x : default` idiom). */
    function GetOr(default: T): T {
      match this
      case Some(v) => v
      case None => default
    }
  }
}
